=== FILE: README.md ===
# stock-chart-predictor, modelled in Dafny

This project models the logic of stock-chart-predictor, a stock screener and price predictor.
The application has three parts:

- a Flask service that turns one previous close and a growth rate into seven synthetic feature
  rows and runs one of two pre-trained regressors on them, plus the script that builds the
  training set;
- an Express server with sessions, a users table, stock, holdings, favourites and
  prediction-history tables, the services around Yahoo Finance, and the HTTP controllers;
- a React client with a moving-average chart, a screener, a comparison chart and a range slider.

Every I/O boundary becomes a parameter: the quote provider, the ML service, the clock, random
bytes, SHA-256, `parseFloat`, `Math.pow`/`Math.sqrt`, and the regressors. The database tables
become classes whose `seq`/`map` fields the methods update. Each table's uniqueness constraint
(from the migrations) is kept as the class invariant `Valid()`. The controllers become methods
that return the HTTP status (and body) and change the tables and the session store as the
handlers do. Their contracts state, status by status, the condition under which each answer is
given, in the order in which the handlers check.

Layout, one module per source file:

| file | module | source |
|---|---|---|
| wrappers.dfy | `Wrappers`, `Http` | `Option`/`Result`, and an HTTP reply (status with or without a body) |
| js.dfy | `Js` | the JavaScript semantics the code relies on: truthiness, `trim`, `parseInt`, `Math.round`, `toFixed(2)`, `String(n)`, hex encoding, property lookup on object literals |
| seqs.dfy | `Seqs` | filtering, subsequences, sorting by a key, lexicographic order |
| ml_predict.dfy | `MlPredict` | ml-api/app.py |
| ml_train.dfy | `MlTrain` | ml-api/train_model.py |
| auth_service.dfy | `AuthService` | server/services/AuthService.js |
| auth_middleware.dfy | `AuthMiddleware` | server/middleware/auth.js |
| user_model.dfy | `UserModel` | server/models/User.js |
| validation.dfy | `Validation` | server/utils/validation.js |
| stock_service.dfy | `StockService` | server/services/StockService.js |
| return_calculator.dfy | `ReturnCalculator` | server/services/ReturnCalculator.js |
| yahoo_finance.dfy | `YahooFinance` | server/services/YahooFinanceService.js |
| schema.dfy, stock_model.dfy | `Schema`, `StockModel` | server/models/Stock.js and the stocks table |
| portfolio_model.dfy | `PortfolioModel` | server/models/Portfolio.js |
| favorite_model.dfy | `FavoriteModel` | server/models/Favorite.js |
| history_model.dfy | `HistoryModel` | server/models/History.js |
| stock_controller.dfy … predict_controller.dfy | `StockController`, `PortfolioController`, `FavoriteController`, `HistoryController`, `AuthController`, `PredictController` | server/controllers/*.js |
| stock_chart.dfy, top_page.dfy, compare_chart.dfy, range_slider.dfy | `StockChart`, `TopPage`, `CompareChart`, `RangeSlider` | the client components of the same names |

The model follows the code, with two kinds of exception. First, the three defects under "## Findings" are modelled twice: a member states the code as written and proves the defect, and the rest of the model uses the corrected behaviour (rows marked "corrected, see Findings"). Second, where the code and its own description differ, the model follows the code:

- The comment table in ml-api/train_model.py:28-32 shows a first row with close 105 and return
  0.05. In the code, the return is shifted as well, so the first kept row is the third close.
  `MlTrain.DatasetExample` proves this for 100, 105, 110, 108.
- The client's `HistoryItem` type has no `model` field. The comparison chart still keys its series
  by `symbol-model`, and the rows it receives from the server carry the model, so the model
  includes it.
- The prediction endpoint saves every history row for user 1, whoever is logged in.

## Model

| member | source | states |
|---|---|---|
| MlPredict.FeatureMatrix | ml-api/app.py:29-33 | seven rows of two features, whatever the inputs; the second feature is the return rate in every row |
| MlPredict.FeatureRowsGrow | ml-api/app.py:30-33 | the first row's price is prev_close·(1+r), and each later row's price is the row before it grown by the factor (1+r) |
| MlPredict.ZeroPrevCloseGivesZeroPrices | ml-api/app.py:30-33 | a previous close of 0 gives a price of 0 in every row |
| MlPredict.FeatureMatrixExample | ml-api/app.py:30-33 | prev_close 100 at 5% gives 105 first and 100·1.05^7 last |
| MlPredict.Predict | ml-api/app.py:22-46 | a missing price or rate fails with 500; otherwise "model2"/"model3" answer that regressor's predictions on the features, and any other selector is 400 |
| MlPredict.SevenPredictions | ml-api/app.py:37-46 | with both inputs and a known selector, exactly seven predictions come back |
| MlPredict.DefaultSelectorRejected | ml-api/app.py:27-44 | a body without `model` falls back to "model1", which is always rejected with 400 |
| MlTrain.DropMissingCloses | ml-api/train_model.py:20 | exactly the present closes, in date order: marking each kept close as present gives the input with its missing entries removed |
| MlTrain.NoGapsKept | ml-api/train_model.py:20 | on a series with no missing close `dropna` keeps every close, in order |
| MlTrain.TrainingSetRows | ml-api/train_model.py:17-27 | a downloaded series yields two examples fewer than it has recorded closes, and every target is one of the recorded closes |
| MlTrain.TrainingSet | ml-api/train_model.py:17-36 | the pipeline from the downloaded series to the examples: missing closes dropped, then the dataset built; never more examples than bars |
| MlTrain.Shift | ml-api/train_model.py:24-25 | shifting keeps the length |
| MlTrain.PctChange | ml-api/train_model.py:25 | one change per close |
| MlTrain.Columns | ml-api/train_model.py:24-26 | one frame row per close |
| MlTrain.DropNa | ml-api/train_model.py:27 | dropping incomplete rows never adds rows |
| MlTrain.Features | ml-api/train_model.py:35 | one feature row [PrevClose, Return] per example, in order |
| MlTrain.Targets | ml-api/train_model.py:36 | one target per example, aligned with the features |
| MlTrain.DropNaKeepsComplete | ml-api/train_model.py:27 | on rows without gaps `dropna` keeps every row, in order |
| MlTrain.ColumnsIncomplete | ml-api/train_model.py:24-27 | the first two frame rows lack PrevClose or Return, so they are dropped |
| MlTrain.ColumnsAt | ml-api/train_model.py:24-26 | from the third row on, a row holds yesterday's close, yesterday's return and today's close |
| MlTrain.DatasetRows | ml-api/train_model.py:20-36 | n closes give n−2 examples; example k is (Close[k+1], (Close[k+1]−Close[k])/Close[k]) → Close[k+2] |
| MlTrain.DatasetExample | ml-api/train_model.py:24-32 | 100, 105, 110, 108 give two examples, the first (105, 0.05) → 110 |
| AuthService.CheckRemovesOnlyExpired | server/services/AuthService.js:25-39 | a validity check removes at most the one session it was asked about, and only when that session has expired; it answers valid exactly when the id is still stored afterwards |
| AuthService.CheckIdempotent | server/services/AuthService.js:25-39 | checking the same id twice gives the same answer and removes nothing more |
| AuthService.ExpiryBoundary | server/services/AuthService.js:30-33 | a session exactly 24 hours old is valid; one millisecond older it is not |
| AuthService.ConstructorIdPassesAsWritten | server/services/AuthService.js:25-39 | as written, the cookie value "constructor" passes the check for every store of hex ids, though it is no session (see Findings) |
| AuthService.ValidAsWritten | server/services/AuthService.js:25-39 | `isSessionValid` as written: valid exactly when the id is stored and unexpired, or is not stored but names an `Object.prototype` property (an absent cookie is looked up as "undefined") (as-written half, see Findings) |
| AuthService.AsWrittenAgreesOffPrototype | server/services/AuthService.js:25-39 | for ids that are not `Object.prototype` names, the check as written agrees with the own-property check |
| AuthService.SessionStore.constructor | server/services/AuthService.js:4-6 | a new store is empty |
| AuthService.SessionStore.CreateSession | server/services/AuthService.js:8-15 | the id is the 32-character hex text of the 16 random bytes, and the store maps it to (username, now), everything else unchanged |
| AuthService.SessionStore.GetSession | server/services/AuthService.js:17-19 | the stored record when the id is a key, nothing otherwise, whether expired or not |
| AuthService.SessionStore.DeleteSession | server/services/AuthService.js:21-23 | exactly that key is removed; an absent key changes nothing |
| AuthService.SessionStore.IsSessionValid | server/services/AuthService.js:25-39 | the answer is "stored and not older than 24 hours"; an expired session checked is deleted, nothing else changes |
| AuthService.SessionStore.GetCurrentUser | server/services/AuthService.js:41-46 | the stored record exactly when the session is valid, nothing otherwise, with the same clean-up as the check |
| AuthMiddleware.RequireAuth | server/middleware/auth.js:3-13 | with a valid session `req.user` becomes the session and `next` runs once; otherwise 401 and `next` never runs; the session is checked by own-property lookup (corrected, see Findings) |
| AuthMiddleware.OptionalAuth | server/middleware/auth.js:15-24 | `next` always runs once; `req.user` is set only for a valid session; the session is checked by own-property lookup (corrected, see Findings) |
| AuthMiddleware.Request.constructor | server/middleware/auth.js:4 | a request carrying the session cookie and no `user` yet |
| UserModel.VerifyAcceptsOwnHash | server/models/User.js:25-35 | a password always verifies against the hash computed from it and its salt |
| UserModel.OnlyConcatenationMatters | server/models/User.js:25-30 | only `salt + password` is hashed, so two pairs with the same concatenation verify alike |
| UserModel.Salt | server/models/User.js:6 | the salt is 12 hexadecimal digits |
| UserModel.HashPassword | server/models/User.js:25-30 | the stored hash is a 64-digit hexadecimal SHA-256 digest, so it always fits the `varchar(255)` password column |
| UserModel.VerifyPassword | server/models/User.js:32-35 | a stored value that is not a hexadecimal digest never verifies |
| UserModel.FirstByUsername | server/models/User.js:17-19 | a row is found exactly when some row has that username, and it is such a row |
| UserModel.UserTable.FindByUsername | server/models/User.js:17-19 | found exactly when the table holds that username; the row found carries it |
| UserModel.UserTable.Create | server/models/User.js:5-15 | the insert fails, changing no row, exactly when the username or the email is longer than its `varchar(255)` column or the email is taken; otherwise one row is appended with the id the sequence hands out, the salt and the salted hash (never the plain password); the id sequence advances on both paths, as a serial column does when the insert fails |
| UserModel.CreatedUserVerifies | server/models/User.js:5-35 | a stored user verifies with the password it was created with |
| Validation.IsValidSymbol | server/utils/validation.js:2-4 | valid exactly for a string holding a non-white-space character |
| Validation.IsValidRange | server/utils/validation.js:6-9 | valid exactly for "1w", "1m", "1y" and "3y" |
| Validation.IsValidModel | server/utils/validation.js:11-14 | valid exactly for "model1", "model2" and "model3" |
| Validation.IsValidUsername | server/utils/validation.js:16-18 | valid exactly for a string whose JavaScript length (UTF-16 code units, so a character outside the BMP counts twice) is at least 3 |
| Validation.IsValidPassword | server/utils/validation.js:25-27 | valid exactly for a string whose JavaScript length (UTF-16 code units) is at least 6 |
| Js.Utf16Length | server/utils/validation.js:16-18 | the JavaScript `length` of a text lies between its character count and twice that, and equals the character count exactly when every character lies in the Basic Multilingual Plane |
| Validation.AstralCharactersCountTwice | server/utils/validation.js:16-27 | a two-character name with an emoji passes the 3-character check and a five-character password with an emoji passes the 6-character check, while "ab" fails |
| Validation.IsValidNote | server/utils/validation.js:29-31 | valid exactly for strings, the empty one included |
| Validation.IsValidEmail | server/utils/validation.js:20-23 | valid exactly when the text matches run@run.run; such a text has at least 5 characters |
| Validation.EmailFromParts | server/utils/validation.js:21 | every run@run.run built from three runs without white space or `@` matches |
| Validation.EmailHasOneAt | server/utils/validation.js:21 | a matching address has no white space and exactly one `@`, neither first nor last |
| Validation.PlainAddressAccepted | server/utils/validation.js:20-23 | "taro@example.com" is accepted |
| Validation.MissingDotRejected | server/utils/validation.js:20-23 | "taro@example" is rejected |
| Validation.SpaceRejected | server/utils/validation.js:20-23 | an address with a space is rejected |
| Validation.DoubledAtRejected | server/utils/validation.js:20-23 | an address with two `@` is rejected |
| UserModel.UserTable.constructor | server/migrations/20250518093541_create_users_table.js:3 | a new table is empty and its ids start at 1 |
| StockService.DaysFromRange | server/services/StockService.js:41-52 | the window is 7, 30, 365 or 1095 days, and 7 for anything but "1m", "1y" and "3y" |
| StockService.RangesOrdered | server/services/StockService.js:41-52 | the windows grow strictly from "1w" to "3y", and "3y" is three years |
| StockService.ChartWindow | server/services/StockService.js:6-14 | the chart request asks for daily bars ending now and starting exactly that many days earlier |
| StockService.Slice10 | server/services/StockService.js:61 | the date text is a prefix of at most 10 characters of the ISO timestamp |
| StockService.FormatStockData | server/services/StockService.js:54-68 | an empty quote list is the "not found" error; otherwise one close and one date per bar, index for index: the bar's close, and the first 10 characters of its ISO timestamp |
| StockService.GetStockData | server/services/StockService.js:5-22 | no quote list is the "could not fetch" error, an empty one the "not found" error, otherwise the formatted series |
| Js.StrOrNull | server/services/StockService.js:27-29 | `x || null` on a text: null exactly when it is absent or empty, the text otherwise; the filter handler keeps a text condition the same way |
| StockService.GetCompanyInfo | server/services/StockService.js:24-31 | each company field is the quote's field when that field is present and non-empty, and null otherwise |
| StockService.SimplePrediction | server/services/StockService.js:70-74 | seven entries, entry i is lastPrice·1.01^(i+1) rounded by `Math.round` |
| StockService.SimplePredictionClose | server/services/StockService.js:70-74 | each entry is within one half of the compounded price |
| StockService.SimplePredictionNondecreasing | server/services/StockService.js:70-74 | for a non-negative price the entries never decrease |
| StockService.MlPrediction | server/services/StockService.js:76-86 | succeeds exactly when the service answers, with a price and a known selector, giving that regressor's output on the rate-0.01 features; an unreachable service is the HTTP client's own error; otherwise the client's "status code 500/400" error, 500 also when the regressor raises |
| StockService.PredictStockPrice | server/services/StockService.js:33-39 | "model1" is the local rule, whatever the ML service does; every other selector goes to the ML service; only the three known selectors succeed |
| StockService.NullCloseSimplePrediction | server/services/StockService.js:70-74 | under "model1" a null last close predicts seven zeros |
| ReturnCalculator.DailyReturnsOf | server/services/ReturnCalculator.js:21-28 | one daily return per pair of consecutive bars |
| ReturnCalculator.DailyReturnsAt | server/services/ReturnCalculator.js:23-28 | entry i is bar i+1's close against bar i's, and there are |bars|−1 of them |
| ReturnCalculator.DailyReturns | server/services/ReturnCalculator.js:21-28 | the loop builds exactly the daily-return list |
| ReturnCalculator.VarianceNonnegative | server/services/ReturnCalculator.js:36-37 | the variance the volatility is taken from is never negative |
| ReturnCalculator.MeanBounds | server/services/ReturnCalculator.js:36 | the mean return lies between any bounds of the daily returns |
| ReturnCalculator.ConstantReturns | server/services/ReturnCalculator.js:36-37 | constant daily returns have that mean and zero variance |
| ReturnCalculator.Expected | server/services/ReturnCalculator.js:5-51 | null figures exactly when the history is missing or shorter than 30 bars; non-finite figures exactly when a close used as a denominator is 0 |
| ReturnCalculator.ExpectedComputed | server/services/ReturnCalculator.js:30-45 | otherwise the figures are 100·annualised total return (last close against first over the period's days) and 100·√(252·variance) of |bars|−1 daily returns |
| ReturnCalculator.CalculateReturns | server/services/ReturnCalculator.js:5-51 | the method answers what `Expected` describes |
| ReturnCalculator.RunBatch | server/services/ReturnCalculator.js:81-98 | after a batch every symbol of it holds its own figures and every other key is unchanged |
| ReturnCalculator.CalculateMultipleReturns | server/services/ReturnCalculator.js:74-107 | the keys are exactly the symbols, each holding its own figures, processed in consecutive batches of five |
| YahooFinance.LoadStockSymbols | server/services/YahooFinanceService.js:8-41 | with both files read, the US symbols followed by the Tokyo symbols, in file order; otherwise exactly the 60 fallback symbols |
| YahooFinance.FallbackMarkets | server/services/YahooFinanceService.js:29-39 | the last thirty fallback symbols are Tokyo listings, and 6954.T is listed twice |
| YahooFinance.JapaneseSector | server/services/YahooFinanceService.js:70-95 | always one of the eleven categories: the table's category for a listed sector, "Other" for any other (corrected lookup, see Findings) |
| YahooFinance.JapaneseSectorAsWritten | server/services/YahooFinanceService.js:70-95 | the lookup as written agrees with the corrected one on every sector that is not a name of `Object.prototype` |
| YahooFinance.PrototypeSectorAsWritten | server/services/YahooFinanceService.js:94 | as written, the sector "toString" maps to the inherited function rather than "Other" (see Findings) |
| YahooFinance.SectorExamples | server/services/YahooFinanceService.js:71-93 | the consumer, financial, materials and telecommunication aliases map to their categories, and an empty sector to "Other" |
| YahooFinance.SectorNotIdempotent | server/services/YahooFinanceService.js:71-94 | mapping twice differs from mapping once: "Consumer Goods" is a result but not a key |
| YahooFinance.OrZero | server/services/YahooFinanceService.js:250-256 | the number when present and non-zero, otherwise 0 |
| YahooFinance.ProfileSector | server/services/YahooFinanceService.js:114-130 | the profile's sector when it is a non-empty string, otherwise "Other"; never empty |
| YahooFinance.FetchStockData | server/services/YahooFinanceService.js:107-277 | no record exactly when the quote failed or has no price; otherwise ".T" symbols are Japanese with the mapped sector (corrected, see Findings) and the rest US with the profile's sector, the name falls back to the symbol, missing figures read 0 and the yield is a percentage |
| YahooFinance.Somes | server/services/YahooFinanceService.js:291-297 | no more values than results |
| YahooFinance.SomesMembers | server/services/YahooFinanceService.js:291-297 | a value is kept exactly when it was a present result |
| YahooFinance.SomesOfPresent | server/services/YahooFinanceService.js:291-297 | when every result is present, all are kept, in order |
| YahooFinance.Fetched | server/services/YahooFinanceService.js:376-378 | one result per symbol, in symbol order |
| YahooFinance.CollectValid | server/services/YahooFinanceService.js:380-386 | the loop keeps exactly the present results, in order |
| YahooFinance.UpdateSelectedStocks | server/services/YahooFinanceService.js:374-411 | one stored row per valid record, in order, each carrying its quote and time; for every symbol the row that the last of its records wrote is the table's only row of that symbol; rows of other symbols are kept and no foreign row appears |
| YahooFinance.StoreAll | server/services/YahooFinanceService.js:388-410 | the upsert loop answers one row per record, in order, each carrying its record and the time; the row written by the last record of each symbol is the only row of that symbol afterwards; every original row of an unwritten symbol is still there, and every row is original or of a written symbol |
| YahooFinance.ToApi | server/services/YahooFinanceService.js:323-340 | every column carried over unchanged (symbol, name, country, sector, price, ratios, market figures, update time); a falsy annual return or volatility reads null, any other is kept |
| YahooFinance.MapToApi | server/services/YahooFinanceService.js:323-340 | row by row, the list format of each row |
| YahooFinance.FetchMultipleStockData | server/services/YahooFinanceService.js:280-341 | a non-empty table is answered unchanged in the list format; an empty one is filled from the known symbols, the valid records are answered, and the table then holds exactly one row per symbol, the one carrying that symbol's last record |
| YahooFinance.FreshTable | server/services/YahooFinanceService.js:280-341 | when the table started empty and the last row written for each symbol is its only row, the table holds exactly one row per fetched symbol, carrying that symbol's last record, and nothing else |
| YahooFinance.FetchFilteredStockData | server/services/YahooFinanceService.js:344-366 | the filtered rows, in the filter's order, each in the list format; each entry comes from a stored row that matches |
| YahooFinance.ResetAndReload | server/services/YahooFinanceService.js:421-437 | afterwards no holding and no favourite remains, one row is answered per valid record carrying that record, and the table holds exactly one row per fetched symbol, the one carrying its last record |
| Schema.FindStock | server/models/Stock.js:8-10 | a row is found exactly when some row has the symbol, and it is such a row |
| Schema.IndexOfSymbol | server/models/Stock.js:67-76 | the position of a row with the symbol, present exactly when a row is found |
| StockModel.Apply | server/models/Stock.js:67-76 | an update keeps the symbol; a return patch sets exactly the return and volatility columns; a quote patch leaves them and the dividend alone |
| StockModel.NewRow | server/models/Stock.js:62-65 | a first insert carries the quote, no returns yet and a zero dividend |
| StockModel.Distinct | server/models/Stock.js:108-113 | the distinct column values, each exactly once, sorted |
| StockModel.StockTable.constructor | server/migrations/20250101120000_create_stocks_table.js:4 | a new table is empty and in symbol order |
| StockModel.StockTable.GetAll | server/models/Stock.js:4-6 | every row, in symbol order |
| StockModel.StockTable.GetBySymbol | server/models/Stock.js:8-10 | found exactly when a row has the symbol |
| StockModel.StockTable.GetFiltered | server/models/Stock.js:12-60 | exactly the rows meeting every condition that applies, in symbol order, as a subsequence of the table |
| StockModel.StockTable.GetAvailableFilters | server/models/Stock.js:107-115 | the wildcard first, then every country (sector) present, each once, sorted |
| StockModel.StockTable.Update | server/models/Stock.js:67-76 | with a row of that symbol, that row alone is replaced by the patched row, which is returned; without one nothing changes and nothing is returned |
| StockModel.StockTable.Create | server/models/Stock.js:62-65 | a taken symbol fails and changes nothing; otherwise exactly the new row is added |
| StockModel.StockTable.Upsert | server/models/Stock.js:78-86 | afterwards exactly one row has the symbol and it carries the quote; other rows are kept; updating keeps the count, inserting adds one |
| StockModel.StockTable.ClearAll | server/models/Stock.js:126-128 | every stock row goes, and by the cascading foreign keys every holding and favourite too; answers how many stock rows were deleted |
| StockModel.SymbolsDistinct | server/migrations/20250101120000_create_stocks_table.js:4 | the table holds no symbol twice |
| StockModel.NoFiltersKeepsAll | server/models/Stock.js:12-60 | without conditions every row comes back |
| StockModel.SameMatchesSameRows | server/models/Stock.js:12-60 | conditions that accept the same rows select the same rows |
| StockModel.Wildcards | server/models/Stock.js:18-28 | "All Countries", a blank country and no country filter alike, and likewise for sectors |
| StockModel.NameLike | server/models/Stock.js:30-34 | `name ILIKE '%part%'` with ASCII case folding: an empty part matches every name, and a match needs a name at least as long as the part |
| StockModel.NameCaseInsensitive | server/models/Stock.js:30-34 | the name search ignores the case of the ASCII letters searched for |
| PortfolioModel.PositionOf | server/models/Portfolio.js:15-17 | value = shares·price, gain = (price − purchase price)·shares, returnPercent·purchase price = 100·(price − purchase price); a zero purchase price is the division error |
| PortfolioModel.Join | server/models/Portfolio.js:4-20 | the inner join: one position per stock row that some holding references, computed from that pair, with the stock's dividend yield (corrected, see Findings); it fails exactly when such a holding was bought at price 0 |
| PortfolioModel.Summarize | server/models/Portfolio.js:76-116 | an empty portfolio gives all zeros and no stocks; otherwise the total value, investment and dividends are the sums over the holdings, the gain is value minus investment, the average return times the count is the sum of returns, the risk is 3.7 and the stocks are the rows; the yield is dividends over value in percent, and 0 when there is no value |
| PortfolioModel.PnLIsTotalGain | server/models/Portfolio.js:92-94 | the unrealised profit equals the sum of the rows' `return` column |
| PortfolioModel.UniformYieldSummary | server/models/Portfolio.js:98-103 | when every stock held yields y and the portfolio has value, the dividends are y% of the value and the yield is y (corrected behaviour, see Findings) |
| PortfolioModel.SelectAsWritten | server/models/Portfolio.js:7-18 | the rows as the query builds them: no dividend yield on any row |
| PortfolioModel.DividendsAlwaysZeroAsWritten | server/models/Portfolio.js:98-103 | as written, annual dividends and yield are 0 whatever the stocks pay (see Findings) |
| PortfolioModel.DividendExample | server/models/Portfolio.js:98-103 | ten shares at 100 yielding 2%: 0 as written, 20 a year and 2% once the yield is selected |
| PortfolioModel.PortfolioTable.constructor | server/migrations/20250120000001_create_portfolio_table.js:19 | a new table holds no holdings |
| PortfolioModel.PortfolioTable.GetBySymbol | server/models/Portfolio.js:22-24 | the holding of that symbol, if any |
| PortfolioModel.PortfolioTable.GetAll | server/models/Portfolio.js:4-20 | the joined rows, newest purchase first, as a permutation of the join; fails exactly when the join does; each row carries the stock's dividend yield, which the query as written does not select (corrected, see Findings) |
| PortfolioModel.PortfolioTable.GetPortfolioSummary | server/models/Portfolio.js:76-116 | the summary of `getAll`'s rows, so dividends and yield come from the stocks' yields (corrected, see Findings); fails exactly when `getAll` does |
| PortfolioModel.PortfolioTable.Add | server/models/Portfolio.js:26-53 | an existing holding gains the shares and keeps its price, and the id sequence is untouched (an UPDATE); otherwise a new holding with the next id when the stock exists, and the foreign-key error when it does not; both INSERT paths advance the id sequence; no other holding changes |
| PortfolioModel.PortfolioTable.Update | server/models/Portfolio.js:55-66 | an existing holding gets exactly the new shares and price; an absent one gives nothing and changes nothing |
| PortfolioModel.PortfolioTable.Remove | server/models/Portfolio.js:68-74 | true exactly when a holding existed; afterwards there is none for that symbol and the rest are kept |
| FavoriteModel.ViewOf | server/models/Favorite.js:26-34 | symbol, name, country, sector, price and update time carried over; each ratio column reads null exactly when the stored value is falsy (null or 0), and the stored value otherwise |
| FavoriteModel.Join | server/models/Favorite.js:5-22 | the inner join: row by row, the view of each favourite stock row with its favourite, in stock order |
| FavoriteModel.FavoriteTable.constructor | server/migrations/20250120000000_create_favorites_table.js:15 | a new table holds no favourites |
| FavoriteModel.FavoriteTable.IsFavorite | server/models/Favorite.js:63-66 | true exactly when some favourite has that symbol |
| FavoriteModel.FavoriteTable.GetAll | server/models/Favorite.js:4-35 | the joined views, newest first, as a permutation of the join |
| FavoriteModel.FavoriteTable.Add | server/models/Favorite.js:41-53 | an existing favourite is returned unchanged and the id sequence is untouched; otherwise a new row with the next id stamped `now` when the stock exists, and the foreign-key error when it does not; both INSERT paths advance the id sequence; no other favourite changes |
| FavoriteModel.FavoriteTable.Remove | server/models/Favorite.js:55-61 | true exactly when the symbol was a favourite; afterwards it is not, and only that row went |
| FavoriteModel.AddTwice | server/models/Favorite.js:42-45 | adding twice is adding once: the second call returns the first call's row |
| HistoryModel.IndexOfKey | server/migrations/20250519113126_update_model_and_unique.js:19-21 | the position of the row with that (symbol, user, range, model) key, or none when no row has it |
| HistoryModel.IndexOfId | server/models/History.js:21-23 | the position of the row with that id, or none when no row has it |
| HistoryModel.UserRows | server/models/History.js:25-30 | exactly the rows whose owner is that user |
| HistoryModel.NewestOfUser | server/models/History.js:25-30 | the result holds min(limit, the user's row count) rows, newest first, all of that user and of the table, and no row of the user left out is newer than one kept |
| HistoryModel.CutKeepsDistinct | server/models/History.js:36-38 | removing one row keeps ids and keys unique and adds no row |
| Seqs.RemoveOnly | server/models/History.js:36-38 | deleting where id matches, when exactly one row matches, cuts that one row out |
| HistoryModel.HistoryTable.constructor | server/migrations/20250512143744_create_histories.js:3 | a new table is empty and its id sequence starts at 1 |
| HistoryModel.HistoryTable.Upsert | server/models/History.js:8-13 | on a key conflict the existing row takes every new column and keeps its id; otherwise the row is appended with the next id; ids and keys stay unique |
| HistoryModel.HistoryTable.FindAll | server/models/History.js:15-19 | a negative limit is an error; otherwise min(limit, rows) rows, newest first, drawn from the table, and no row left out is newer than one kept |
| HistoryModel.HistoryTable.FindByUserId | server/models/History.js:25-30 | a negative limit is an error; otherwise min(limit, the user's row count) rows drawn from that user's rows (as a sub-multiset), newest first, and no row of the user left out is newer than one kept |
| HistoryModel.HistoryTable.FindById | server/models/History.js:21-23 | some row exactly when a row has that id, and then it is that row |
| HistoryModel.HistoryTable.UpdateNote | server/models/History.js:32-34 | a note longer than the `varchar(255)` column fails exactly when a row has the id, and changes nothing; otherwise the count is 1 when the id exists and 0 when it does not, that row's note is replaced and every other row is unchanged |
| HistoryModel.HistoryTable.Delete | server/models/History.js:36-38 | the count is 1 when the id exists and 0 otherwise; the table becomes the rows whose id differs, in order |
| HistoryController.LimitOf | server/controllers/HistoryController.js:14 | never 0: absent, unparsable and 0 limits fall back to 20, and any other parsed integer (negative included) is kept |
| HistoryController.LimitOfNumber | server/controllers/HistoryController.js:14 | a decimal limit n is used as n, and "0" means 20 |
| HistoryController.GetAllHistories | server/controllers/HistoryController.js:5-22 | 401 exactly without a valid session; 500 exactly for a negative limit; otherwise `findAll(limit)` with at most `limit` rows; the session is checked by own-property lookup (corrected, see Findings) |
| HistoryController.GetHistoryById | server/controllers/HistoryController.js:24-45 | 401 exactly without a valid session; 500 for an id the database cannot read; 404 exactly when no row has the id; otherwise that row; the session is checked by own-property lookup (corrected, see Findings) |
| HistoryController.UpdateNote | server/controllers/HistoryController.js:47-78 | 400 exactly for a non-string note, before any session is looked at; then 401 and 404 as for reading (corrected session check, see Findings); 500 for an unreadable id and for a note longer than 255 characters, which the update refuses; only 200 changes the table, and then only that row's note; the id sequence is never touched |
| HistoryController.DeleteHistory | server/controllers/HistoryController.js:80-103 | 401, 500 and 404 as for reading, none of which changes the table; 204 removes exactly the rows with that id; the session is checked by own-property lookup (corrected, see Findings); the id sequence is never touched |
| AuthController.Register | server/controllers/AuthController.js:5-30 | 400 exactly when a field is missing; 409 exactly for a taken username; 500 exactly when the insert fails: the username or the email is longer than 255 characters or the email is taken; 201 otherwise; only 201 adds a row, exactly one, with that name and email and a hash the password verifies against |
| AuthController.Login | server/controllers/AuthController.js:32-64 | 400 exactly for a missing field; 401 exactly when the user is unknown or the password does not verify; failures create no session; 200 sets the hex session id as the cookie and stores one session for the user |
| AuthController.RegisteredUserLogsIn | server/controllers/AuthController.js:5-64 | a user created by registration is accepted at login with the same password |
| AuthController.Logout | server/controllers/AuthController.js:66-78 | always 200 and a cleared cookie; only the cookie's session is deleted; the session is checked by own-property lookup (corrected, see Findings) |
| AuthController.GetCurrentUser | server/controllers/AuthController.js:80-105 | 401 exactly without a valid session; 404 exactly when its user is gone; otherwise that user's id, name and email, without hash or salt; the session is checked by own-property lookup (corrected, see Findings) |
| PredictController.ErrorStatus | server/controllers/PredictController.js:59-71 | 400 exactly when the message mentions the failed fetch, 404 exactly when it mentions missing data instead, 500 otherwise |
| PredictController.LacksFirst | server/controllers/PredictController.js:62-68 | a message without the first character of a text does not contain it |
| PredictController.ErrorStatuses | server/controllers/PredictController.js:59-71 | the service's fetch-failed message gives 400, its not-found message 404, and an HTTP client error 500 |
| PredictController.RecordOf | server/controllers/PredictController.js:34-46 | the saved row belongs to user 1, has an empty note, and carries the prediction, the time and the request's range and model |
| PredictController.Compute | server/controllers/PredictController.js:23-31 | the first error of the history, prediction and company steps is passed on; success means every step succeeded and the prediction starts from the last observed close |
| PredictController.UnreachableServiceIs500 | server/controllers/PredictController.js:27-70 | with an unreachable ML service a model2 or model3 prediction fails with the connection error, which the handler answers with 500 |
| PredictController.Datas | server/models/History.js:8-13 | the data columns of the rows, row by row |
| PredictController.Predict | server/controllers/PredictController.js:6-72 | 400 without a symbol, before the session is looked at; 401 without a valid session; an error's status by its message; failures save nothing; success upserts the record (defaults "1w" and "model1"): the row with the same key is overwritten in place keeping its id, or the record is appended with the next id, and no other row changes; the session is checked by own-property lookup (corrected, see Findings) |
| StockController.BoundOr | server/controllers/StockController.js:51-52 | a truthy bound is parsed, otherwise the default |
| StockController.RangeOf | server/controllers/StockController.js:49-54 | a range exists exactly when either bound is given, even empty; missing or empty bounds take 0 and the maximum |
| StockController.FiltersOf | server/controllers/StockController.js:43-75 | each condition as the handler builds it: PE up to 1000, PB and dividend up to 100, market cap up to 2^53−1 |
| StockController.BuildFilters | server/controllers/StockController.js:43-75 | the handler's assignments build exactly `FiltersOf` |
| StockController.EmptyQueryListsAll | server/controllers/StockController.js:43-75 | an empty query string lists every stock |
| StockController.EmptyBoundStillFilters | server/controllers/StockController.js:45-54 | an empty `peMin` still makes the range 0..1000, while an empty country adds no condition |
| StockController.SymbolList | server/controllers/StockController.js:154-159 | accepted exactly when the body's symbols are a non-empty array |
| StockController.Strings | server/services/YahooFinanceService.js:374-411 | the string entries of the list, and only they |
| StockController.GetStockBySymbol | server/controllers/StockController.js:115-147 | 400 exactly for an empty symbol; 404 exactly when no stock has it; otherwise the stored row of that symbol |
| StockController.UpdateSelectedStocks | server/controllers/StockController.js:150-177 | 400 exactly for a bad list, fetching and changing nothing; otherwise one row per quote that arrived, carrying it; each symbol's last quote is its only row; rows of other symbols are kept and no foreign row appears |
| StockController.Refreshed | server/controllers/StockController.js:256-264 | a row takes the computed annual return and volatility exactly when both are numbers; otherwise it is unchanged |
| StockController.RefreshedAll | server/controllers/StockController.js:256-264 | every row refreshed, row by row |
| StockController.RefreshStep | server/controllers/StockController.js:256-264 | a symbol without both figures changes nothing |
| StockController.StoreReturns | server/controllers/StockController.js:255-266 | after the write-back every row is refreshed by the results and nothing else changes |
| StockController.CalculateReturns | server/controllers/StockController.js:241-281 | 400 exactly for a bad list, changing nothing; otherwise one result per listed symbol, each as the calculator defines it, and the table refreshed by them |
| FavoriteController.GetAllFavorites | server/controllers/FavoriteController.js:5-19 | 200 with the repository's list: the joined favourites, newest first, a permutation of the join |
| FavoriteController.AddToFavorites | server/controllers/FavoriteController.js:22-45 | 400 exactly without a symbol, and then nothing changes; 500 exactly for a new symbol with no stock, no favourite changing; otherwise 200 with the favourite: the existing one when already there, else the inserted row with the next id and time `now`; the id sequence advances exactly for a new symbol |
| FavoriteController.RemoveFromFavorites | server/controllers/FavoriteController.js:48-79 | 400 exactly without a symbol; 200 exactly when it was a favourite; 404 otherwise; afterwards it is not a favourite; the id sequence is never touched |
| FavoriteController.CheckIsFavorite | server/controllers/FavoriteController.js:82-105 | 400 exactly without a symbol; otherwise 200 with whether some favourite has the symbol |
| PortfolioController.Validate | server/controllers/PortfolioController.js:43-55 | accepted exactly when the symbol is present and both numbers are positive; "missing" exactly when a field is absent or zero |
| PortfolioController.ZeroAndNegativeShares | server/controllers/PortfolioController.js:43-55 | zero shares are reported as missing, negative shares as not positive |
| PortfolioController.GetPortfolio | server/controllers/PortfolioController.js:5-19 | 500 exactly when the query fails; otherwise 200 with its rows, which carry the dividend yield (corrected, see Findings) |
| PortfolioController.GetPortfolioSummary | server/controllers/PortfolioController.js:22-36 | 500 exactly when the query fails; otherwise 200 with the summary of its rows, with dividends from the stocks' yields (corrected, see Findings) |
| PortfolioController.AddToPortfolio | server/controllers/PortfolioController.js:39-69 | 400 exactly for a refused request, changing nothing; 500 exactly for a valid request for a symbol neither held nor in the stocks table, changing no holding; otherwise 200: a held symbol's holding with the request's shares added, or a new holding with the next id, the request's shares and price and the purchase date `now`; the id sequence advances exactly when the symbol was not held |
| PortfolioController.UpdatePortfolio | server/controllers/PortfolioController.js:72-111 | 400 exactly for a refused request; 404 exactly for a symbol not held; failures change nothing; 200 sets exactly the requested shares and price |
| PortfolioController.RemoveFromPortfolio | server/controllers/PortfolioController.js:114-145 | 400 exactly without a symbol; 200 exactly when it was held; 404 otherwise; afterwards it is not held; the id sequence is never touched |
| StockChart.CalculateSma | client/src/components/StockChart.tsx:19-29 | one entry per day; no value exactly before the first full window; each value within half a hundredth of the mean of the window ending that day |
| StockChart.SmaAt | client/src/components/StockChart.tsx:23-28 | entry `i` is missing exactly when `i < windowSize - 1`; otherwise it lies within half a hundredth of the mean of the window ending at `i` |
| StockChart.SumSplit | client/src/components/StockChart.tsx:26 | the sum of closes splits at any point into the sums of the two parts |
| StockChart.SmaByRunningTotals | client/src/components/StockChart.tsx:19-29 | each average equals the difference of two running totals over the window, rounded: an independent way to compute the series |
| StockChart.SumBounds | client/src/components/StockChart.tsx:26 | n closes within [lo, hi] sum to between n·lo and n·hi |
| StockChart.SmaWithinRange | client/src/components/StockChart.tsx:19-29 | when every close lies in [lo, hi], so does every average, up to the rounding |
| StockChart.SmaOfFlatSeries | client/src/components/StockChart.tsx:19-29 | a constant series c averages to c rounded to hundredths |
| StockChart.ChartData | client/src/components/StockChart.tsx:38-57 | one point per observed date (its close, the moving average at that index, present exactly after a full window, no prediction) followed by one point per predicted date (prediction only) |
| TopPage.FilteredStocks | client/src/pages/TopPage.tsx:56-63 | a subsequence of the stocks, each meeting the country, sector and three ranges (both ends included), and every stock that meets them is shown |
| TopPage.FilteredCopies | client/src/pages/TopPage.tsx:56-63 | duplicates are kept as often as they occur: every copy of a stock that meets the filters is shown, and no copy of one that does not |
| TopPage.FoundCount | client/src/pages/TopPage.tsx:354 | never more than the number of stocks |
| TopPage.RoeIgnored | client/src/pages/TopPage.tsx:56-63 | the ROE slider never changes what is shown |
| TopPage.WildcardsKeepEveryCountryAndSector | client/src/pages/TopPage.tsx:57-58 | with both wildcards chosen, every stock whose ratios are in range is shown, in order |
| TopPage.InitialStateShowsAll | client/src/pages/TopPage.tsx:15-63 | the page opens showing all three sample stocks |
| TopPage.JapanShowsToyota | client/src/pages/TopPage.tsx:23-63 | choosing Japan shows Toyota alone |
| CompareChart.KeyIsNotDate | client/src/components/CompareChart.tsx:19-24 | no series key is "date", so no cell overwrites a row's label |
| CompareChart.MaxLength | client/src/components/CompareChart.tsx:17 | the length of the longest prediction: no prediction is longer, and one is that long |
| CompareChart.DateAt | client/src/components/CompareChart.tsx:20 | the first prediction's date when it is a non-empty string, otherwise "+{i+1}日" |
| CompareChart.CellsKeys | client/src/components/CompareChart.tsx:22-24 | a row has a cell for exactly the series keys of the items |
| CompareChart.CellsLastWins | client/src/components/CompareChart.tsx:22-24 | a series' cell holds the value of the last item with that key, `undefined` past its end |
| CompareChart.CompareView | client/src/components/CompareChart.tsx:11-26 | the placeholder exactly when nothing is selected; otherwise as many rows as the longest prediction, row i labelled and filled as above |
| CompareChart.BuildChart | client/src/components/CompareChart.tsx:11-26 | the component's loops build exactly `CompareView` |
| CompareChart.LaterItemWins | client/src/components/CompareChart.tsx:22-24 | two predictions of the same symbol and model share one series, drawn from the later |
| RangeSlider.Percentage | client/src/components/RangeSlider.tsx:25-27 | 0 at the low end, 100 at the high end, and within [0, 100] between them |
| RangeSlider.ValueFromPercentage | client/src/components/RangeSlider.tsx:29-31 | the low end at 0, the high end at 100, and within the track between them |
| RangeSlider.PercentageRoundTrip | client/src/components/RangeSlider.tsx:25-31 | on a track of non-zero length the two conversions undo each other, both ways |
| RangeSlider.Clamp | client/src/components/RangeSlider.tsx:42 | within [0, 100]; unchanged inside, 0 below, 100 above |
| RangeSlider.Snap | client/src/components/RangeSlider.tsx:43 | a whole multiple of the step, within half a step of the value |
| RangeSlider.Fraction | client/src/components/RangeSlider.tsx:26 | a part of a positive whole is a fraction in [0, 1] |
| RangeSlider.ScaleBounds | client/src/components/RangeSlider.tsx:43 | scaling by a positive factor keeps the bounds |
| RangeSlider.PointerValue | client/src/components/RangeSlider.tsx:41-43 | a whole multiple of the step, within half a step of the track |
| RangeSlider.Dragged | client/src/components/RangeSlider.tsx:45-51 | the dragged end follows the pointer but stays at least one step from the other end, which does not move |
| RangeSlider.Slider.constructor | client/src/components/RangeSlider.tsx:13-23 | a slider holding the given range, with no drag in progress |
| RangeSlider.Slider.MouseDown | client/src/components/RangeSlider.tsx:33-36 | pressing a thumb starts dragging it and leaves the range alone |
| RangeSlider.Slider.MouseUp | client/src/components/RangeSlider.tsx:54-56 | releasing ends the drag and leaves the range alone |
| RangeSlider.Slider.MouseMove | client/src/components/RangeSlider.tsx:38-52 | nothing changes without a drag or a track; otherwise the range is `Dragged` to the pointer's value, so its ends stay at least a step apart |
| Js.NumOrNull | server/models/Favorite.js:28-33 | `x ? x : null` on a number: null exactly when it is absent or zero, the number otherwise |
| Js.TrimStart | server/models/Stock.js:19 | a suffix of the text whose removed prefix is all white space and which does not start with white space |
| Js.TrimEnd | server/models/Stock.js:19 | a prefix of the text whose removed suffix is all white space and which does not end with white space |
| Js.Trim | server/utils/validation.js:3 | empty exactly when the text is all white space; otherwise it starts and ends with a non-space |
| Js.TrimStartBlank | server/models/Stock.js:19 | trimming the front leaves nothing exactly when the text is all white space |
| Js.TrimEndBlank | server/models/Stock.js:19 | trimming the end leaves nothing exactly when the text is all white space |
| Js.AsciiLower | server/models/Stock.js:32 | the same length, each character lower-cased on its own |
| Js.MathRound | client/src/components/RangeSlider.tsx:43 | the integer within half of x, ties going up |
| Js.ToFixed2 | client/src/components/StockChart.tsx:27 | a whole number of hundredths within half a hundredth of x |
| Js.DigitChar | server/services/StockService.js:72 | the decimal digit whose code is `d` past '0' |
| Js.NatToString | client/src/components/CompareChart.tsx:18 | `String(n)`: decimal digits, no leading zero, denoting n |
| Js.HexDigit | server/services/AuthService.js:9 | a lower-case hexadecimal digit |
| Js.HexValue | server/services/AuthService.js:9 | the digit's value, which `HexDigit` turns back into the digit |
| Js.HexEncode | server/services/AuthService.js:9 | `toString('hex')`: two lower-case hexadecimal digits per byte |
| Js.HexRoundTrip | server/models/User.js:6 | decoding the hex text gives the bytes back, so distinct byte strings give distinct ids and salts |
| Js.ByteFromDigits | server/services/AuthService.js:9 | a byte is its high digit times 16 plus its low digit |
| Js.DigitValue | server/services/AuthService.js:9 | decoding a digit gives its value |
| Js.DigitIn | server/controllers/HistoryController.js:14 | a digit of the radix, below the radix; in base 10 exactly the decimal digits, with their values |
| Js.DigitRun | server/controllers/HistoryController.js:14 | the longest prefix of digits: every character before it is one, the one after it is not |
| Js.UnsignedValue | server/controllers/HistoryController.js:14 | a value only for non-empty text |
| Js.ParseInt | server/controllers/HistoryController.js:14 | a number only when something is left after the leading white space |
| Js.ParseIntValue | server/controllers/HistoryController.js:14 | white space, then an optional `+` or `-`, then decimal digits, then anything that does not continue the number: the digits' value, negated after a minus |
| Js.SignedDecimal | server/controllers/HistoryController.js:14 | an optional sign before decimal digits gives the digits' value, negated after a minus |
| Js.RadixTen | server/controllers/HistoryController.js:14 | decimal digits read alike in both readings |
| Js.UnsignedDecimal | server/controllers/HistoryController.js:14 | a run of decimal digits reads as its decimal value |
| Js.ParseIntDigitFirst | server/controllers/HistoryController.js:14 | text that starts with a digit reads as its unsigned value |
| Js.ParseIntOfNat | server/controllers/HistoryController.js:14 | `parseInt(String(n))` is n for every natural n |
| Js.ParseIntTrailing | server/controllers/HistoryController.js:14 | "12px" reads as 12 |
| Js.TwelvePixels | server/controllers/HistoryController.js:14 | the digit run of "12px" has the value 12 |
| Js.ParseIntNegative | server/controllers/HistoryController.js:14 | "-5" reads as -5 |
| Js.ParseIntNaN | server/controllers/HistoryController.js:14 | "abc" and "" are NaN |
| Js.PlainObjectGet | server/services/YahooFinanceService.js:94 | an own property exactly when the key is in the literal; `undefined` exactly when it is neither there nor a name of `Object.prototype` |

## Left out

- Network I/O: the Yahoo Finance `quote`, `quoteSummary`, `chart` and `historical` calls, and the axios call to the ML service, are not modelled. Their answers are parameters (`Option` or `Result` values, or a `fetch` function), and a failed call is `None` or an error. For the ML service the parameter is `StockService.MlService`: the service answers, cannot be reached (the client's connection error), or a regressor raises (Flask's 500).
- File reads: `loadUSStockSymbols` and `loadJPStockSymbols` read files. Their contents are a parameter of `YahooFinance.LoadStockSymbols`.
- Clocks and randomness: `Date.now()`, `crypto.randomBytes` and the session ids are parameters.
- Calendar functions: `getPeriodStartDate`, `generatePredictedDates`, `toISOString` and the locale formatting (`formatPrice`, `toLocaleString`) are not modelled. The model receives the dates as ISO text.
- Hashing: SHA-256 is an uninterpreted function of its input text.
- Floating point: all arithmetic is over `real`, with no IEEE rounding, overflow, NaN or infinity. The one exception is `ReturnCalculator.Outcome.NonFinite`, which stands for the division by a zero close.
- Annualising and square roots: `Math.pow` with a real exponent and `Math.sqrt` are function parameters of `ReturnCalculator.CalculateReturns`. No property of them is assumed beyond what is stated.
- Concurrency: `Promise.allSettled` runs its calls in parallel, but the model runs them in order. The one-second pauses between batches are left out.
- The `calculateReturns` call that `fetchStockData` starts and never awaits (server/services/YahooFinanceService.js:261-268) is left out. Its result reaches the table only through the returns endpoint, which is modelled.
- The regressors: model fitting and the joblib files are not modelled. Each regressor is an opaque function from a feature matrix to predictions.
- Server wiring and rendering: routes, the database connection, the Flask and CORS setup and the rendering components are plumbing.
- server/routes/predict.js is not part of this model. It repeats the range switch and the model dispatch that StockService and PredictController model.
- `History.create` is not modelled. No handler calls it, and the prediction endpoint saves through `upsert`.
- `Stock.updateMultiple` and `Stock.getStocksBySymbols` are not modelled. No modelled path calls them.
- `Stock.getLastUpdated` and the thin handlers that only forward a repository or service result are not modelled separately. These handlers are `getAllStocks`, `getAvailableFilters`, `updateAllStocks`, `getLastUpdated` and `resetAndReloadStocks`. Their service halves are modelled: `YahooFinance.FetchMultipleStockData`, `StockModel.StockTable.GetAvailableFilters` and `YahooFinance.ResetAndReload`.
- Timestamps that the database fills in are not generated by the model. The insertion time (`added_at`, `created_at`) is the caller's `now` parameter, and `updated_at` is not modelled.
- Shares: `Portfolio.add` and `update` splice the request's value into SQL (`shares + ${shares}`). The model takes shares as a number, so text and fractional values sent by a client are not modelled.
- PortfolioModel.Summarize: in PostgreSQL, numeric columns are read back as text and an unquoted raw alias such as `returnPercent` is folded to lower case. The model reads every column as a number under the name the code intends.
- StockController.Refreshed: a `NonFinite` outcome writes nothing in the model. The source compares only against `null`, so it would attempt to write the NaN.
- StockController.Strings: entries of the symbol list that are not strings are dropped. In the source such an entry makes `fetchStockData` throw, and that fetch yields no record.
- Validation.IsValidEmail: only string values can pass in the model. The source lets `RegExp.test` convert any truthy value to text, so, for example, a one-element array holding an address passes there.
- RangeSlider.Slider.MouseMove: requires a track of positive width. A track of zero width, which divides by zero in the source, is not modelled.
- StockChart.CalculateSma: requires a window of at least 1. The selector offers only 3, 5 and 7.
- YahooFinance.FetchStockData: the contract does not state the name fallback (long name, then short name, then the symbol) beyond "non-empty unless the symbol is". It does state the country, the sector and every defaulted figure.
- FavoriteModel.ViewOf: PostgreSQL returns `decimal` columns as text, so a stored 0 arrives as "0.0000". That text is truthy, so the source sends it where the model sends null. The model reads each column as the number the code intends, and treats 0 as falsy.
- YahooFinance.ToApi: the same text reading applies to `annual_return` and `volatility`. A stored 0 arrives as truthy text in the source, while the model sends null.
- PortfolioController.AddToPortfolio: column limits are not modelled. Shares beyond the 32-bit `integer` range, or a price beyond `decimal(10,2)`, make the database refuse the write, which the handler answers with 500. The model's numbers are unbounded and the write succeeds.
- PortfolioModel.PortfolioTable.Update: column limits are not modelled. Shares beyond the 32-bit `integer` range, or a purchase price beyond `decimal(10,2)`, make the database refuse the update; the model stores them.
- PortfolioController.UpdatePortfolio: for the same reason, such shares or prices get 500 in the source and 200 in the model.
- PortfolioModel.PortfolioTable.Add: the same limits apply to the insert and to the sum `shares + n`; the model's shares are unbounded.
- StockController.StoreReturns: `annual_return` and `volatility` are `decimal(10,4)`. A figure of 10^6 or more makes its update fail, so `Promise.all` rejects; the model writes every figure.
- StockController.CalculateReturns: for the same reason the source answers 500 there, where the model answers 200.
- YahooFinance.StoreAll: the `decimal(10,4)` ratio and change columns and the `decimal(15,2)` prices have the same limit. An upsert that fails ends the loop with the error; the model's upserts always succeed.
- PredictController.Predict: `varchar(255)` is modelled only for `users.username`, `users.email` and `histories.note`. The other text columns (the stock, holding and favourite symbols, the history's symbol, range and model, and the stock's name, country and sector) have the same limit in the source; the model stores texts of any length there.
- StockModel.StockTable.GetAll: `orderBy('symbol')` sorts by the database's collation. The model sorts by code point (`Seqs.Less`), so the order of mixed-case or non-ASCII symbols may differ. `StockModel.StockTable.GetAvailableFilters` sorts countries and sectors the same way.
- StockModel.StockTable.GetFiltered: `decimal` columns round the stored value to their scale (2 or 4 places). The model stores the value as given, so a range filter compares the unrounded value.
- PortfolioModel.PositionOf: the purchase price is rounded to 2 places when stored. The model divides by the unrounded value.
- StockModel.NameLike: `ILIKE` treats `%` and `_` in the search text as wildcards and folds case beyond ASCII. The model matches the text literally, with ASCII case folding only.
- JSON layout: response bodies are datatypes, not JSON text.

## Findings

| source | as written | input that shows it | evidently intended | confidence | as-written member | corrected member |
|---|---|---|---|---|---|---|
| server/services/AuthService.js:25-39 | `this.sessions[id]` reads an ordinary object, so an id that names an `Object.prototype` member finds an inherited function. `createdAt` is then undefined, the age is NaN, and `NaN > maxAge` is false, so the check answers valid | the cookie `sessionId=constructor`, with any store | only ids that `createSession` handed out are valid | medium, not executed | AuthService.ConstructorIdPassesAsWritten | AuthService.SessionStore.IsSessionValid |
| server/services/YahooFinanceService.js:94 | `sectorMap[sector] \|\| 'Other'` returns the inherited function when the sector names an `Object.prototype` member | the sector text `toString` for a `.T` symbol | any unlisted sector maps to `Other` | low, not executed | YahooFinance.PrototypeSectorAsWritten | YahooFinance.JapaneseSector |
| server/models/Portfolio.js:98-103 | `getAll` (lines 7-18) selects no dividend yield, so the summary reads `stock.dividendYield` (line 99) as undefined and reports a total dividend of 0 and a yield of 0 | ten shares of a stock priced 100 whose dividend yield is 2% | a yearly dividend of 20 and a portfolio yield of 2% | medium, not executed | PortfolioModel.DividendsAlwaysZeroAsWritten, PortfolioModel.DividendExample | PortfolioModel.UniformYieldSummary |

=== FILE: auth_controller.dfy ===
/** The account endpoints (server/controllers/AuthController.js): registration, login with a
    session cookie, logout and the current user.  The random bytes of the salt and of the
    session id, the clock and the hash function are parameters. */
module AuthController {
  import opened Wrappers
  import opened Http
  import Js
  import AuthService
  import UserModel
  import Schema

  /** The user as `getCurrentUser` sends it: no hash and no salt. */
  datatype PublicUser = PublicUser(id: nat, username: string, email: string)

  /** `register`: 400 unless all three fields are given, 409 when the username is taken (and
      nothing is created), 500 when the insert fails because the email is taken or the username
      or the email is longer than its `varchar(255)` column, 201 after creating exactly one
      user. */
  method Register(users: UserModel.UserTable, username: Option<string>, email: Option<string>, password: Option<string>,
    saltBytes: seq<bv8>, sha256: UserModel.Sha256Hex) returns (status: nat)
    requires users.Valid() && |saltBytes| == 6
    modifies users
    ensures users.Valid()
    ensures status == 400 <==> !Js.Present(username) || !Js.Present(email) || !Js.Present(password)
    ensures status == 409 <==> Js.Present(username) && Js.Present(email) && Js.Present(password) && old(users.FindByUsername(username.value)).Some?
    ensures status == 500 <==>
      (Js.Present(username) && Js.Present(email) && Js.Present(password) &&
       old(users.FindByUsername(username.value)).None? &&
       (!Schema.FitsVarchar(username.value) || !Schema.FitsVarchar(email.value) || old(users.EmailTaken(email.value))))
    ensures status == 201 <==>
      (Js.Present(username) && Js.Present(email) && Js.Present(password) &&
       old(users.FindByUsername(username.value)).None? &&
       Schema.FitsVarchar(username.value) && Schema.FitsVarchar(email.value) && !old(users.EmailTaken(email.value)))
    ensures status != 201 ==> users.rows == old(users.rows)
    ensures status == 201 ==> |users.rows| == |old(users.rows)| + 1 && users.rows[..|old(users.rows)|] == old(users.rows)
    ensures status == 201 ==> users.rows[|old(users.rows)|].username == username.value && users.rows[|old(users.rows)|].email == email.value
    ensures status == 201 ==> UserModel.VerifyPassword(sha256, password.value, users.rows[|old(users.rows)|].salt, users.rows[|old(users.rows)|].password)
    ensures status in {201, 400, 409, 500}
  {
    if !Js.Present(username) || !Js.Present(email) || !Js.Present(password) {
      return 400;
    }
    if users.FindByUsername(username.value).Some? {
      return 409;
    }
    var created := users.Create(username.value, email.value, password.value, saltBytes, sha256);
    if created.Err? {
      return 500;
    }
    UserModel.CreatedUserVerifies(sha256, users.rows[|old(users.rows)|], password.value, saltBytes);
    return 201;
  }

  /** The answer to a login: the status and, on success, the session cookie that is set. */
  datatype LoginReply = LoginReply(status: nat, cookie: Option<string>)

  /** A user with that name exists and the password verifies against its hash and salt. */
  predicate Accepts(users: UserModel.UserTable, username: string, password: string, sha256: UserModel.Sha256Hex)
    reads users
  {
    var u := users.FindByUsername(username);
    u.Some? && UserModel.VerifyPassword(sha256, password, u.value.salt, u.value.password)
  }

  /** `login`: 400 for a missing field, 401 for an unknown user, 401 for a wrong password (in
      that order), and otherwise one new session whose id is set as the cookie. */
  method Login(users: UserModel.UserTable, store: AuthService.SessionStore, username: Option<string>, password: Option<string>,
    sha256: UserModel.Sha256Hex, sessionBytes: seq<bv8>, now: int) returns (r: LoginReply)
    requires store.Valid() && |sessionBytes| == 16
    modifies store
    ensures store.Valid()
    ensures r.status == 400 <==> !Js.Present(username) || !Js.Present(password)
    ensures r.status == 401 <==> Js.Present(username) && Js.Present(password) && !Accepts(users, username.value, password.value, sha256)
    ensures r.status != 200 ==> r.cookie.None? && store.sessions == old(store.sessions)
    ensures r.status == 200 ==> r.cookie == Some(Js.HexEncode(sessionBytes))
    ensures r.status == 200 ==> store.sessions == old(store.sessions)[r.cookie.value := AuthService.Session(username.value, now)]
    ensures r.status in {200, 400, 401}
  {
    if !Js.Present(username) || !Js.Present(password) {
      return LoginReply(400, None);
    }
    var user := users.FindByUsername(username.value);
    if user.None? {
      return LoginReply(401, None);
    }
    if !UserModel.VerifyPassword(sha256, password.value, user.value.salt, user.value.password) {
      return LoginReply(401, None);
    }
    var id := store.CreateSession(username.value, sessionBytes, now);
    return LoginReply(200, Some(id));
  }

  /** A registered user logs in with the password they registered with. */
  lemma RegisteredUserLogsIn(sha256: UserModel.Sha256Hex, u: UserModel.User, password: string, saltBytes: seq<bv8>)
    requires |saltBytes| == 6
    requires u.salt == UserModel.Salt(saltBytes) && u.password == UserModel.HashPassword(sha256, password, UserModel.Salt(saltBytes))
    ensures UserModel.VerifyPassword(sha256, password, u.salt, u.password)
  {
    UserModel.CreatedUserVerifies(sha256, u, password, saltBytes);
  }

  /** `logout`: the session of a non-empty cookie is deleted (nothing else is); the cookie is
      always cleared and the answer is 200. */
  method Logout(store: AuthService.SessionStore, cookie: Option<string>) returns (status: nat, clearCookie: bool)
    requires store.Valid()
    modifies store
    ensures store.Valid()
    ensures status == 200 && clearCookie
    ensures Js.Present(cookie) ==> store.sessions == old(store.sessions) - {cookie.value}
    ensures !Js.Present(cookie) ==> store.sessions == old(store.sessions)
  {
    if Js.Present(cookie) {
      store.DeleteSession(cookie.value);
    }
    return 200, true;
  }

  predicate UserExists(users: UserModel.UserTable, username: string)
    reads users
  {
    users.FindByUsername(username).Some?
  }

  /** `getCurrentUser`: 401 without a valid session, 404 when the session's user is gone,
      otherwise the user without hash and salt. */
  method GetCurrentUser(users: UserModel.UserTable, store: AuthService.SessionStore, cookie: Option<string>, now: int)
    returns (r: Reply<PublicUser>)
    requires store.Valid()
    modifies store
    ensures store.Valid() && store.sessions == AuthService.AfterCheck(old(store.sessions), cookie, now)
    ensures r.Failure? && r.status == 401 <==> !AuthService.ValidIn(old(store.sessions), cookie, now)
    ensures r.Failure? && r.status == 404 <==> AuthService.ValidIn(old(store.sessions), cookie, now) && !UserExists(users, old(store.sessions)[cookie.value].username)
    ensures r.Success? ==> r.status == 200 && r.data.username == old(store.sessions)[cookie.value].username
    ensures r.Success? ==> exists u :: u in users.rows && r.data == PublicUser(u.id, u.username, u.email)
  {
    var session := store.GetCurrentUser(cookie, now);
    if session.None? {
      return Failure(401);
    }
    var user := users.FindByUsername(session.value.username);
    if user.None? {
      return Failure(404);
    }
    var u := user.value;
    return Success(200, PublicUser(u.id, u.username, u.email));
  }
}

=== FILE: auth_middleware.dfy ===
/** The Express guards built on the session store (server/middleware/auth.js). */
module AuthMiddleware {
  import opened Wrappers
  import opened AuthService

  /** The parts of an Express request the guards read and write. */
  class Request {
    var sessionCookie: Option<string>
    var user: Option<Session>

    constructor(cookie: Option<string>)
      ensures sessionCookie == cookie && user == None
    {
      sessionCookie := cookie;
      user := None;
    }
  }

  /** `requireAuth`: without a valid session, answer 401 and do not call `next`; otherwise set
      `req.user` to the session and call `next` once.  `nextCalls` counts the calls of `next`,
      `status` is the response written by the guard itself. */
  method RequireAuth(store: SessionStore, req: Request, now: int) returns (status: Option<nat>, nextCalls: nat)
    requires store.Valid()
    modifies store, req`user
    ensures store.Valid()
    ensures store.sessions == AfterCheck(old(store.sessions), req.sessionCookie, now)
    ensures ValidIn(old(store.sessions), req.sessionCookie, now) ==>
      status == None && nextCalls == 1 && req.user == Some(old(store.sessions)[req.sessionCookie.value])
    ensures !ValidIn(old(store.sessions), req.sessionCookie, now) ==>
      status == Some(401) && nextCalls == 0 && req.user == old(req.user)
  {
    var session := store.GetCurrentUser(req.sessionCookie, now);
    if session.None? {
      return Some(401), 0;
    }
    req.user := session;
    return None, 1;
  }

  /** `optionalAuth`: set `req.user` only when a valid session exists; always call `next` once. */
  method OptionalAuth(store: SessionStore, req: Request, now: int) returns (nextCalls: nat)
    requires store.Valid()
    modifies store, req`user
    ensures store.Valid()
    ensures store.sessions == AfterCheck(old(store.sessions), req.sessionCookie, now)
    ensures nextCalls == 1
    ensures ValidIn(old(store.sessions), req.sessionCookie, now) ==> req.user == Some(old(store.sessions)[req.sessionCookie.value])
    ensures !ValidIn(old(store.sessions), req.sessionCookie, now) ==> req.user == old(req.user)
  {
    var session := store.GetCurrentUser(req.sessionCookie, now);
    if session.Some? {
      req.user := session;
    }
    return 1;
  }
}

=== FILE: auth_service.dfy ===
/** The in-memory session store (server/services/AuthService.js): session id -> (username,
    creation time), with a 24-hour lifetime enforced when a session is checked. */
module AuthService {
  import opened Wrappers
  import Js

  datatype Session = Session(username: string, createdAt: int)

  /** Lifetime of a session in milliseconds: 24 hours. */
  const MaxAgeMs: int := 24 * 60 * 60 * 1000

  /** The shape of every id `createSession` hands out: 16 random bytes in hexadecimal. */
  predicate IsSessionId(id: string) {
    |id| == 32 && forall i :: 0 <= i < |id| ==> Js.IsHexDigit(id[i])
  }

  /** A session is expired when its age is strictly greater than the lifetime. */
  predicate Expired(s: Session, now: int) {
    now - s.createdAt > MaxAgeMs
  }

  /** What `isSessionValid(id)` answers against the table `sessions` at time `now`. */
  predicate ValidIn(sessions: map<string, Session>, id: Option<string>, now: int) {
    id.Some? && id.value in sessions && !Expired(sessions[id.value], now)
  }

  /** The table after `isSessionValid(id)`: the session checked is removed if it has expired. */
  function AfterCheck(sessions: map<string, Session>, id: Option<string>, now: int): map<string, Session> {
    if id.Some? && id.value in sessions && Expired(sessions[id.value], now) then sessions - {id.value} else sessions
  }

  /** A check removes nothing but the expired session it was asked about. */
  lemma CheckRemovesOnlyExpired(sessions: map<string, Session>, id: Option<string>, now: int)
    ensures forall k :: k in sessions && (id != Some(k) || !Expired(sessions[k], now)) ==>
      k in AfterCheck(sessions, id, now) && AfterCheck(sessions, id, now)[k] == sessions[k]
    ensures forall k :: k in AfterCheck(sessions, id, now) ==> k in sessions
    ensures ValidIn(sessions, id, now) <==> id.Some? && id.value in AfterCheck(sessions, id, now)
  {
  }

  /** Checking twice answers the same and changes nothing more. */
  lemma CheckIdempotent(sessions: map<string, Session>, id: Option<string>, now: int)
    ensures AfterCheck(AfterCheck(sessions, id, now), id, now) == AfterCheck(sessions, id, now)
    ensures ValidIn(AfterCheck(sessions, id, now), id, now) == ValidIn(sessions, id, now)
  {
  }

  /** The boundary: a session exactly 24 hours old is still valid, one millisecond older is not. */
  lemma ExpiryBoundary(sessions: map<string, Session>, id: string, s: Session)
    requires id in sessions && sessions[id] == s
    ensures ValidIn(sessions, Some(id), s.createdAt + MaxAgeMs)
    ensures !ValidIn(sessions, Some(id), s.createdAt + MaxAgeMs + 1)
  {
  }

  /** `isSessionValid` as written.  `this.sessions[id]` reads a plain object, so an id that
      names a property of `Object.prototype` ("constructor", "toString", ...) finds an inherited
      function; it has no `createdAt`, its age is NaN, `NaN > maxAge` is false, and the id is
      reported valid.  An absent cookie is looked up under the key "undefined". */
  predicate ValidAsWritten(sessions: map<string, Session>, id: Option<string>, now: int)
    ensures var key := if id.None? then "undefined" else id.value;
      ValidAsWritten(sessions, id, now) <==>
        (key in sessions && !Expired(sessions[key], now)) || (key !in sessions && key in Js.ObjectPrototypeKeys)
  {
    var key := if id.None? then "undefined" else id.value;
    match Js.PlainObjectGet(sessions, key)
    case Own(s) => !Expired(s, now)
    case Inherited(_) => true
    case Missing => false
  }

  /** The discrepancy: with any store of well-formed ids (the empty one included), the cookie
      value "constructor" passes the check as written but is not a session. */
  lemma ConstructorIdPassesAsWritten(sessions: map<string, Session>, now: int)
    requires forall k :: k in sessions ==> IsSessionId(k)
    ensures ValidAsWritten(sessions, Some("constructor"), now)
    ensures !ValidIn(sessions, Some("constructor"), now)
  {
    assert !IsSessionId("constructor");
  }

  /** Outside the names of `Object.prototype` the check as written and the model agree. */
  lemma AsWrittenAgreesOffPrototype(sessions: map<string, Session>, id: Option<string>, now: int)
    requires forall k :: k in sessions ==> IsSessionId(k)
    requires id.Some? ==> id.value !in Js.ObjectPrototypeKeys
    ensures ValidAsWritten(sessions, id, now) == ValidIn(sessions, id, now)
  {
    if id.None? {
      assert !IsSessionId("undefined");
    }
  }

  /** The session table.  Lookups are own-property lookups: only ids handed out by
      `CreateSession` are ever found. */
  class SessionStore {
    var sessions: map<string, Session>

    ghost predicate Valid()
      reads this
    {
      forall k :: k in sessions ==> IsSessionId(k)
    }

    constructor()
      ensures Valid() && sessions == map[]
    {
      sessions := map[];
    }

    /** `createSession(username)`: `randomBytes` is `crypto.randomBytes(16)` and `now` is
        `Date.now()`.  An id that collides with a stored one replaces that session. */
    method CreateSession(username: string, randomBytes: seq<bv8>, now: int) returns (id: string)
      requires Valid() && |randomBytes| == 16
      modifies this
      ensures Valid() && IsSessionId(id) && id == Js.HexEncode(randomBytes)
      ensures sessions == old(sessions)[id := Session(username, now)]
    {
      id := Js.HexEncode(randomBytes);
      sessions := sessions[id := Session(username, now)];
    }

    /** `getSession(id)`: the stored record, expired or not. */
    function GetSession(id: string): (s: Option<Session>)
      reads this
      ensures s.Some? <==> id in sessions
      ensures s.Some? ==> s.value == sessions[id]
    {
      if id in sessions then Some(sessions[id]) else None
    }

    /** `deleteSession(id)`: removes that key only; an absent key changes nothing. */
    method DeleteSession(id: string)
      requires Valid()
      modifies this
      ensures Valid() && sessions == old(sessions) - {id}
      ensures id !in old(sessions) ==> sessions == old(sessions)
    {
      sessions := sessions - {id};
    }

    /** `isSessionValid(id)` at time `now`: unknown ids are invalid; an expired session is
        deleted and reported invalid. */
    method IsSessionValid(id: Option<string>, now: int) returns (valid: bool)
      requires Valid()
      modifies this
      ensures Valid()
      ensures valid == ValidIn(old(sessions), id, now)
      ensures sessions == AfterCheck(old(sessions), id, now)
    {
      if id.None? || id.value !in sessions {
        return false;
      }
      var session := sessions[id.value];
      if now - session.createdAt > MaxAgeMs {
        DeleteSession(id.value);
        return false;
      }
      return true;
    }

    /** `getCurrentUser(id)`: `None` exactly when the session is not valid, otherwise the
        stored record. */
    method GetCurrentUser(id: Option<string>, now: int) returns (user: Option<Session>)
      requires Valid()
      modifies this
      ensures Valid()
      ensures user.Some? <==> ValidIn(old(sessions), id, now)
      ensures user.Some? ==> user.value == old(sessions)[id.value]
      ensures sessions == AfterCheck(old(sessions), id, now)
    {
      var valid := IsSessionValid(id, now);
      if !valid {
        return None;
      }
      return Some(sessions[id.value]);
    }
  }
}

=== FILE: compare_chart.dfy ===
/** The comparison chart of several saved predictions (client/src/components/CompareChart.tsx):
    one row per forecast day, one column per prediction. */
module CompareChart {
  import opened Wrappers
  import Js

  /** The fields of a saved prediction the chart reads. */
  datatype Item = Item(symbol: string, model: string, predicted: seq<real>, predictedDates: seq<string>)

  /** A chart row: the x-axis label and one cell per series key; a cell past the end of a
      prediction holds `undefined` (`None`). */
  datatype Row = Row(date: string, cells: map<string, Option<real>>)

  /** What the component renders: a placeholder text, or the chart over its rows. */
  datatype View = Placeholder | Chart(rows: seq<Row>)

  /** The series key `symbol-model`. */
  function ItemKey(item: Item): string {
    item.symbol + "-" + item.model
  }

  /** No series key can be "date", so a cell never overwrites a row's label. */
  lemma KeyIsNotDate(item: Item)
    ensures ItemKey(item) != "date"
  {
    var k := ItemKey(item);
    assert k[|item.symbol|] == '-';
  }

  /** `predicted[i]`, or `undefined` past the end. */
  function ValueAt(s: seq<real>, i: nat): Option<real> {
    if i < |s| then Some(s[i]) else None
  }

  /** `Math.max(...data.map(d => d.predicted.length))`. */
  function MaxLength(items: seq<Item>): (n: nat)
    requires items != []
    ensures forall j :: 0 <= j < |items| ==> |items[j].predicted| <= n
    ensures exists j :: 0 <= j < |items| && |items[j].predicted| == n
  {
    if |items| == 1 then |items[0].predicted|
    else
      var rest := MaxLength(items[1..]);
      assert forall j :: 1 <= j < |items| ==> items[j] == items[1..][j - 1];
      if |items[0].predicted| >= rest then |items[0].predicted| else rest
  }

  /** The label of row `i`: the first prediction's date when it is a non-empty string, else
      "+{i+1}日". */
  function DateAt(first: Item, i: nat): (d: string)
    ensures i < |first.predictedDates| && first.predictedDates[i] != "" ==> d == first.predictedDates[i]
    ensures !(i < |first.predictedDates| && first.predictedDates[i] != "") ==>
      d == "+" + Js.NatToString(i + 1) + "日"
  {
    if i < |first.predictedDates| && first.predictedDates[i] != "" then first.predictedDates[i]
    else "+" + Js.NatToString(i + 1) + "日"
  }

  /** The cells of row `i` after the items have been written in order. */
  function Cells(items: seq<Item>, i: nat): map<string, Option<real>> {
    if items == [] then map[]
    else Cells(items[..|items| - 1], i)[ItemKey(items[|items| - 1]) := ValueAt(items[|items| - 1].predicted, i)]
  }

  /** Row `i` has one cell per distinct series key. */
  lemma {:induction false} CellsKeys(items: seq<Item>, i: nat)
    ensures forall k :: k in Cells(items, i) <==> exists j :: 0 <= j < |items| && ItemKey(items[j]) == k
  {
    if items != [] {
      var init := items[..|items| - 1];
      CellsKeys(init, i);
      forall k | k in Cells(items, i)
        ensures exists j :: 0 <= j < |items| && ItemKey(items[j]) == k
      {
        if k != ItemKey(items[|items| - 1]) {
          assert k in Cells(init, i);
          var j :| 0 <= j < |init| && ItemKey(init[j]) == k;
          assert items[j] == init[j];
        }
      }
      forall k | exists j :: 0 <= j < |items| && ItemKey(items[j]) == k
        ensures k in Cells(items, i)
      {
        var j :| 0 <= j < |items| && ItemKey(items[j]) == k;
        if j < |init| {
          assert init[j] == items[j];
        }
      }
    }
  }

  /** The cell of a series holds the value of the LAST item with that key. */
  lemma {:induction false} CellsLastWins(items: seq<Item>, i: nat, j: nat)
    requires j < |items| && LastWithKey(items, j)
    ensures ItemKey(items[j]) in Cells(items, i)
    ensures Cells(items, i)[ItemKey(items[j])] == ValueAt(items[j].predicted, i)
  {
    var n := |items| - 1;
    if j < n {
      var init := items[..n];
      assert init[j] == items[j];
      assert LastWithKey(init, j) by {
        forall j' | j < j' < |init|
          ensures ItemKey(init[j']) != ItemKey(init[j])
        {
          assert init[j'] == items[j'];
        }
      }
      CellsLastWins(init, i, j);
      assert ItemKey(items[n]) != ItemKey(items[j]);
    }
  }

  /** No later item shares the key of item `j`. */
  predicate LastWithKey(items: seq<Item>, j: nat)
    requires j < |items|
  {
    forall j' :: j < j' < |items| ==> ItemKey(items[j']) != ItemKey(items[j])
  }

  function RowAt(items: seq<Item>, i: nat): Row
    requires items != []
  {
    Row(DateAt(items[0], i), Cells(items, i))
  }

  /** What the component shows for `data`. */
  function CompareView(data: seq<Item>): (v: View)
    ensures v.Placeholder? <==> data == []
    ensures v.Chart? ==> |v.rows| == MaxLength(data)
    ensures v.Chart? ==> forall i :: 0 <= i < |v.rows| ==> v.rows[i] == RowAt(data, i)
  {
    if data == [] then Placeholder
    else Chart(seq(MaxLength(data), i requires 0 <= i => RowAt(data, i)))
  }

  /** The component's loops: for each day a fresh row, and each item writes its cell. */
  method BuildChart(data: seq<Item>) returns (v: View)
    ensures v == CompareView(data)
  {
    if |data| == 0 {
      return Placeholder;
    }
    var maxLength := MaxLength(data);
    var chartData: seq<Row> := [];
    var i := 0;
    while i < maxLength
      invariant i <= maxLength
      invariant |chartData| == i
      invariant forall k :: 0 <= k < i ==> chartData[k] == RowAt(data, k)
    {
      var cells: map<string, Option<real>> := map[];
      var j := 0;
      while j < |data|
        invariant j <= |data|
        invariant cells == Cells(data[..j], i)
      {
        assert data[..j + 1][..j] == data[..j];
        cells := cells[ItemKey(data[j]) := ValueAt(data[j].predicted, i)];
        j := j + 1;
      }
      assert data[..j] == data;
      chartData := chartData + [Row(DateAt(data[0], i), cells)];
      i := i + 1;
    }
    v := Chart(chartData);
  }

  /** Two predictions of the same symbol and model share one line; the later one is drawn. */
  lemma LaterItemWins(a: Item, b: Item, i: nat)
    requires ItemKey(a) == ItemKey(b)
    ensures Cells([a, b], i) == map[ItemKey(b) := ValueAt(b.predicted, i)]
  {
    assert [a, b][..1] == [a];
    assert [a][..0] == [];
    assert Cells([a], i) == map[ItemKey(a) := ValueAt(a.predicted, i)];
    assert Cells([a, b], i) == Cells([a], i)[ItemKey(b) := ValueAt(b.predicted, i)];
  }
}

=== FILE: favorite_controller.dfy ===
/** The favourites endpoints (server/controllers/FavoriteController.js): a missing symbol is a
    400 before the repository is touched; a repository error is a 500. */
module FavoriteController {
  import opened Wrappers
  import opened Http
  import opened Schema
  import Js
  import FavoriteModel
  import Seqs

  /** `getAllFavorites`: the joined favourites, newest first. */
  function GetAllFavorites(t: FavoriteModel.FavoriteTable, stocks: seq<StockRow>): (r: Reply<seq<FavoriteModel.FavoriteView>>)
    reads t
    ensures r.Success? && r.status == 200
    ensures r.data == t.GetAll(stocks)
    ensures Seqs.SortedDesc(r.data, FavoriteModel.AddedAtOf)
    ensures multiset(r.data) == multiset(FavoriteModel.Join(stocks, t.favorites))
  {
    Success(200, t.GetAll(stocks))
  }

  /** `addToFavorites`: 400 without a symbol; otherwise the repository's row (the existing one
      when already a favourite), or 500 when the stock does not exist. */
  method AddToFavorites(t: FavoriteModel.FavoriteTable, stocks: seq<StockRow>, symbol: Option<string>, now: int)
    returns (r: Reply<FavoriteModel.Favorite>)
    requires t.Valid()
    modifies t
    ensures t.Valid()
    ensures r.Failure? && r.status == 400 <==> !Js.Present(symbol)
    ensures !Js.Present(symbol) ==> t.favorites == old(t.favorites) && t.nextId == old(t.nextId)
    ensures r.Failure? && r.status == 500 <==> Js.Present(symbol) && symbol.value !in old(t.favorites) && FindStock(stocks, symbol.value).None?
    ensures r.Success? ==> r.status == 200 && r.data.symbol == symbol.value && t.favorites == old(t.favorites)[symbol.value := r.data]
    ensures r.Success? && symbol.value in old(t.favorites) ==> r.data == old(t.favorites)[symbol.value]
    ensures r.Success? && symbol.value !in old(t.favorites) ==> r.data == FavoriteModel.Favorite(old(t.nextId), symbol.value, now)
    ensures r.Failure? ==> t.favorites == old(t.favorites)
    ensures Js.Present(symbol) ==>
      t.nextId == if symbol.value in old(t.favorites) then old(t.nextId) else old(t.nextId) + 1
    ensures r.Success? || r.status == 400 || r.status == 500
  {
    if !Js.Present(symbol) {
      return Failure(400);
    }
    var added := t.Add(stocks, symbol.value, now);
    if added.Err? {
      return Failure(500);
    }
    return Success(200, added.value);
  }

  /** `removeFromFavorites`: 400 without a symbol, success exactly when it was a favourite,
      404 otherwise. */
  method RemoveFromFavorites(t: FavoriteModel.FavoriteTable, symbol: Option<string>) returns (r: Reply<()>)
    requires t.Valid()
    modifies t
    ensures t.Valid()
    ensures r.Failure? && r.status == 400 <==> !Js.Present(symbol)
    ensures r.Success? <==> Js.Present(symbol) && old(t.IsFavorite(symbol.value))
    ensures r.Failure? && r.status == 404 <==> Js.Present(symbol) && !old(t.IsFavorite(symbol.value))
    ensures r.Success? ==> r.status == 200
    ensures t.nextId == old(t.nextId)
    ensures Js.Present(symbol) ==> !t.IsFavorite(symbol.value) && t.favorites == old(t.favorites) - {symbol.value}
    ensures !Js.Present(symbol) ==> t.favorites == old(t.favorites)
  {
    if !Js.Present(symbol) {
      return Failure(400);
    }
    var removed := t.Remove(symbol.value);
    if removed {
      return Success(200, ());
    }
    return Failure(404);
  }

  /** `checkIsFavorite`: 400 without a symbol, otherwise exactly the repository's answer. */
  function CheckIsFavorite(t: FavoriteModel.FavoriteTable, symbol: Option<string>): (r: Reply<bool>)
    requires t.Valid()
    reads t
    ensures r.Failure? <==> !Js.Present(symbol)
    ensures r.Failure? ==> r.status == 400
    ensures r.Success? ==> r.status == 200 && (r.data <==> exists f :: f in t.favorites.Values && f.symbol == symbol.value)
  {
    if !Js.Present(symbol) then Failure(400) else Success(200, t.IsFavorite(symbol.value))
  }
}

=== FILE: favorite_model.dfy ===
/** The favourites table (server/models/Favorite.js).  `favorites.symbol` is unique and
    references `stocks.symbol` with cascading delete. */
module FavoriteModel {
  import opened Wrappers
  import opened Schema
  import Js
  import Seqs

  /** A row of `favorites`; `addedAt` is the insertion time in milliseconds. */
  datatype Favorite = Favorite(id: nat, symbol: string, addedAt: int)

  /** A row of `getAll`: the favourite joined with its stock, numeric columns nullable. */
  datatype FavoriteView = FavoriteView(
    id: nat, symbol: string, name: string, country: string, sector: string, price: real,
    pe: Option<real>, pb: Option<real>, dividend: Option<real>, dividendYield: Option<real>,
    annualReturn: Option<real>, volatility: Option<real>, lastUpdated: int, addedAt: int)

  /** One joined row after the numeric conversion: every falsy number (null or 0) reads null. */
  function ViewOf(f: Favorite, s: StockRow): (v: FavoriteView)
    ensures v.id == f.id && v.symbol == f.symbol && v.addedAt == f.addedAt && v.name == s.name
    ensures v.country == s.country && v.sector == s.sector && v.price == s.price && v.lastUpdated == s.lastUpdated
    ensures v.pe.Some? <==> Js.PresentNum(s.pe)
    ensures v.pb.Some? <==> Js.PresentNum(s.pb)
    ensures v.dividend.Some? <==> s.dividend != 0.0
    ensures v.dividendYield.Some? <==> Js.PresentNum(s.dividendYield)
    ensures v.annualReturn.Some? <==> Js.PresentNum(s.annualReturn)
    ensures v.volatility.Some? <==> Js.PresentNum(s.volatility)
    ensures v.pe.Some? ==> v.pe == s.pe
    ensures v.dividend.Some? ==> v.dividend == Some(s.dividend)
    ensures v.annualReturn.Some? ==> v.annualReturn == s.annualReturn
    ensures v.pb.Some? ==> v.pb == s.pb
    ensures v.dividendYield.Some? ==> v.dividendYield == s.dividendYield
    ensures v.volatility.Some? ==> v.volatility == s.volatility
  {
    FavoriteView(f.id, f.symbol, s.name, s.country, s.sector, s.price,
      Js.NumOrNull(s.pe), Js.NumOrNull(s.pb), Js.NumOrNull(Some(s.dividend)), Js.NumOrNull(s.dividendYield),
      Js.NumOrNull(s.annualReturn), Js.NumOrNull(s.volatility), s.lastUpdated, f.addedAt)
  }

  /** The stock rows that are favourites, in the order of `stocks`. */
  function Favorited(stocks: seq<StockRow>, favorites: map<string, Favorite>): seq<StockRow> {
    Seqs.Filter(stocks, (s: StockRow) => s.symbol in favorites)
  }

  lemma FavoritedCons(stocks: seq<StockRow>, favorites: map<string, Favorite>)
    requires stocks != []
    ensures Favorited(stocks, favorites) ==
      (if stocks[0].symbol in favorites then [stocks[0]] else []) + Favorited(stocks[1..], favorites)
  {
  }

  /** `vs` is, row by row, the view of each stock row of `rows` with its favourite. */
  predicate Views(rows: seq<StockRow>, favorites: map<string, Favorite>, vs: seq<FavoriteView>) {
    |vs| == |rows| &&
    forall k :: 0 <= k < |vs| ==> rows[k].symbol in favorites && vs[k] == ViewOf(favorites[rows[k].symbol], rows[k])
  }

  lemma ViewsCons(s: StockRow, rows: seq<StockRow>, favorites: map<string, Favorite>, vs: seq<FavoriteView>)
    requires s.symbol in favorites && Views(rows, favorites, vs)
    ensures Views([s] + rows, favorites, [ViewOf(favorites[s.symbol], s)] + vs)
  {
    var v := ViewOf(favorites[s.symbol], s);
    assert forall k :: 0 < k <= |vs| ==> ([v] + vs)[k] == vs[k - 1] && ([s] + rows)[k] == rows[k - 1];
  }

  /** The inner join of `favorites` with `stocks`, one view per favourite stock row, in the
      order of `stocks`. */
  function Join(stocks: seq<StockRow>, favorites: map<string, Favorite>): (r: seq<FavoriteView>)
    ensures Views(Favorited(stocks, favorites), favorites, r)
  {
    if stocks == [] then []
    else
      var rest := Join(stocks[1..], favorites);
      FavoritedCons(stocks, favorites);
      if stocks[0].symbol in favorites then
        ViewsCons(stocks[0], Favorited(stocks[1..], favorites), favorites, rest);
        [ViewOf(favorites[stocks[0].symbol], stocks[0])] + rest
      else rest
  }

  function AddedAtOf(v: FavoriteView): int {
    v.addedAt
  }

  class FavoriteTable {
    /** Favourites by symbol (the symbol is unique). */
    var favorites: map<string, Favorite>
    var nextId: nat

    ghost predicate Valid()
      reads this
    {
      forall s :: s in favorites ==> favorites[s].symbol == s && favorites[s].id < nextId
    }

    constructor()
      ensures Valid() && favorites == map[] && nextId == 1
    {
      favorites := map[];
      nextId := 1;
    }

    /** `isFavorite(symbol)`. */
    function IsFavorite(symbol: string): (b: bool)
      requires Valid()
      reads this
      ensures b <==> exists f :: f in favorites.Values && f.symbol == symbol
    {
      assert symbol in favorites ==> favorites[symbol] in favorites.Values;
      assert forall f :: f in favorites.Values ==> exists s :: s in favorites && favorites[s] == f;
      symbol in favorites
    }

    /** `getAll()` against the current `stocks` rows: the joined views, newest first. */
    function GetAll(stocks: seq<StockRow>): (r: seq<FavoriteView>)
      reads this
      ensures Seqs.SortedDesc(r, AddedAtOf)
      ensures multiset(r) == multiset(Join(stocks, favorites))
    {
      Seqs.SortDesc(Join(stocks, favorites), AddedAtOf)
    }

    /** `add(symbol)` at time `now`: an existing favourite is returned as it is; otherwise one
        row is inserted if the stock exists (the foreign key rejects it otherwise, after the id
        sequence has been advanced). */
    method Add(stocks: seq<StockRow>, symbol: string, now: int) returns (r: Result<Favorite>)
      requires Valid()
      modifies this
      ensures Valid()
      ensures symbol in old(favorites) ==>
        r == Ok(old(favorites)[symbol]) && favorites == old(favorites) && nextId == old(nextId)
      ensures symbol !in old(favorites) && FindStock(stocks, symbol).None? ==>
        r.Err? && favorites == old(favorites) && nextId == old(nextId) + 1
      ensures symbol !in old(favorites) && FindStock(stocks, symbol).Some? ==>
        r == Ok(Favorite(old(nextId), symbol, now)) && favorites == old(favorites)[symbol := r.value] &&
        nextId == old(nextId) + 1
    {
      if symbol in favorites {
        return Ok(favorites[symbol]);
      }
      if FindStock(stocks, symbol).None? {
        nextId := nextId + 1;
        return Err("insert or update on table \"favorites\" violates foreign key constraint");
      }
      var inserted := Favorite(nextId, symbol, now);
      favorites := favorites[symbol := inserted];
      nextId := nextId + 1;
      return Ok(inserted);
    }

    /** `remove(symbol)`: true iff the symbol was a favourite; afterwards it is not. */
    method Remove(symbol: string) returns (removed: bool)
      requires Valid()
      modifies this
      ensures Valid() && nextId == old(nextId)
      ensures removed <==> old(IsFavorite(symbol))
      ensures !IsFavorite(symbol)
      ensures favorites == old(favorites) - {symbol}
    {
      removed := symbol in favorites;
      favorites := favorites - {symbol};
    }
  }

  /** Adding twice is adding once: the second call returns the first call's row and changes
      nothing. */
  method AddTwice(t: FavoriteTable, stocks: seq<StockRow>, symbol: string, now1: int, now2: int)
    returns (first: Result<Favorite>, second: Result<Favorite>)
    requires t.Valid()
    modifies t
    ensures first.Ok? ==> second == first
    ensures first.Ok? ==> t.favorites == old(t.favorites)[symbol := first.value]
  {
    first := t.Add(stocks, symbol, now1);
    second := t.Add(stocks, symbol, now2);
  }
}

=== FILE: history_controller.dfy ===
/** The prediction-history endpoints (server/controllers/HistoryController.js).  Each handler
    checks the session first, except `updateNote`, which checks the note before the session.
    A route id is passed as the integer the database reads it as; `None` is an id the database
    cannot read as an integer, whose query fails (500). */
module HistoryController {
  import opened Wrappers
  import opened Http
  import Js
  import AuthService
  import HistoryModel
  import Schema
  import Seqs

  const DefaultLimit: int := 20

  /** `parseInt(req.query.limit) || 20`: NaN and 0 fall back to 20; a negative number is kept. */
  function LimitOf(limit: Option<string>): (n: int)
    ensures n != 0
    ensures limit.None? ==> n == DefaultLimit
    ensures limit.Some? && Js.ParseInt(limit.value).Some? && Js.ParseInt(limit.value).value != 0 ==> n == Js.ParseInt(limit.value).value
  {
    if limit.None? then DefaultLimit
    else match Js.ParseInt(limit.value)
      case None => DefaultLimit
      case Some(v) => if v == 0 then DefaultLimit else v
  }

  /** The limit the query string asks for is used as written, except that "0" means 20. */
  lemma LimitOfNumber(n: nat)
    ensures LimitOf(Some(Js.NatToString(n))) == if n == 0 then DefaultLimit else n
  {
    Js.ParseIntOfNat(n);
  }

  /** `getAllHistories`: 401 without a valid session; otherwise the newest `limit` rows, or 500
      when the limit is negative. */
  method GetAllHistories(store: AuthService.SessionStore, t: HistoryModel.HistoryTable, cookie: Option<string>, limit: Option<string>, now: int)
    returns (r: Reply<seq<HistoryModel.HistoryRow>>)
    requires store.Valid()
    modifies store
    ensures store.Valid() && store.sessions == AuthService.AfterCheck(old(store.sessions), cookie, now)
    ensures r.Failure? && r.status == 401 <==> !AuthService.ValidIn(old(store.sessions), cookie, now)
    ensures r.Failure? && r.status == 500 <==> AuthService.ValidIn(old(store.sessions), cookie, now) && LimitOf(limit) < 0
    ensures r.Success? ==> r.status == 200 && t.FindAll(LimitOf(limit)) == Ok(r.data)
    ensures r.Success? ==> |r.data| <= LimitOf(limit)
  {
    var user := store.GetCurrentUser(cookie, now);
    if user.None? {
      return Failure(401);
    }
    match t.FindAll(LimitOf(limit))
    case Err(_) => r := Failure(500);
    case Ok(rows) => r := Success(200, rows);
  }

  /** `getHistoryById`: 401 without a valid session, 404 when there is no such row. */
  method GetHistoryById(store: AuthService.SessionStore, t: HistoryModel.HistoryTable, cookie: Option<string>, id: Option<int>, now: int)
    returns (r: Reply<HistoryModel.HistoryRow>)
    requires store.Valid()
    modifies store
    ensures store.Valid() && store.sessions == AuthService.AfterCheck(old(store.sessions), cookie, now)
    ensures r.Failure? && r.status == 401 <==> !AuthService.ValidIn(old(store.sessions), cookie, now)
    ensures r.Failure? && r.status == 500 <==> AuthService.ValidIn(old(store.sessions), cookie, now) && id.None?
    ensures r.Failure? && r.status == 404 <==> AuthService.ValidIn(old(store.sessions), cookie, now) && id.Some? && t.FindById(id.value).None?
    ensures r.Success? ==> r.status == 200 && r.data in t.rows && r.data.id == id.value
  {
    var user := store.GetCurrentUser(cookie, now);
    if user.None? {
      return Failure(401);
    }
    if id.None? {
      return Failure(500);
    }
    var found := t.FindById(id.value);
    if found.None? {
      return Failure(404);
    }
    return Success(200, found.value);
  }

  /** `updateNote`: 400 for a note that is not a string (even an empty string is accepted),
      checked before the session, so no session is looked at then; 401; 404 when there is no
      such row, and then nothing is written; 500 when the note is longer than its
      `varchar(255)` column and the update fails; otherwise the note is replaced and the
      answer is 200. */
  method UpdateNote(store: AuthService.SessionStore, t: HistoryModel.HistoryTable, cookie: Option<string>, id: Option<int>, note: Js.Value, now: int)
    returns (status: nat)
    requires store.Valid() && t.Valid()
    modifies store, t
    ensures store.Valid() && t.Valid() && t.nextId == old(t.nextId)
    ensures status == 400 <==> !note.Str?
    ensures !note.Str? ==> store.sessions == old(store.sessions)
    ensures note.Str? ==> store.sessions == AuthService.AfterCheck(old(store.sessions), cookie, now)
    ensures status == 401 <==> note.Str? && !AuthService.ValidIn(old(store.sessions), cookie, now)
    ensures status == 500 <==>
      (note.Str? && AuthService.ValidIn(old(store.sessions), cookie, now) &&
       (id.None? || (old(t.FindById(id.value)).Some? && !Schema.FitsVarchar(note.s))))
    ensures status == 404 <==> note.Str? && AuthService.ValidIn(old(store.sessions), cookie, now) && id.Some? && old(t.FindById(id.value)).None?
    ensures status != 200 ==> t.rows == old(t.rows)
    ensures status == 200 ==> |t.rows| == |old(t.rows)| && forall i :: 0 <= i < |t.rows| ==>
      t.rows[i] == if old(t.rows)[i].id == id.value then old(t.rows)[i].(data := old(t.rows)[i].data.(note := note.s)) else old(t.rows)[i]
    ensures status in {200, 400, 401, 404, 500}
  {
    if !note.Str? {
      return 400;
    }
    var user := store.GetCurrentUser(cookie, now);
    if user.None? {
      return 401;
    }
    if id.None? {
      return 500;
    }
    if t.FindById(id.value).None? {
      return 404;
    }
    var written := t.UpdateNote(id.value, note.s);
    if written.Err? {
      return 500;
    }
    return 200;
  }

  /** `deleteHistory`: 401; 404 when there is no such row, and then nothing is deleted;
      otherwise the row is removed and the answer is 204. */
  method DeleteHistory(store: AuthService.SessionStore, t: HistoryModel.HistoryTable, cookie: Option<string>, id: Option<int>, now: int)
    returns (status: nat)
    requires store.Valid() && t.Valid()
    modifies store, t
    ensures store.Valid() && t.Valid() && t.nextId == old(t.nextId)
    ensures store.sessions == AuthService.AfterCheck(old(store.sessions), cookie, now)
    ensures status == 401 <==> !AuthService.ValidIn(old(store.sessions), cookie, now)
    ensures status == 500 <==> AuthService.ValidIn(old(store.sessions), cookie, now) && id.None?
    ensures status == 404 <==> AuthService.ValidIn(old(store.sessions), cookie, now) && id.Some? && old(t.FindById(id.value)).None?
    ensures status != 204 ==> t.rows == old(t.rows)
    ensures status == 204 ==> t.rows == Seqs.Filter(old(t.rows), (row: HistoryModel.HistoryRow) => row.id != id.value)
    ensures status in {204, 401, 404, 500}
  {
    var user := store.GetCurrentUser(cookie, now);
    if user.None? {
      return 401;
    }
    if id.None? {
      return 500;
    }
    if t.FindById(id.value).None? {
      return 404;
    }
    var _ := t.Delete(id.value);
    return 204;
  }
}

=== FILE: history_model.dfy ===
/** The prediction history table (server/models/History.js).  A row is identified by its id;
    the combination (symbol, user_id, range, model) is unique. */
module HistoryModel {
  import opened Wrappers
  import Seqs
  import Schema

  /** The columns a prediction writes: the series shown, the prediction, the company record
      (as JSON text), the time, the owner, the note and the request's range and model. */
  datatype HistoryData = HistoryData(
    symbol: string, actual: seq<Option<real>>, actualDates: seq<string>, predicted: seq<real>,
    predictedDates: seq<string>, company: string, createdAt: int, userId: int, note: string,
    range: string, model: string)

  /** A stored row. */
  datatype HistoryRow = HistoryRow(id: nat, data: HistoryData)

  /** The unique key of a row. */
  datatype Key = Key(symbol: string, userId: int, range: string, model: string)

  function KeyOf(d: HistoryData): Key {
    Key(d.symbol, d.userId, d.range, d.model)
  }

  function CreatedAtOf(r: HistoryRow): int {
    r.data.createdAt
  }

  /** The position of the row with key `k`, if any. */
  function IndexOfKey(rows: seq<HistoryRow>, k: Key): (r: Option<nat>)
    ensures r.Some? ==> r.value < |rows| && KeyOf(rows[r.value].data) == k
    ensures r.None? ==> forall i :: 0 <= i < |rows| ==> KeyOf(rows[i].data) != k
  {
    if rows == [] then None
    else if KeyOf(rows[0].data) == k then Some(0)
    else
      match IndexOfKey(rows[1..], k)
      case None => None
      case Some(i) => Some(i + 1)
  }

  /** The position of the row with id `id`, if any. */
  function IndexOfId(rows: seq<HistoryRow>, id: int): (r: Option<nat>)
    ensures r.Some? ==> r.value < |rows| && rows[r.value].id == id
    ensures r.None? ==> forall i :: 0 <= i < |rows| ==> rows[i].id != id
  {
    if rows == [] then None
    else if rows[0].id == id then Some(0)
    else
      match IndexOfId(rows[1..], id)
      case None => None
      case Some(i) => Some(i + 1)
  }

  /** The rows of one user, in their order. */
  function UserRows(rows: seq<HistoryRow>, userId: int): (r: seq<HistoryRow>)
    ensures forall x :: x in r <==> x in rows && x.data.userId == userId
  {
    if rows == [] then []
    else
      var rest := UserRows(rows[1..], userId);
      assert forall x :: x in rows <==> x == rows[0] || x in rows[1..];
      if rows[0].data.userId == userId then [rows[0]] + rest else rest
  }

  lemma NewestOfUser(rows: seq<HistoryRow>, userId: int, limit: nat, r: seq<HistoryRow>)
    requires r == Seqs.Newest(UserRows(rows, userId), CreatedAtOf, limit)
    ensures |r| <= limit && Seqs.SortedDesc(r, CreatedAtOf)
    ensures var n := |UserRows(rows, userId)|; |r| == if limit < n then limit else n
    ensures forall k :: 0 <= k < |r| ==> r[k].data.userId == userId && r[k] in rows
    ensures forall x, y :: x in rows && x.data.userId == userId && x !in r && y in r ==>
      y.data.createdAt >= x.data.createdAt
  {
    var mine := UserRows(rows, userId);
    forall k | 0 <= k < |r| ensures r[k] in mine {
      assert r[k] in multiset(r);
    }
    forall x, y | x in rows && x.data.userId == userId && x !in r && y in r
      ensures y.data.createdAt >= x.data.createdAt
    {
      assert x in mine;
      assert CreatedAtOf(y) >= CreatedAtOf(x);
    }
  }

  /** No two rows share an id, and no two share a key. */
  predicate Distinct(rows: seq<HistoryRow>) {
    && (forall i, j :: 0 <= i < j < |rows| ==> rows[i].id != rows[j].id)
    && (forall i, j :: 0 <= i < j < |rows| ==> KeyOf(rows[i].data) != KeyOf(rows[j].data))
  }

  /** Cutting one row out keeps the rows distinct. */
  lemma CutKeepsDistinct(s: seq<HistoryRow>, i: nat)
    requires i < |s| && Distinct(s)
    ensures Distinct(s[..i] + s[i + 1..])
    ensures forall x :: x in s[..i] + s[i + 1..] ==> x in s
  {
    var t := s[..i] + s[i + 1..];
    assert forall j :: 0 <= j < |t| ==> t[j] == s[if j < i then j else j + 1];
  }

  class HistoryTable {
    /** The rows in insertion order. */
    var rows: seq<HistoryRow>
    /** The next value of the id sequence. */
    var nextId: nat

    ghost predicate Valid()
      reads this
    {
      (forall i :: 0 <= i < |rows| ==> rows[i].id < nextId) && Distinct(rows)
    }

    constructor()
      ensures Valid() && rows == [] && nextId == 1
    {
      rows := [];
      nextId := 1;
    }

    /** `upsert(d)`: insert, or on a conflict of the unique key merge every column of `d` into
        the existing row, which keeps its id.  The id sequence advances either way. */
    method Upsert(d: HistoryData)
      requires Valid()
      modifies this
      ensures Valid()
      ensures nextId == old(nextId) + 1
      ensures IndexOfKey(old(rows), KeyOf(d)).Some? ==>
        var i := IndexOfKey(old(rows), KeyOf(d)).value; rows == old(rows)[i := HistoryRow(old(rows)[i].id, d)]
      ensures IndexOfKey(old(rows), KeyOf(d)).None? ==> rows == old(rows) + [HistoryRow(old(nextId), d)]
    {
      var found := IndexOfKey(rows, KeyOf(d));
      if found.Some? {
        var i := found.value;
        rows := rows[i := HistoryRow(rows[i].id, d)];
      } else {
        rows := rows + [HistoryRow(nextId, d)];
      }
      nextId := nextId + 1;
    }

    /** `findAll(limit)`: the `limit` newest rows of all users, newest first.  A negative limit
        is refused by the query builder. */
    function FindAll(limit: int): (r: Result<seq<HistoryRow>>)
      reads this
      ensures r.Err? <==> limit < 0
      ensures r.Ok? ==> |r.value| == (if limit < |rows| then limit else |rows|)
      ensures r.Ok? ==> Seqs.SortedDesc(r.value, CreatedAtOf)
      ensures r.Ok? ==> multiset(r.value) <= multiset(rows)
      ensures r.Ok? ==> forall x, y :: x in rows && x !in r.value && y in r.value ==> y.data.createdAt >= x.data.createdAt
    {
      if limit < 0 then Err("A negative value was passed to limit()")
      else Ok(Seqs.Newest(rows, CreatedAtOf, limit))
    }

    /** `findByUserId(userId, limit)`: the `limit` newest rows of that user, newest first. */
    function FindByUserId(userId: int, limit: int): (r: Result<seq<HistoryRow>>)
      reads this
      ensures r.Err? <==> limit < 0
      ensures r.Ok? ==> |r.value| <= limit
      ensures r.Ok? ==> var n := |UserRows(rows, userId)|; |r.value| == if limit < n then limit else n
      ensures r.Ok? ==> forall k :: 0 <= k < |r.value| ==> r.value[k].data.userId == userId && r.value[k] in rows
      ensures r.Ok? ==> Seqs.SortedDesc(r.value, CreatedAtOf)
      ensures r.Ok? ==> multiset(r.value) <= multiset(UserRows(rows, userId))
      ensures r.Ok? ==> forall x, y :: x in rows && x.data.userId == userId && x !in r.value && y in r.value ==>
        y.data.createdAt >= x.data.createdAt
    {
      if limit < 0 then Err("A negative value was passed to limit()")
      else
        var r := Seqs.Newest(UserRows(rows, userId), CreatedAtOf, limit);
        NewestOfUser(rows, userId, limit, r);
        Ok(r)
    }

    /** `findById(id)`: the row with that id, or nothing. */
    function FindById(id: int): (r: Option<HistoryRow>)
      reads this
      ensures r.Some? <==> exists i :: 0 <= i < |rows| && rows[i].id == id
      ensures r.Some? ==> r.value in rows && r.value.id == id
    {
      match IndexOfId(rows, id)
      case None => None
      case Some(i) => Some(rows[i])
    }

    /** `updateNote(id, note)`: the note of the row with that id is replaced; answers the number
        of rows changed.  `note` is a `varchar(255)` column, so a longer note makes the update
        fail when there is a row to write it into, and then nothing changes. */
    method UpdateNote(id: int, note: string) returns (r: Result<nat>)
      requires Valid()
      modifies this
      ensures Valid() && nextId == old(nextId) && |rows| == |old(rows)|
      ensures r.Err? <==> old(FindById(id)).Some? && !Schema.FitsVarchar(note)
      ensures r.Err? ==> rows == old(rows)
      ensures r.Ok? ==> r.value == (if old(FindById(id)).Some? then 1 else 0)
      ensures r.Ok? ==> forall i :: 0 <= i < |rows| ==>
        rows[i] == if old(rows)[i].id == id then old(rows)[i].(data := old(rows)[i].data.(note := note)) else old(rows)[i]
    {
      match IndexOfId(rows, id)
      case None =>
        r := Ok(0);
      case Some(i) =>
        if !Schema.FitsVarchar(note) {
          return Err(Schema.TooLongMessage);
        }
        rows := rows[i := rows[i].(data := rows[i].data.(note := note))];
        r := Ok(1);
    }

    /** `delete(id)`: the row with that id is removed and the others keep their order;
        answers the number of rows deleted. */
    method Delete(id: int) returns (count: nat)
      requires Valid()
      modifies this
      ensures Valid() && nextId == old(nextId)
      ensures count == (if old(FindById(id)).Some? then 1 else 0)
      ensures rows == Seqs.Filter(old(rows), (r: HistoryRow) => r.id != id)
    {
      var keep := (r: HistoryRow) => r.id != id;
      var found := IndexOfId(rows, id);
      if found.None? {
        Seqs.FilterAll(rows, keep);
        count := 0;
      } else {
        var i := found.value;
        assert forall j :: 0 <= j < |rows| && j != i ==> keep(rows[j]) by {
          assert forall j :: 0 <= j < i ==> rows[j].id != rows[i].id;
          assert forall j :: i < j < |rows| ==> rows[i].id != rows[j].id;
        }
        Seqs.RemoveOnly(rows, i, keep);
        CutKeepsDistinct(rows, i);
        rows := rows[..i] + rows[i + 1..];
        count := 1;
      }
    }
  }
}

=== FILE: js.dfy ===
/** The parts of JavaScript's value semantics that the server and client code rely on. */
module Js {
  import opened Wrappers

  /** A value as it arrives in a JSON body, a query string or a cookie.  Numbers are reals:
      NaN and the infinities are not represented. */
  datatype Value = Undefined | Null | Bool(b: bool) | Num(n: real) | Str(s: string) | Arr(items: seq<Value>) | Obj

  /** JavaScript truthiness: `undefined`, `null`, `false`, `0` and `""` are falsy. */
  predicate Truthy(v: Value) {
    match v
    case Undefined => false
    case Null => false
    case Bool(b) => b
    case Num(n) => n != 0.0
    case Str(s) => s != ""
    case Arr(_) => true
    case Obj => true
  }

  /** Truthiness of an optional string (absent or empty is falsy). */
  predicate Present(s: Option<string>) {
    s.Some? && s.value != ""
  }

  /** Truthiness of an optional number (absent or zero is falsy). */
  predicate PresentNum(x: Option<real>) {
    x.Some? && x.value != 0.0
  }

  /** `x ? x : null` on an optional number: absent and zero both become null. */
  function NumOrNull(x: Option<real>): (r: Option<real>)
    ensures r.Some? <==> PresentNum(x)
    ensures r.Some? ==> r == x
  {
    if PresentNum(x) then x else None
  }

  /** `x || null` on an optional string: absent and empty both become null. */
  function StrOrNull(x: Option<string>): (r: Option<string>)
    ensures r.Some? <==> Present(x)
    ensures r.Some? ==> r == x
  {
    if Present(x) then x else None
  }

  /** `s.length`: the number of UTF-16 code units, two for a character beyond U+FFFF. */
  function Utf16Length(s: string): (n: nat)
    ensures |s| <= n <= 2 * |s|
    ensures n == |s| <==> forall i :: 0 <= i < |s| ==> (s[i] as int) < 0x1_0000
  {
    if s == [] then 0
    else
      var init := s[..|s| - 1];
      assert forall i :: 0 <= i < |init| ==> init[i] == s[i];
      Utf16Length(init) + if (s[|s| - 1] as int) < 0x1_0000 then 1 else 2
  }

  /** ECMAScript WhiteSpace and LineTerminator code points: what `String.prototype.trim`
      strips and what the regular-expression class `\s` matches. */
  predicate IsWhitespace(c: char) {
    || c == '\t' || c == '\n' || c == '\U{000B}' || c == '\U{000C}' || c == '\r' || c == ' '
    || c == '\U{00A0}' || c == '\U{1680}' || ('\U{2000}' <= c <= '\U{200A}')
    || c == '\U{2028}' || c == '\U{2029}' || c == '\U{202F}' || c == '\U{205F}'
    || c == '\U{3000}' || c == '\U{FEFF}'
  }

  predicate AllWhitespace(s: string) {
    forall i :: 0 <= i < |s| ==> IsWhitespace(s[i])
  }

  /** The number of white-space characters at the start of `s`. */
  function LeadingBlanks(s: string): (n: nat)
    ensures n <= |s|
    ensures forall i :: 0 <= i < n ==> IsWhitespace(s[i])
    ensures n < |s| ==> !IsWhitespace(s[n])
  {
    if s != [] && IsWhitespace(s[0]) then 1 + LeadingBlanks(s[1..]) else 0
  }

  /** `s` without its leading white space. */
  function TrimStart(s: string): (r: string)
    ensures |r| <= |s| && r == s[|s| - |r|..]
    ensures AllWhitespace(s[..|s| - |r|])
    ensures r == [] || !IsWhitespace(r[0])
  {
    var n := LeadingBlanks(s);
    assert forall i :: 0 <= i < n ==> s[..n][i] == s[i];
    s[n..]
  }

  /** `s` without its trailing white space. */
  function TrimEnd(s: string): (r: string)
    ensures |r| <= |s| && r == s[..|r|]
    ensures AllWhitespace(s[|r|..])
    ensures r == [] || !IsWhitespace(r[|r| - 1])
  {
    if s != [] && IsWhitespace(s[|s| - 1]) then TrimEnd(s[..|s| - 1]) else s
  }

  /** `String.prototype.trim`. */
  function Trim(s: string): (r: string)
    ensures r == [] <==> AllWhitespace(s)
    ensures r != [] ==> !IsWhitespace(r[0]) && !IsWhitespace(r[|r| - 1])
  {
    var t := TrimStart(s);
    TrimStartBlank(s);
    TrimEndBlank(t);
    TrimEnd(t)
  }

  lemma {:induction false} TrimStartBlank(s: string)
    ensures TrimStart(s) == [] <==> AllWhitespace(s)
  {
    var t := TrimStart(s);
    if t != [] {
      assert t[0] == s[|s| - |t|];
    } else {
      assert s[..|s|] == s;
    }
  }

  lemma {:induction false} TrimEndBlank(s: string)
    ensures TrimEnd(s) == [] <==> AllWhitespace(s)
  {
    var t := TrimEnd(s);
    if t != [] {
      assert t[|t| - 1] == s[|t| - 1];
    }
    if t == [] {
      assert s[|t|..] == s;
    }
  }

  /** `s.endsWith(suffix)`. */
  predicate EndsWith(s: string, suffix: string) {
    |suffix| <= |s| && s[|s| - |suffix|..] == suffix
  }

  /** `s.includes(part)`. */
  predicate Contains(s: string, part: string) {
    exists i :: 0 <= i <= |s| - |part| && OccursAt(s, part, i)
  }

  /** ASCII lower-casing of one character; every other character is left alone. */
  function LowerChar(c: char): char {
    if 'A' <= c <= 'Z' then (c as int + 32) as char else c
  }

  /** ASCII lower-casing of a string, character by character. */
  function AsciiLower(s: string): (r: string)
    ensures |r| == |s|
    ensures forall i :: 0 <= i < |s| ==> r[i] == LowerChar(s[i])
  {
    seq(|s|, i requires 0 <= i < |s| => LowerChar(s[i]))
  }

  /** `part` occurs in `s` starting at index `i`. */
  predicate OccursAt(s: string, part: string, i: int)
    requires 0 <= i <= |s| - |part|
  {
    s[i..i + |part|] == part
  }

  /** `Math.round`: the nearest integer, ties toward positive infinity. */
  function MathRound(x: real): (r: int)
    ensures (r as real) - 0.5 <= x < (r as real) + 0.5
  {
    (x + 0.5).Floor
  }

  /** `+x.toFixed(2)`: the nearest multiple of 0.01, ties away from zero. */
  function ToFixed2(x: real): (r: real)
    ensures ((r * 100.0).Floor as real) == r * 100.0
    ensures -0.5 <= r * 100.0 - x * 100.0 <= 0.5
  {
    var k := if x >= 0.0 then (x * 100.0 + 0.5).Floor else -((-x) * 100.0 + 0.5).Floor;
    assert (k as real) / 100.0 * 100.0 == k as real;
    (k as real) / 100.0
  }

  /** The decimal digit for `d`. */
  function DigitChar(d: nat): (c: char)
    requires d < 10
    ensures '0' <= c <= '9' && (c as int) - ('0' as int) == d
  {
    (48 + d) as char
  }

  predicate IsDigit(c: char) {
    '0' <= c <= '9'
  }

  /** The value of a string of decimal digits. */
  function DigitsValue(s: string): nat
    requires forall i :: 0 <= i < |s| ==> IsDigit(s[i])
  {
    if s == [] then 0
    else
      assert IsDigit(s[|s| - 1]);
      DigitsValue(s[..|s| - 1]) * 10 + ((s[|s| - 1] as int) - ('0' as int))
  }

  /** `String(n)` for a natural number: its decimal digits without leading zeros. */
  function NatToString(n: nat): (r: string)
    ensures r != [] && (forall i :: 0 <= i < |r| ==> IsDigit(r[i]))
    ensures r[0] == '0' ==> n == 0
    ensures DigitsValue(r) == n
  {
    if n < 10 then [DigitChar(n)]
    else
      var r := NatToString(n / 10) + [DigitChar(n % 10)];
      assert r[..|r| - 1] == NatToString(n / 10);
      r
  }

  /** A lower-case hexadecimal digit. */
  predicate IsHexDigit(c: char) {
    '0' <= c <= '9' || 'a' <= c <= 'f'
  }

  /** The lower-case hexadecimal digit for `d`. */
  function HexDigit(d: nat): (c: char)
    requires d < 16
    ensures IsHexDigit(c)
  {
    if d < 10 then (48 + d) as char else (87 + d) as char
  }

  /** The value of one lower-case hexadecimal digit. */
  function HexValue(c: char): (v: nat)
    requires IsHexDigit(c)
    ensures v < 16 && HexDigit(v) == c
  {
    if '0' <= c <= '9' then (c as int) - 48 else (c as int) - 87
  }

  /** `Buffer.toString('hex')`: two lower-case hexadecimal digits per byte. */
  function HexEncode(bytes: seq<bv8>): (r: string)
    ensures |r| == 2 * |bytes|
    ensures forall i :: 0 <= i < |r| ==> IsHexDigit(r[i])
  {
    if bytes == [] then ""
    else
      var b := bytes[0] as int;
      [HexDigit(b / 16), HexDigit(b % 16)] + HexEncode(bytes[1..])
  }

  /** The bytes that a lower-case hexadecimal string of even length denotes. */
  function HexDecode(s: string): seq<bv8>
    requires IsHexText(s)
  {
    if |s| < 2 then [] else [HexByte(s[0], s[1])] + HexDecode(s[2..])
  }

  predicate IsHexText(s: string) {
    forall i :: 0 <= i < |s| ==> IsHexDigit(s[i])
  }

  /** The byte that two hexadecimal digits denote. */
  function HexByte(hi: char, lo: char): bv8
    requires IsHexDigit(hi) && IsHexDigit(lo)
  {
    (HexValue(hi) * 16 + HexValue(lo)) as bv8
  }

  /** Hex encoding loses nothing: decoding gives the bytes back. */
  lemma {:induction false} HexRoundTrip(bytes: seq<bv8>)
    ensures HexDecode(HexEncode(bytes)) == bytes
  {
    if bytes != [] {
      var s := HexEncode(bytes);
      var b := bytes[0] as int;
      assert s == [HexDigit(b / 16), HexDigit(b % 16)] + HexEncode(bytes[1..]);
      assert s[2..] == HexEncode(bytes[1..]);
      ByteDigits(bytes[0]);
      HexRoundTrip(bytes[1..]);
    }
  }

  /** The two digits written for a byte denote that byte. */
  lemma ByteDigits(x: bv8)
    ensures HexByte(HexDigit((x as int) / 16), HexDigit((x as int) % 16)) == x
  {
    var hi, lo := (x as int) / 16, (x as int) % 16;
    DigitValue(hi);
    DigitValue(lo);
    ByteFromDigits(x);
    assert HexValue(HexDigit(hi)) * 16 + HexValue(HexDigit(lo)) == hi * 16 + lo;
  }

  lemma ByteFromDigits(x: bv8)
    ensures ((x as int) / 16 * 16 + (x as int) % 16) as bv8 == x
  {
    assert (x as int) / 16 * 16 + (x as int) % 16 == x as int;
  }

  lemma DigitValue(d: nat)
    requires d < 16
    ensures HexValue(HexDigit(d)) == d
  {
  }

  /** The value of `c` as a digit in base `radix` (10 or 16; letters in either case). */
  function DigitIn(c: char, radix: nat): (d: Option<nat>)
    ensures d.Some? ==> d.value < radix
    ensures radix == 10 ==> (d.Some? <==> IsDigit(c))
    ensures radix == 10 && d.Some? ==> d.value == (c as int) - ('0' as int)
  {
    var v: int :=
      if '0' <= c <= '9' then (c as int) - ('0' as int)
      else if 'a' <= c <= 'z' then (c as int) - ('a' as int) + 10
      else if 'A' <= c <= 'Z' then (c as int) - ('A' as int) + 10
      else radix;
    if v < radix then Some(v) else None
  }

  /** The length of the longest prefix of `s` made of base-`radix` digits. */
  function DigitRun(s: string, radix: nat): (n: nat)
    ensures n <= |s|
    ensures forall i :: 0 <= i < n ==> DigitIn(s[i], radix).Some?
    ensures n < |s| ==> DigitIn(s[n], radix).None?
  {
    if s == [] || DigitIn(s[0], radix).None? then 0 else 1 + DigitRun(s[1..], radix)
  }

  /** The number a string of base-`radix` digits denotes. */
  function RadixValue(s: string, radix: nat): nat
    requires forall i :: 0 <= i < |s| ==> DigitIn(s[i], radix).Some?
  {
    if s == [] then 0
    else
      var init := s[..|s| - 1];
      assert forall i :: 0 <= i < |init| ==> init[i] == s[i];
      var high := RadixValue(init, radix);
      NatProduct(high, radix);
      high * radix + DigitIn(s[|s| - 1], radix).value
  }

  lemma NatProduct(a: nat, b: nat)
    ensures a * b >= 0
  {
  }

  /** The digits after any sign: an optional `0x`/`0X` prefix selects base 16, and the
      longest run of digits that follows is read; `None` when there is no digit. */
  function UnsignedValue(u: string): (r: Option<nat>)
    ensures r.Some? ==> u != []
  {
    var hex := |u| >= 2 && u[0] == '0' && (u[1] == 'x' || u[1] == 'X');
    var radix := if hex then 16 else 10;
    var digits := if hex then u[2..] else u;
    var n := DigitRun(digits, radix);
    if n == 0 then None else Some(RadixValue(digits[..n], radix))
  }

  /** `parseInt(s)` without a radix: leading white space is skipped, then an optional sign,
      then the unsigned digits.  `None` is NaN; a negative zero is zero. */
  function ParseInt(s: string): (r: Option<int>)
    ensures r.Some? ==> TrimStart(s) != []
  {
    SignedValue(TrimStart(s))
  }

  /** Text without leading white space: an optional sign, then the unsigned digits. */
  function SignedValue(t: string): (r: Option<int>)
    ensures r.Some? ==> t != []
  {
    var negative := t != [] && t[0] == '-';
    var u := if t != [] && (t[0] == '-' || t[0] == '+') then t[1..] else t;
    match UnsignedValue(u)
    case None => None
    case Some(v) => Some(if negative then 0 - v else v as int)
  }

  /** Decimal digits read the same in both readings. */
  lemma {:induction false} RadixTen(s: string)
    requires forall i :: 0 <= i < |s| ==> IsDigit(s[i])
    ensures RadixValue(s, 10) == DigitsValue(s)
  {
    if s != [] {
      RadixTen(s[..|s| - 1]);
    }
  }

  /** A run of decimal digits without a `0x` prefix reads as its decimal value. */
  lemma UnsignedDecimal(u: string)
    requires u != [] && forall i :: 0 <= i < |u| ==> IsDigit(u[i])
    ensures UnsignedValue(u) == Some(DigitsValue(u))
  {
    assert DigitRun(u, 10) == |u|;
    assert u[..|u|] == u;
    RadixTen(u);
  }

  /** Text that starts with a digit reads as its unsigned value. */
  lemma ParseIntDigitFirst(s: string)
    requires s != [] && IsDigit(s[0])
    ensures ParseInt(s) == UnsignedValue(s)
  {
    assert !IsWhitespace(s[0]);
    assert TrimStart(s) == s;
  }

  /** `parseInt(String(n)) === n` for every natural number. */
  lemma ParseIntOfNat(n: nat)
    ensures ParseInt(NatToString(n)) == Some(n)
  {
    var s := NatToString(n);
    ParseIntDigitFirst(s);
    UnsignedDecimal(s);
  }

  /** Trailing text after the digits is ignored. */
  lemma ParseIntTrailing()
    ensures ParseInt("12px") == Some(12)
  {
    ParseIntDigitFirst("12px");
    TwelvePixels();
  }

  lemma TwelvePixels()
    ensures UnsignedValue("12px") == Some(12)
  {
    assert DigitRun("12px", 10) == 2 by {
      assert "12px"[1..] == "2px" && "2px"[1..] == "px";
      assert DigitRun("px", 10) == 0;
    }
    assert RadixValue("12", 10) == 12 by {
      assert "12"[..1] == "1" && "1"[..0] == "";
    }
    assert "12px"[..2] == "12";
  }

  /** A minus sign negates. */
  lemma ParseIntNegative()
    ensures ParseInt("-5") == Some(-5)
  {
    assert !IsWhitespace('-');
    assert TrimStart("-5") == "-5";
    assert "-5"[1..] == "5";
    UnsignedDecimal("5");
  }

  /** Leading white space is skipped up to the first other character. */
  lemma TrimLeading(ws: string, t: string)
    requires AllWhitespace(ws) && t != [] && !IsWhitespace(t[0])
    ensures TrimStart(ws + t) == t
  {
    var s := ws + t;
    var r := TrimStart(s);
    assert r == s[|ws|..];
  }

  /** The decimal digit run of `digits + rest` stops where `rest` starts with a non-digit. */
  lemma {:induction false} DecimalRun(digits: string, rest: string)
    requires forall i :: 0 <= i < |digits| ==> IsDigit(digits[i])
    requires rest == [] || !IsDigit(rest[0])
    ensures DigitRun(digits + rest, 10) == |digits|
  {
    if digits != [] {
      assert (digits + rest)[1..] == digits[1..] + rest;
      DecimalRun(digits[1..], rest);
    }
  }

  /** Decimal digits followed by anything that does not continue the number read as the
      digits' value. */
  lemma UnsignedPrefix(digits: string, rest: string)
    requires DecimalLead(digits, rest)
    ensures UnsignedValue(digits + rest) == Some(DigitsValue(digits))
  {
    var u := digits + rest;
    NoHexPrefix(digits, rest);
    DecimalRun(digits, rest);
    assert u[..|digits|] == digits;
    RadixTen(digits);
  }

  /** Decimal digits followed by anything that does not continue the number carry no `0x`. */
  lemma NoHexPrefix(digits: string, rest: string)
    requires DecimalLead(digits, rest)
    ensures var u := digits + rest; !(|u| >= 2 && u[0] == '0' && (u[1] == 'x' || u[1] == 'X'))
  {
    var u := digits + rest;
    assert u[0] == digits[0];
    if |digits| >= 2 {
      assert u[1] == digits[1];
    } else if |u| >= 2 {
      assert u[1] == rest[0];
      assert digits[0] == '0' ==> digits == "0";
    }
  }

  /** The digits part of the text `parseInt` reads: decimal digits followed by anything that
      does not continue the number. */
  predicate DecimalLead(digits: string, rest: string) {
    && digits != [] && (forall i :: 0 <= i < |digits| ==> IsDigit(digits[i]))
    && (rest == [] || !IsDigit(rest[0]))
    && (digits == "0" && rest != [] ==> rest[0] != 'x' && rest[0] != 'X')
  }

  /** A number with no sign reads as its unsigned value. */
  lemma UnsignedLead(u: string, v: nat)
    requires UnsignedValue(u) == Some(v) && IsDigit(u[0])
    ensures SignedValue(u) == Some(v as int)
  {
  }

  /** A minus sign in front of an unsigned number negates it. */
  lemma MinusLead(u: string, v: nat)
    requires UnsignedValue(u) == Some(v)
    ensures SignedValue("-" + u) == Some(-(v as int))
  {
    assert ("-" + u)[1..] == u;
  }

  /** A plus sign in front of an unsigned number keeps it. */
  lemma PlusLead(u: string, v: nat)
    requires UnsignedValue(u) == Some(v)
    ensures SignedValue("+" + u) == Some(v as int)
  {
    assert ("+" + u)[1..] == u;
  }

  lemma MinusDecimal(digits: string, rest: string)
    requires DecimalLead(digits, rest)
    ensures SignedValue("-" + (digits + rest)) == Some(-(DigitsValue(digits) as int))
  {
    UnsignedPrefix(digits, rest);
    MinusLead(digits + rest, DigitsValue(digits));
  }

  lemma PlusDecimal(digits: string, rest: string)
    requires DecimalLead(digits, rest)
    ensures SignedValue("+" + (digits + rest)) == Some(DigitsValue(digits) as int)
  {
    UnsignedPrefix(digits, rest);
    PlusLead(digits + rest, DigitsValue(digits));
  }

  /** An optional sign, decimal digits, then anything that does not continue the number. */
  lemma SignedDecimal(sign: string, digits: string, rest: string)
    requires sign == "" || sign == "+" || sign == "-"
    requires DecimalLead(digits, rest)
    ensures SignedValue(sign + (digits + rest)) ==
      Some(if sign == "-" then -(DigitsValue(digits) as int) else DigitsValue(digits) as int)
  {
    if sign == "-" {
      MinusDecimal(digits, rest);
    } else if sign == "+" {
      PlusDecimal(digits, rest);
    } else {
      UnsignedPrefix(digits, rest);
      UnsignedLead(digits + rest, DigitsValue(digits));
      assert sign + (digits + rest) == digits + rest;
    }
  }

  lemma Regroup(a: string, b: string, c: string, d: string)
    ensures a + b + c + d == a + (b + (c + d))
  {
  }

  /** White space, an optional sign, decimal digits, then anything that does not continue the
      number: `parseInt` reads the signed value of the digits. */
  lemma ParseIntValue(ws: string, sign: string, digits: string, rest: string)
    requires AllWhitespace(ws)
    requires sign == "" || sign == "+" || sign == "-"
    requires DecimalLead(digits, rest)
    ensures ParseInt(ws + sign + digits + rest) ==
      Some(if sign == "-" then -(DigitsValue(digits) as int) else DigitsValue(digits) as int)
  {
    var t := sign + (digits + rest);
    SignedDecimal(sign, digits, rest);
    assert TrimStart(ws + t) == t by {
      assert t[0] == if sign == "" then digits[0] else sign[0];
      TrimLeading(ws, t);
    }
    Regroup(ws, sign, digits, rest);
  }

  /** No digit at all is NaN. */
  lemma ParseIntNaN()
    ensures ParseInt("abc") == None
    ensures ParseInt("") == None
  {
    assert !IsWhitespace('a');
    assert TrimStart("abc") == "abc";
    assert DigitRun("abc", 10) == 0;
  }

  /** The own properties every plain object literal inherits from `Object.prototype`. */
  const ObjectPrototypeKeys: set<string> := {
    "constructor", "__proto__", "toString", "toLocaleString", "valueOf", "hasOwnProperty",
    "isPrototypeOf", "propertyIsEnumerable", "__defineGetter__", "__defineSetter__",
    "__lookupGetter__", "__lookupSetter__"
  }

  /** The outcome of reading `obj[key]` on an object literal. */
  datatype Lookup<+T> = Own(value: T) | Inherited(name: string) | Missing

  /** `obj[key]` on an object created by `{...}`: an own property, else a property inherited
      from `Object.prototype` (a function or an object, and so truthy), else `undefined`. */
  function PlainObjectGet<T>(obj: map<string, T>, key: string): (r: Lookup<T>)
    ensures r.Own? <==> key in obj
    ensures r.Missing? <==> key !in obj && key !in ObjectPrototypeKeys
  {
    if key in obj then Own(obj[key])
    else if key in ObjectPrototypeKeys then Inherited(key)
    else Missing
  }
}

=== FILE: ml_predict.dfy ===
/** The prediction endpoint of the ML API (ml-api/app.py): a 7-row feature matrix built by
    compounding the return rate, handed to the selected pre-trained regressor. */
module MlPredict {
  import opened Wrappers
  import opened Http

  /** A fitted regressor seen from outside: a prediction per row of a feature matrix. */
  type Regressor = seq<seq<real>> -> seq<real>

  /** The JSON body of `POST /predict`; a field that is absent or `null` is `None`. */
  datatype PredictRequest = PredictRequest(prevClose: Option<real>, returnRate: Option<real>, model: Option<string>)

  /** The selector used when the body has no `model` field; no model of that name is loaded. */
  const DefaultModel: string := "model1"

  /** Number of synthetic rows: one per day of the week ahead. */
  const Horizon: nat := 7

  /** `x ** n` for a natural exponent. */
  function Pow(x: real, n: nat): real {
    if n == 0 then 1.0 else x * Pow(x, n - 1)
  }

  /** Row `i` (0-based) is `[prev_close * (1 + return_rate) ** (i + 1), return_rate]`. */
  function FeatureMatrix(prevClose: real, returnRate: real): (x: seq<seq<real>>)
    ensures |x| == Horizon
    ensures forall i :: 0 <= i < |x| ==> |x[i]| == 2 && x[i][1] == returnRate
  {
    seq(Horizon, i requires 0 <= i < Horizon => [prevClose * Pow(1.0 + returnRate, i + 1), returnRate])
  }

  /** One more compounding step multiplies the compounded price by the growth factor. */
  lemma CompoundStep(c: real, b: real, n: nat)
    ensures c * Pow(b, n + 1) == (c * Pow(b, n)) * b
  {
    var p := Pow(b, n);
    assert Pow(b, n + 1) == b * p;
    Reassociate(c, b, p);
  }

  lemma Reassociate(c: real, b: real, p: real)
    ensures c * (b * p) == (c * p) * b
  {
  }

  /** The first row holds the previous close grown once, and each row's price is the previous
      row's grown by the factor `1 + return_rate`. */
  lemma FeatureRowsGrow(prevClose: real, returnRate: real)
    ensures FeatureMatrix(prevClose, returnRate)[0][0] == prevClose * (1.0 + returnRate)
    ensures forall i :: 0 <= i < Horizon - 1 ==>
      FeatureMatrix(prevClose, returnRate)[i + 1][0] == FeatureMatrix(prevClose, returnRate)[i][0] * (1.0 + returnRate)
  {
    FirstRow(prevClose, returnRate);
    forall i | 0 <= i < Horizon - 1
      ensures FeatureMatrix(prevClose, returnRate)[i + 1][0] == FeatureMatrix(prevClose, returnRate)[i][0] * (1.0 + returnRate)
    {
      RowGrows(prevClose, returnRate, i);
    }
  }

  lemma FirstRow(prevClose: real, returnRate: real)
    ensures FeatureMatrix(prevClose, returnRate)[0][0] == prevClose * (1.0 + returnRate)
  {
    var b := 1.0 + returnRate;
    assert FeatureMatrix(prevClose, returnRate)[0][0] == prevClose * Pow(b, 1);
    assert Pow(b, 1) == b * Pow(b, 0) == b;
  }

  lemma RowGrows(prevClose: real, returnRate: real, i: nat)
    requires i < Horizon - 1
    ensures FeatureMatrix(prevClose, returnRate)[i + 1][0] == FeatureMatrix(prevClose, returnRate)[i][0] * (1.0 + returnRate)
  {
    var x := FeatureMatrix(prevClose, returnRate);
    assert x[i + 1][0] == prevClose * Pow(1.0 + returnRate, i + 2);
    assert x[i][0] == prevClose * Pow(1.0 + returnRate, i + 1);
    CompoundStep(prevClose, 1.0 + returnRate, i + 1);
  }

  /** With a previous close of 0 every synthetic price is 0. */
  lemma {:induction false} ZeroPrevCloseGivesZeroPrices(returnRate: real)
    ensures forall i :: 0 <= i < Horizon ==> FeatureMatrix(0.0, returnRate)[i][0] == 0.0
  {
    forall i | 0 <= i < Horizon ensures FeatureMatrix(0.0, returnRate)[i][0] == 0.0 {
      assert FeatureMatrix(0.0, returnRate)[i][0] == 0.0 * Pow(1.0 + returnRate, i + 1);
    }
  }

  /** The worked example: prev_close 100 and return 0.05 give 105 in the first row and
      100 * 1.05^7 in the last. */
  lemma FeatureMatrixExample()
    ensures FeatureMatrix(100.0, 0.05)[0] == [105.0, 0.05]
    ensures FeatureMatrix(100.0, 0.05)[6] == [140.710042265625, 0.05]
  {
    assert Pow(1.05, 1) == 1.05;
    assert Pow(1.05, 7) == 1.40710042265625 by {
      assert Pow(1.05, 2) == 1.1025;
      assert Pow(1.05, 4) == 1.21550625 by { assert Pow(1.05, 3) == 1.157625; }
      assert Pow(1.05, 6) == 1.340095640625 by { assert Pow(1.05, 5) == 1.2762815625; }
    }
  }

  /** `predict()`: build the features, then pick the regressor by exact name.  A missing
      `prev_close` or `return` fails while the features are built, before the selector is looked
      at (an unhandled error, 500); an unknown selector is answered 400 with an `error` key. */
  function Predict(req: PredictRequest, model2: Regressor, model3: Regressor): (r: Reply<seq<real>>)
    ensures (req.prevClose.None? || req.returnRate.None?) <==> r == Failure(500)
    ensures r.Success? <==> req.prevClose.Some? && req.returnRate.Some? && req.model.GetOr(DefaultModel) in {"model2", "model3"}
    ensures r.Success? ==> r.status == 200
    ensures r.Failure? ==> r.status in {400, 500}
    ensures r.Success? && req.model == Some("model2") ==> r.data == model2(FeatureMatrix(req.prevClose.value, req.returnRate.value))
    ensures r.Success? && req.model == Some("model3") ==> r.data == model3(FeatureMatrix(req.prevClose.value, req.returnRate.value))
  {
    if req.prevClose.None? || req.returnRate.None? then Failure(500)
    else
      var x := FeatureMatrix(req.prevClose.value, req.returnRate.value);
      var name := req.model.GetOr(DefaultModel);
      if name == "model2" then Success(200, model2(x))
      else if name == "model3" then Success(200, model3(x))
      else Failure(400)
  }

  /** A regressor that answers one prediction per input row, as both loaded models do. */
  ghost predicate OnePerRow(m: Regressor) {
    forall x :: |m(x)| == |x|
  }

  /** With well-formed inputs and either known selector, exactly seven predictions come back. */
  lemma SevenPredictions(req: PredictRequest, model2: Regressor, model3: Regressor)
    requires OnePerRow(model2) && OnePerRow(model3)
    requires req.prevClose.Some? && req.returnRate.Some?
    requires req.model == Some("model2") || req.model == Some("model3")
    ensures Predict(req, model2, model3).Success? && |Predict(req, model2, model3).data| == Horizon
  {
  }

  /** The default selector names no loaded model, so a body without `model` is always rejected. */
  lemma DefaultSelectorRejected(prevClose: real, returnRate: real, model2: Regressor, model3: Regressor)
    ensures Predict(PredictRequest(Some(prevClose), Some(returnRate), None), model2, model3) == Failure(400)
  {
  }
}

=== FILE: ml_train.dfy ===
/** The dataset step of the training script (ml-api/train_model.py): from a daily close series
    to rows (PrevClose, Return) -> Target, built column by column and then stripped of rows with
    missing values. */
module MlTrain {
  import opened Wrappers
  import Seqs

  /** One row of the data frame after the three derived columns are added. */
  datatype FrameRow = FrameRow(close: real, prevClose: Option<real>, ret: Option<real>, target: Option<real>)

  /** One usable training example. */
  datatype Sample = Sample(prevClose: real, ret: real, target: real)

  /** A close that was recorded (not NaN). */
  predicate IsPresent(o: Option<real>) {
    o.Some?
  }

  /** Every close marked as recorded. */
  function Wrap(closes: seq<real>): (w: seq<Option<real>>)
    ensures |w| == |closes| && forall i :: 0 <= i < |w| ==> w[i] == Some(closes[i])
  {
    seq(|closes|, i requires 0 <= i < |closes| => Some(closes[i]))
  }

  /** `df[["Close"]].dropna()`: exactly the closes that are present, in date order. */
  function DropMissingCloses(raw: seq<Option<real>>): (closes: seq<real>)
    ensures Wrap(closes) == Seqs.Filter(raw, IsPresent)
    ensures |closes| <= |raw|
  {
    if raw == [] then []
    else
      var rest := DropMissingCloses(raw[1..]);
      var head := if raw[0].Some? then [raw[0].value] else [];
      assert Wrap(head + rest) == Wrap(head) + Wrap(rest);
      head + rest
  }

  /** On a series with no gaps `dropna` keeps every close. */
  lemma {:induction false} NoGapsKept(raw: seq<Option<real>>)
    requires forall i :: 0 <= i < |raw| ==> raw[i].Some?
    ensures Wrap(DropMissingCloses(raw)) == raw
  {
    Seqs.FilterAll(raw, IsPresent);
  }

  /** The training examples of a downloaded series: drop the missing closes, then build the
      dataset from what is left. */
  function TrainingSet(raw: seq<Option<real>>): (r: seq<Sample>)
    requires NonzeroDenominators(DropMissingCloses(raw))
    ensures |r| <= |raw|
  {
    BuildDataset(DropMissingCloses(raw))
  }

  /** The examples of a downloaded series: two fewer than its recorded closes, and every
      target is one of the recorded closes. */
  lemma TrainingSetRows(raw: seq<Option<real>>)
    requires NonzeroDenominators(DropMissingCloses(raw))
    ensures var n := |DropMissingCloses(raw)|; |TrainingSet(raw)| == if n >= 2 then n - 2 else 0
    ensures forall k :: 0 <= k < |TrainingSet(raw)| ==> Some(TrainingSet(raw)[k].target) in raw
  {
    var closes := DropMissingCloses(raw);
    var samples := TrainingSet(raw);
    DatasetTargets(closes);
    assert samples == BuildDataset(closes);
    forall k | 0 <= k < |samples| ensures Some(samples[k].target) in raw {
      RecordedClose(raw, k + 2);
    }
  }

  /** The dataset's length, and each example's target: the close two steps later. */
  lemma DatasetTargets(close: seq<real>)
    requires NonzeroDenominators(close)
    ensures |BuildDataset(close)| == if |close| >= 2 then |close| - 2 else 0
    ensures forall k :: 0 <= k < |BuildDataset(close)| ==> BuildDataset(close)[k].target == close[k + 2]
  {
    DatasetRows(close);
  }

  /** Every close `dropna` keeps was recorded in the series. */
  lemma RecordedClose(raw: seq<Option<real>>, i: nat)
    requires i < |DropMissingCloses(raw)|
    ensures Some(DropMissingCloses(raw)[i]) in raw
  {
    var closes := DropMissingCloses(raw);
    assert Wrap(closes)[i] in Seqs.Filter(raw, IsPresent);
  }

  /** `series.shift(1)`: every value moves one step later; the first becomes missing. */
  function Shift(col: seq<Option<real>>): (r: seq<Option<real>>)
    ensures |r| == |col|
  {
    if col == [] then [] else [None] + col[..|col| - 1]
  }

  /** No close except possibly the last is zero, so every percentage change is a finite number. */
  predicate NonzeroDenominators(close: seq<real>) {
    forall t :: 0 <= t < |close| - 1 ==> close[t] != 0.0
  }

  /** `series.pct_change()`: `(close[t] - close[t-1]) / close[t-1]`, missing at `t = 0`. */
  function PctChange(close: seq<real>): (r: seq<Option<real>>)
    requires NonzeroDenominators(close)
    ensures |r| == |close|
  {
    seq(|close|, t requires 0 <= t < |close| => if t == 0 then None else Some((close[t] - close[t - 1]) / close[t - 1]))
  }

  /** The frame after `PrevClose = Close.shift(1)`, `Return = Close.pct_change().shift(1)`,
      `Target = Close`. */
  function Columns(close: seq<real>): (rows: seq<FrameRow>)
    requires NonzeroDenominators(close)
    ensures |rows| == |close|
  {
    var somes := seq(|close|, t requires 0 <= t < |close| => Some(close[t]));
    var prev := Shift(somes);
    var ret := Shift(PctChange(close));
    seq(|close|, t requires 0 <= t < |close| => FrameRow(close[t], prev[t], ret[t], somes[t]))
  }

  predicate Complete(row: FrameRow) {
    row.prevClose.Some? && row.ret.Some? && row.target.Some?
  }

  /** `df.dropna()`: keep the rows with no missing cell, in order. */
  function DropNa(rows: seq<FrameRow>): (samples: seq<Sample>)
    ensures |samples| <= |rows|
  {
    if rows == [] then []
    else
      var r := rows[0];
      (if Complete(r) then [Sample(r.prevClose.value, r.ret.value, r.target.value)] else []) + DropNa(rows[1..])
  }

  /** The training examples: the derived columns, then `dropna`. */
  function BuildDataset(close: seq<real>): seq<Sample>
    requires NonzeroDenominators(close)
  {
    DropNa(Columns(close))
  }

  /** `X = df[["PrevClose", "Return"]]`: two columns per example. */
  function Features(samples: seq<Sample>): (x: seq<seq<real>>)
    ensures |x| == |samples|
    ensures forall k :: 0 <= k < |x| ==> x[k] == [samples[k].prevClose, samples[k].ret]
  {
    seq(|samples|, k requires 0 <= k < |samples| => [samples[k].prevClose, samples[k].ret])
  }

  /** `y = df["Target"]`, aligned with `Features` row for row. */
  function Targets(samples: seq<Sample>): (y: seq<real>)
    ensures |y| == |samples|
    ensures forall k :: 0 <= k < |y| ==> y[k] == samples[k].target
  {
    seq(|samples|, k requires 0 <= k < |samples| => samples[k].target)
  }

  /** The example a complete frame row yields. */
  function SampleOf(row: FrameRow): Sample
    requires Complete(row)
  {
    Sample(row.prevClose.value, row.ret.value, row.target.value)
  }

  /** On rows that are all complete, `dropna` keeps every row. */
  lemma {:induction false} DropNaKeepsComplete(rows: seq<FrameRow>)
    requires forall k :: 0 <= k < |rows| ==> Complete(rows[k])
    ensures |DropNa(rows)| == |rows|
    ensures forall k :: 0 <= k < |rows| ==> DropNa(rows)[k] == SampleOf(rows[k])
  {
    if rows != [] {
      DropNaKeepsComplete(rows[1..]);
    }
  }

  /** The first two frame rows lack a previous close or a previous return. */
  lemma ColumnsIncomplete(close: seq<real>, t: nat)
    requires NonzeroDenominators(close) && t < |close| && t < 2
    ensures !Complete(Columns(close)[t])
  {
  }

  /** From the third row on, a frame row holds yesterday's close, yesterday's return and
      today's close. */
  lemma ColumnsAt(close: seq<real>, t: nat)
    requires NonzeroDenominators(close) && 2 <= t < |close|
    ensures Columns(close)[t] == FrameRow(close[t], Some(close[t - 1]), Some((close[t - 1] - close[t - 2]) / close[t - 2]), Some(close[t]))
  {
    var somes := seq(|close|, t requires 0 <= t < |close| => Some(close[t]));
    assert Shift(somes)[t] == somes[t - 1];
    assert Shift(PctChange(close))[t] == PctChange(close)[t - 1];
  }

  /** The dataset has `n - 2` rows, and row `k` (time `t = k + 2`) holds `Close[t-1]`,
      `(Close[t-1] - Close[t-2]) / Close[t-2]` and `Close[t]`, in time order. */
  lemma {:induction false} DatasetRows(close: seq<real>)
    requires NonzeroDenominators(close)
    ensures |BuildDataset(close)| == if |close| >= 2 then |close| - 2 else 0
    ensures forall k :: 0 <= k < |BuildDataset(close)| ==>
      BuildDataset(close)[k] == Sample(close[k + 1], (close[k + 1] - close[k]) / close[k], close[k + 2])
  {
    if |close| >= 2 {
      SkipFirstTwo(close);
      var tail := Columns(close)[2..];
      TailRows(close);
      DropNaKeepsComplete(tail);
    } else if |close| == 1 {
      var rows := Columns(close);
      ColumnsIncomplete(close, 0);
      assert DropNa(rows) == DropNa(rows[1..]);
    }
  }

  /** `dropna` discards the first two frame rows. */
  lemma SkipFirstTwo(close: seq<real>)
    requires NonzeroDenominators(close) && |close| >= 2
    ensures BuildDataset(close) == DropNa(Columns(close)[2..])
  {
    var rows := Columns(close);
    ColumnsIncomplete(close, 0);
    ColumnsIncomplete(close, 1);
    assert DropNa(rows) == DropNa(rows[1..]);
    assert rows[1..][1..] == rows[2..];
    assert DropNa(rows[1..]) == DropNa(rows[2..]);
  }

  /** The frame rows from the third on are complete and yield the stated examples. */
  lemma TailRows(close: seq<real>)
    requires NonzeroDenominators(close) && |close| >= 2
    ensures forall k :: 0 <= k < |close| - 2 ==>
      Complete(Columns(close)[2..][k]) && SampleOf(Columns(close)[2..][k]) == Sample(close[k + 1], (close[k + 1] - close[k]) / close[k], close[k + 2])
  {
    var tail := Columns(close)[2..];
    forall k | 0 <= k < |close| - 2
      ensures Complete(tail[k]) && SampleOf(tail[k]) == Sample(close[k + 1], (close[k + 1] - close[k]) / close[k], close[k + 2])
    {
      ColumnsAt(close, k + 2);
    }
  }

  /** The series 100, 105, 110, 108 yields two examples; the first has Return 0.05. */
  lemma DatasetExample()
    ensures |BuildDataset([100.0, 105.0, 110.0, 108.0])| == 2
    ensures BuildDataset([100.0, 105.0, 110.0, 108.0])[0] == Sample(105.0, 0.05, 110.0)
  {
    DatasetRows([100.0, 105.0, 110.0, 108.0]);
  }
}

=== FILE: portfolio_controller.dfy ===
/** The holdings endpoints (server/controllers/PortfolioController.js): the two checks on the
    request, then the repository call; a repository error is a 500. */
module PortfolioController {
  import opened Wrappers
  import opened Http
  import opened Schema
  import Js
  import PortfolioModel

  /** Why a request is refused before the repository is called. */
  datatype Rejection = MissingFields | NotPositive

  /** The two checks, in order: all three fields truthy (so zero shares or a zero price count
      as missing), then both numbers positive. */
  function Validate(symbol: Option<string>, shares: Option<int>, purchasePrice: Option<real>): (r: Option<Rejection>)
    ensures r.None? <==> Js.Present(symbol) && shares.Some? && shares.value > 0 && purchasePrice.Some? && purchasePrice.value > 0.0
    ensures r == Some(MissingFields) <==> !Js.Present(symbol) || shares.None? || shares.value == 0 || purchasePrice.None? || purchasePrice.value == 0.0
  {
    if !Js.Present(symbol) || shares.None? || shares.value == 0 || purchasePrice.None? || purchasePrice.value == 0.0 then Some(MissingFields)
    else if shares.value <= 0 || purchasePrice.value <= 0.0 then Some(NotPositive)
    else None
  }

  /** Zero shares are reported as a missing field, negative shares as not positive. */
  lemma ZeroAndNegativeShares()
    ensures Validate(Some("AAPL"), Some(0), Some(150.0)) == Some(MissingFields)
    ensures Validate(Some("AAPL"), Some(-1), Some(150.0)) == Some(NotPositive)
    ensures Validate(Some("AAPL"), Some(10), Some(150.0)).None?
  {
  }

  /** `getPortfolio`: the joined holdings, or 500 when the query fails. */
  function GetPortfolio(t: PortfolioModel.PortfolioTable, stocks: seq<StockRow>): (r: Reply<seq<PortfolioModel.Position>>)
    requires t.Valid()
    reads t
    ensures r.Failure? <==> t.GetAll(stocks).Err?
    ensures r.Failure? ==> r.status == 500
    ensures r.Success? ==> r.status == 200 && r.data == t.GetAll(stocks).value
  {
    match t.GetAll(stocks)
    case Err(_) => Failure(500)
    case Ok(positions) => Success(200, positions)
  }

  /** `getPortfolioSummary`: the summary, or 500 when the query fails. */
  function GetPortfolioSummary(t: PortfolioModel.PortfolioTable, stocks: seq<StockRow>): (r: Reply<PortfolioModel.Summary>)
    requires t.Valid()
    reads t
    ensures r.Failure? <==> t.GetAll(stocks).Err?
    ensures r.Failure? ==> r.status == 500
    ensures r.Success? ==> r.status == 200 && r.data == PortfolioModel.Summarize(t.GetAll(stocks).value)
  {
    match t.GetPortfolioSummary(stocks)
    case Err(_) => Failure(500)
    case Ok(summary) => Success(200, summary)
  }

  /** `addToPortfolio`: 400 before any repository call for a refused request; otherwise one
      `add`, whose error (an unknown stock) is a 500. */
  method AddToPortfolio(t: PortfolioModel.PortfolioTable, stocks: seq<StockRow>,
    symbol: Option<string>, shares: Option<int>, purchasePrice: Option<real>, now: int)
    returns (r: Reply<PortfolioModel.Holding>)
    requires t.Valid()
    modifies t
    ensures t.Valid()
    ensures r.Failure? && r.status == 400 <==> Validate(symbol, shares, purchasePrice).Some?
    ensures r.Failure? && r.status == 400 ==> t.holdings == old(t.holdings) && t.nextId == old(t.nextId)
    ensures r.Failure? && r.status == 500 <==>
      (Validate(symbol, shares, purchasePrice).None? && symbol.value !in old(t.holdings) && FindStock(stocks, symbol.value).None?)
    ensures r.Failure? ==> t.holdings == old(t.holdings)
    ensures r.Success? ==> r.status == 200 && r.data.symbol == symbol.value && t.holdings == old(t.holdings)[symbol.value := r.data]
    ensures r.Success? && symbol.value in old(t.holdings) ==>
      r.data == old(t.holdings)[symbol.value].(shares := old(t.holdings)[symbol.value].shares + shares.value)
    ensures r.Success? && symbol.value !in old(t.holdings) ==>
      r.data == PortfolioModel.Holding(old(t.nextId), symbol.value, shares.value, purchasePrice.value, now)
    ensures Validate(symbol, shares, purchasePrice).None? ==>
      t.nextId == if symbol.value in old(t.holdings) then old(t.nextId) else old(t.nextId) + 1
    ensures r.Success? || r.status == 400 || r.status == 500
  {
    if Validate(symbol, shares, purchasePrice).Some? {
      return Failure(400);
    }
    var added := t.Add(stocks, symbol.value, shares.value, purchasePrice.value, now);
    match added
    case Err(_) => r := Failure(500);
    case Ok(h) => r := Success(200, h);
  }

  /** `updatePortfolio`: the same checks; then 404 when the symbol is not held. */
  method UpdatePortfolio(t: PortfolioModel.PortfolioTable, symbol: Option<string>, shares: Option<int>, purchasePrice: Option<real>)
    returns (r: Reply<PortfolioModel.Holding>)
    requires t.Valid()
    modifies t
    ensures t.Valid() && t.nextId == old(t.nextId)
    ensures r.Failure? && r.status == 400 <==> Validate(symbol, shares, purchasePrice).Some?
    ensures r.Failure? && r.status == 404 <==> Validate(symbol, shares, purchasePrice).None? && symbol.value !in old(t.holdings)
    ensures r.Failure? ==> t.holdings == old(t.holdings)
    ensures r.Success? ==> r.status == 200 && t.holdings == old(t.holdings)[symbol.value := r.data]
    ensures r.Success? ==> r.data.shares == shares.value && r.data.purchasePrice == purchasePrice.value
    ensures r.Success? || r.status == 400 || r.status == 404
  {
    if Validate(symbol, shares, purchasePrice).Some? {
      return Failure(400);
    }
    var updated := t.Update(symbol.value, shares.value, purchasePrice.value);
    if updated.None? {
      return Failure(404);
    }
    return Success(200, updated.value);
  }

  /** `removeFromPortfolio`: 400 without a symbol, 404 when it was not held. */
  method RemoveFromPortfolio(t: PortfolioModel.PortfolioTable, symbol: Option<string>) returns (r: Reply<()>)
    requires t.Valid()
    modifies t
    ensures t.Valid()
    ensures r.Failure? && r.status == 400 <==> !Js.Present(symbol)
    ensures r.Failure? && r.status == 404 <==> Js.Present(symbol) && symbol.value !in old(t.holdings)
    ensures r.Success? <==> Js.Present(symbol) && symbol.value in old(t.holdings)
    ensures r.Success? ==> r.status == 200
    ensures t.nextId == old(t.nextId)
    ensures Js.Present(symbol) ==> t.holdings == old(t.holdings) - {symbol.value}
    ensures !Js.Present(symbol) ==> t.holdings == old(t.holdings)
  {
    if !Js.Present(symbol) {
      return Failure(400);
    }
    var removed := t.Remove(symbol.value);
    if removed {
      return Success(200, ());
    }
    return Failure(404);
  }
}

=== FILE: portfolio_model.dfy ===
/** The holdings table and its summary (server/models/Portfolio.js).  `portfolio.symbol` is
    unique and references `stocks.symbol` with cascading delete. */
module PortfolioModel {
  import opened Wrappers
  import opened Schema
  import Seqs

  /** A row of `portfolio`. */
  datatype Holding = Holding(id: nat, symbol: string, shares: int, purchasePrice: real, purchaseDate: int)

  /** A row of `getAll`: a holding joined with its stock and the three computed columns
      (`gain` is the column the query calls `return`).  `dividendYield` is the stock's yield when
      the query selects it. */
  datatype Position = Position(
    id: nat, symbol: string, name: string, shares: int, currentPrice: real, purchasePrice: real,
    purchaseDate: int, value: real, gain: real, returnPercent: real, dividendYield: Option<real>)

  /** `getPortfolioSummary`'s answer (without the display date). */
  datatype Summary = Summary(
    totalValue: real, totalInvestment: real, unrealizedPnL: real, averageReturn: real,
    annualDividends: real, portfolioRisk: real, dividendYield: real, stocks: seq<Position>)

  /** The fixed risk figure reported for a non-empty portfolio. */
  const PortfolioRisk: real := 3.7

  /** The computed columns of one joined row; a zero purchase price makes the division in the
      query fail. */
  function PositionOf(h: Holding, s: StockRow): (r: Result<Position>)
    ensures r.Err? <==> h.purchasePrice == 0.0
    ensures r.Ok? ==> r.value.value == (h.shares as real) * s.price
    ensures r.Ok? ==> r.value.gain == (s.price - h.purchasePrice) * (h.shares as real)
    ensures r.Ok? ==> r.value.returnPercent * h.purchasePrice == (s.price - h.purchasePrice) * 100.0
    ensures r.Ok? ==> r.value.symbol == h.symbol && r.value.dividendYield == s.dividendYield
  {
    if h.purchasePrice == 0.0 then Err("division by zero")
    else
      var pct := (s.price - h.purchasePrice) / h.purchasePrice * 100.0;
      assert pct * h.purchasePrice == (s.price - h.purchasePrice) * 100.0;
      Ok(Position(h.id, h.symbol, s.name, h.shares, s.price, h.purchasePrice, h.purchaseDate,
        (h.shares as real) * s.price, (s.price - h.purchasePrice) * (h.shares as real), pct, s.dividendYield))
  }

  /** The rows of `stocks` that some holding references, in the order of `stocks`. */
  function Held(stocks: seq<StockRow>, holdings: map<string, Holding>): seq<StockRow> {
    Seqs.Filter(stocks, (s: StockRow) => s.symbol in holdings)
  }

  lemma HeldCons(stocks: seq<StockRow>, holdings: map<string, Holding>)
    requires stocks != []
    ensures Held(stocks, holdings) ==
      (if stocks[0].symbol in holdings then [stocks[0]] else []) + Held(stocks[1..], holdings)
  {
  }

  /** `ps` holds, position by position, the join of each row of `held` with its holding. */
  predicate Joins(held: seq<StockRow>, holdings: map<string, Holding>, ps: seq<Position>) {
    |ps| == |held| &&
    forall k :: 0 <= k < |ps| ==>
      held[k].symbol in holdings && PositionOf(holdings[held[k].symbol], held[k]) == Ok(ps[k])
  }

  lemma JoinsCons(s: StockRow, held: seq<StockRow>, holdings: map<string, Holding>, p: Position, ps: seq<Position>)
    requires s.symbol in holdings && PositionOf(holdings[s.symbol], s) == Ok(p)
    requires Joins(held, holdings, ps)
    ensures Joins([s] + held, holdings, [p] + ps)
  {
    assert forall k :: 0 < k <= |ps| ==> ([p] + ps)[k] == ps[k - 1] && ([s] + held)[k] == held[k - 1];
  }

  /** Some held stock row has a holding bought at price zero. */
  predicate HasZeroPrice(stocks: seq<StockRow>, holdings: map<string, Holding>) {
    exists i :: 0 <= i < |stocks| && stocks[i].symbol in holdings && holdings[stocks[i].symbol].purchasePrice == 0.0
  }

  lemma ZeroPriceCons(stocks: seq<StockRow>, holdings: map<string, Holding>)
    requires stocks != []
    ensures HasZeroPrice(stocks, holdings) <==>
      (stocks[0].symbol in holdings && holdings[stocks[0].symbol].purchasePrice == 0.0) || HasZeroPrice(stocks[1..], holdings)
  {
    if HasZeroPrice(stocks, holdings) {
      var i :| 0 <= i < |stocks| && stocks[i].symbol in holdings && holdings[stocks[i].symbol].purchasePrice == 0.0;
      if i > 0 {
        assert stocks[1..][i - 1] == stocks[i];
      }
    }
    if HasZeroPrice(stocks[1..], holdings) {
      var i :| 0 <= i < |stocks[1..]| && stocks[1..][i].symbol in holdings && holdings[stocks[1..][i].symbol].purchasePrice == 0.0;
      assert stocks[i + 1] == stocks[1..][i];
    }
  }

  /** The inner join of `portfolio` with `stocks` on the symbol, in the order of `stocks`: one
      position per held stock row, computed from that row and its holding.  It fails when a
      held row has a zero purchase price. */
  function Join(stocks: seq<StockRow>, holdings: map<string, Holding>): (r: Result<seq<Position>>)
    ensures r.Err? <==> HasZeroPrice(stocks, holdings)
    ensures r.Ok? ==> Joins(Held(stocks, holdings), holdings, r.value)
  {
    if stocks == [] then Ok([])
    else
      var tail := stocks[1..];
      HeldCons(stocks, holdings);
      ZeroPriceCons(stocks, holdings);
      match Join(tail, holdings)
      case Err(m) => Err(m)
      case Ok(rest) =>
        if stocks[0].symbol !in holdings then Ok(rest)
        else
          match PositionOf(holdings[stocks[0].symbol], stocks[0])
          case Err(m) => Err(m)
          case Ok(p) =>
            JoinsCons(stocks[0], Held(tail, holdings), holdings, p, rest);
            Ok([p] + rest)
  }

  function PurchaseDateOf(p: Position): int {
    p.purchaseDate
  }

  function SumOf(ps: seq<Position>, f: Position -> real): real {
    if ps == [] then 0.0 else f(ps[0]) + SumOf(ps[1..], f)
  }

  function ValueOf(p: Position): real { p.value }
  function InvestmentOf(p: Position): real { p.purchasePrice * (p.shares as real) }
  function GainOf(p: Position): real { p.gain }
  function ReturnPercentOf(p: Position): real { p.returnPercent }
  /** `stock.value * (stock.dividendYield || 0) / 100`. */
  function DividendOf(p: Position): real {
    p.value * (if p.dividendYield.Some? then p.dividendYield.value else 0.0) / 100.0
  }

  /** The summary arithmetic of `getPortfolioSummary` over the rows of `getAll`. */
  function Summarize(ps: seq<Position>): (s: Summary)
    ensures ps == [] ==> s == Summary(0.0, 0.0, 0.0, 0.0, 0.0, 0.0, 0.0, [])
    ensures ps != [] ==> s.portfolioRisk == PortfolioRisk && s.stocks == ps
    ensures ps != [] ==> s.totalValue == SumOf(ps, ValueOf) && s.totalInvestment == SumOf(ps, InvestmentOf)
    ensures s.unrealizedPnL == s.totalValue - s.totalInvestment
    ensures ps != [] ==> s.averageReturn * (|ps| as real) == SumOf(ps, ReturnPercentOf)
    ensures ps != [] ==> s.annualDividends == SumOf(ps, DividendOf)
    ensures s.totalValue > 0.0 ==> s.dividendYield * s.totalValue == s.annualDividends * 100.0
    ensures s.totalValue <= 0.0 ==> s.dividendYield == 0.0
  {
    if ps == [] then Summary(0.0, 0.0, 0.0, 0.0, 0.0, 0.0, 0.0, [])
    else
      var totalValue := SumOf(ps, ValueOf);
      var totalInvestment := SumOf(ps, InvestmentOf);
      var averageReturn := SumOf(ps, ReturnPercentOf) / (|ps| as real);
      var annualDividends := SumOf(ps, DividendOf);
      var dividendYield := if totalValue > 0.0 then annualDividends / totalValue * 100.0 else 0.0;
      MeanTimesCount(SumOf(ps, ReturnPercentOf), |ps| as real);
      PercentTimesWhole(annualDividends, totalValue);
      Summary(totalValue, totalInvestment, totalValue - totalInvestment, averageReturn,
        annualDividends, PortfolioRisk, dividendYield, ps)
  }

  /** A quotient multiplied back by its non-zero divisor is the dividend. */
  lemma MeanTimesCount(total: real, n: real)
    requires n != 0.0
    ensures (total / n) * n == total
  {
  }

  /** A part as a percentage of a non-zero whole, times the whole, is a hundred times the part. */
  lemma PercentTimesWhole(part: real, whole: real)
    ensures whole != 0.0 ==> (part / whole * 100.0) * whole == part * 100.0
  {
    if whole != 0.0 {
      MeanTimesCount(part, whole);
      assert (part / whole * 100.0) * whole == ((part / whole) * whole) * 100.0;
    }
  }

  /** `reduce` adds the rows from left to right: adding one more row at the end adds its
      term to the running total. */
  lemma {:induction false} SumOfSnoc(ps: seq<Position>, p: Position, f: Position -> real)
    ensures SumOf(ps + [p], f) == SumOf(ps, f) + f(p)
  {
    if ps != [] {
      assert (ps + [p])[1..] == ps[1..] + [p];
      SumOfSnoc(ps[1..], p, f);
    } else {
      assert ([] + [p])[1..] == [];
    }
  }

  /** The computed columns agree with the holding they come from. */
  predicate Consistent(p: Position) {
    p.value == (p.shares as real) * p.currentPrice && p.gain == (p.currentPrice - p.purchasePrice) * (p.shares as real)
  }

  lemma {:induction false} GainsAddUp(ps: seq<Position>)
    requires forall k :: 0 <= k < |ps| ==> Consistent(ps[k])
    ensures SumOf(ps, ValueOf) - SumOf(ps, InvestmentOf) == SumOf(ps, GainOf)
  {
    if ps != [] {
      GainsAddUp(ps[1..]);
      var p := ps[0];
      assert ValueOf(p) - InvestmentOf(p) == GainOf(p) by {
        assert (p.currentPrice - p.purchasePrice) * (p.shares as real)
          == (p.shares as real) * p.currentPrice - p.purchasePrice * (p.shares as real);
      }
    }
  }

  /** The unrealised profit is the sum of the rows' `return` column. */
  lemma PnLIsTotalGain(ps: seq<Position>)
    requires forall k :: 0 <= k < |ps| ==> Consistent(ps[k])
    ensures Summarize(ps).unrealizedPnL == SumOf(ps, GainOf)
  {
    GainsAddUp(ps);
  }

  lemma {:induction false} UniformDividends(ps: seq<Position>, y: real)
    requires forall k :: 0 <= k < |ps| ==> ps[k].dividendYield == Some(y)
    ensures SumOf(ps, DividendOf) == SumOf(ps, ValueOf) * y / 100.0
  {
    if ps != [] {
      UniformDividends(ps[1..], y);
    }
  }

  /** When every stock held yields `y` and the portfolio has value, the portfolio yields `y`. */
  lemma UniformYieldSummary(ps: seq<Position>, y: real)
    requires forall k :: 0 <= k < |ps| ==> ps[k].dividendYield == Some(y)
    requires SumOf(ps, ValueOf) > 0.0
    ensures Summarize(ps).dividendYield == y
    ensures Summarize(ps).annualDividends == Summarize(ps).totalValue * y / 100.0
  {
    UniformDividends(ps, y);
    var tv := SumOf(ps, ValueOf);
    var s := Summarize(ps);
    assert ps != [];
    assert s.totalValue == tv && s.annualDividends == tv * y / 100.0;
    assert s.dividendYield * tv == tv * y by {
      assert s.dividendYield * tv == s.annualDividends * 100.0;
    }
    CancelFactor(s.dividendYield, y, tv);
  }

  /** Two numbers with the same non-zero multiple are equal. */
  lemma CancelFactor(a: real, b: real, t: real)
    requires t != 0.0 && a * t == t * b
    ensures a == b
  {
    MeanTimesCount(a * t, t);
    assert a == (a * t) / t;
  }

  /** `getAll` as written selects no dividend yield, so every row reads `undefined` there. */
  function SelectAsWritten(ps: seq<Position>): (r: seq<Position>)
    ensures |r| == |ps|
    ensures forall k :: 0 <= k < |r| ==> r[k] == ps[k].(dividendYield := None)
  {
    seq(|ps|, k requires 0 <= k < |ps| => ps[k].(dividendYield := None))
  }

  lemma {:induction false} NoYieldNoDividends(ps: seq<Position>)
    requires forall k :: 0 <= k < |ps| ==> ps[k].dividendYield.None?
    ensures SumOf(ps, DividendOf) == 0.0
  {
    if ps != [] {
      NoYieldNoDividends(ps[1..]);
    }
  }

  /** The summary as written: dividends and yield are 0 whatever the stocks pay. */
  lemma DividendsAlwaysZeroAsWritten(ps: seq<Position>)
    ensures Summarize(SelectAsWritten(ps)).annualDividends == 0.0
    ensures Summarize(SelectAsWritten(ps)).dividendYield == 0.0
  {
    NoYieldNoDividends(SelectAsWritten(ps));
  }

  /** The discrepancy on one holding: ten shares of a stock at 100 yielding 2% show no
      dividends as written, and 20 a year with a 2% yield once the yield is selected. */
  lemma DividendExample()
    ensures var p := Position(1, "7203.T", "Toyota", 10, 100.0, 90.0, 0, 1000.0, 100.0, 100.0 / 9.0, Some(2.0));
      Summarize(SelectAsWritten([p])).dividendYield == 0.0 &&
      Summarize([p]).annualDividends == 20.0 && Summarize([p]).dividendYield == 2.0
  {
    var p := Position(1, "7203.T", "Toyota", 10, 100.0, 90.0, 0, 1000.0, 100.0, 100.0 / 9.0, Some(2.0));
    DividendsAlwaysZeroAsWritten([p]);
    UniformYieldSummary([p], 2.0);
  }

  class PortfolioTable {
    /** Holdings by symbol (the symbol is unique). */
    var holdings: map<string, Holding>
    var nextId: nat

    ghost predicate Valid()
      reads this
    {
      forall s :: s in holdings ==> holdings[s].symbol == s && holdings[s].id < nextId
    }

    constructor()
      ensures Valid() && holdings == map[] && nextId == 1
    {
      holdings := map[];
      nextId := 1;
    }

    /** `getBySymbol(symbol)`. */
    function GetBySymbol(symbol: string): (h: Option<Holding>)
      reads this
      ensures h.Some? <==> symbol in holdings
      ensures h.Some? ==> h.value == holdings[symbol]
    {
      if symbol in holdings then Some(holdings[symbol]) else None
    }

    /** `getAll()` against the current `stocks` rows: joined, newest purchase first. */
    function GetAll(stocks: seq<StockRow>): (r: Result<seq<Position>>)
      reads this
      ensures r.Err? <==> Join(stocks, holdings).Err?
      ensures r.Ok? ==> Seqs.SortedDesc(r.value, PurchaseDateOf)
      ensures r.Ok? ==> multiset(r.value) == multiset(Join(stocks, holdings).value)
    {
      match Join(stocks, holdings)
      case Err(m) => Err(m)
      case Ok(ps) => Ok(Seqs.SortDesc(ps, PurchaseDateOf))
    }

    /** `getPortfolioSummary()`, with the stock's yield selected (see `SelectAsWritten`). */
    function GetPortfolioSummary(stocks: seq<StockRow>): (r: Result<Summary>)
      reads this
      ensures r.Err? <==> GetAll(stocks).Err?
      ensures r.Ok? ==> r.value == Summarize(GetAll(stocks).value)
    {
      match GetAll(stocks)
      case Err(m) => Err(m)
      case Ok(ps) => Ok(Summarize(ps))
    }

    /** `add(symbol, shares, purchasePrice)` at time `now`: an existing holding gains the
        shares and keeps its price; a new one is inserted if the stock exists (the foreign key
        rejects it otherwise, after the id sequence has been advanced). */
    method Add(stocks: seq<StockRow>, symbol: string, shares: int, purchasePrice: real, now: int) returns (r: Result<Holding>)
      requires Valid()
      modifies this
      ensures Valid()
      ensures symbol in old(holdings) ==>
        r == Ok(old(holdings)[symbol].(shares := old(holdings)[symbol].shares + shares)) && holdings == old(holdings)[symbol := r.value] &&
        nextId == old(nextId)
      ensures symbol !in old(holdings) && FindStock(stocks, symbol).None? ==>
        r.Err? && holdings == old(holdings) && nextId == old(nextId) + 1
      ensures symbol !in old(holdings) && FindStock(stocks, symbol).Some? ==>
        r == Ok(Holding(old(nextId), symbol, shares, purchasePrice, now)) && holdings == old(holdings)[symbol := r.value] &&
        nextId == old(nextId) + 1
    {
      if symbol in holdings {
        var updated := holdings[symbol].(shares := holdings[symbol].shares + shares);
        holdings := holdings[symbol := updated];
        return Ok(updated);
      }
      if FindStock(stocks, symbol).None? {
        nextId := nextId + 1;
        return Err("insert or update on table \"portfolio\" violates foreign key constraint");
      }
      var inserted := Holding(nextId, symbol, shares, purchasePrice, now);
      holdings := holdings[symbol := inserted];
      nextId := nextId + 1;
      return Ok(inserted);
    }

    /** `update(symbol, shares, purchasePrice)`: overwrite both fields of that holding only;
        nothing when it is absent. */
    method Update(symbol: string, shares: int, purchasePrice: real) returns (r: Option<Holding>)
      requires Valid()
      modifies this
      ensures Valid() && nextId == old(nextId)
      ensures r.Some? <==> symbol in old(holdings)
      ensures r.Some? ==> r.value == old(holdings)[symbol].(shares := shares, purchasePrice := purchasePrice)
      ensures r.Some? ==> holdings == old(holdings)[symbol := r.value]
      ensures r.None? ==> holdings == old(holdings)
    {
      if symbol !in holdings {
        return None;
      }
      var updated := holdings[symbol].(shares := shares, purchasePrice := purchasePrice);
      holdings := holdings[symbol := updated];
      return Some(updated);
    }

    /** `remove(symbol)`: true iff a holding was deleted; afterwards there is none. */
    method Remove(symbol: string) returns (removed: bool)
      requires Valid()
      modifies this
      ensures Valid() && nextId == old(nextId)
      ensures removed <==> symbol in old(holdings)
      ensures holdings == old(holdings) - {symbol}
    {
      removed := symbol in holdings;
      holdings := holdings - {symbol};
    }
  }
}

=== FILE: predict_controller.dfy ===
/** The prediction endpoint (server/controllers/PredictController.js): the symbol check, the
    session check, the price history, the prediction from the last close, the company data, the
    history row, and the mapping of a thrown error's message to a status.  The chart answer,
    the quote answer, the ML models, the predicted dates, `JSON.stringify` and the clock are
    parameters. */
module PredictController {
  import opened Wrappers
  import opened Http
  import Js
  import AuthService
  import HistoryModel
  import StockService
  import MlPredict

  const DefaultRange: string := "1w"
  const DefaultModel: string := "model1"
  /** The owner every saved prediction is recorded under. */
  const FixedUserId: int := 1

  /** The texts the error handler looks for. */
  const FetchFailedText: string := "株価データが取得できませんでした"
  const NotFoundText: string := "株価データが見つかりませんでした"

  /** The status for a thrown error: 400 when its message mentions the failed fetch, 404 when
      it mentions missing data, 500 otherwise. */
  function ErrorStatus(message: string): (status: nat)
    ensures status in {400, 404, 500}
    ensures status == 400 <==> Js.Contains(message, FetchFailedText)
    ensures status == 404 <==> !Js.Contains(message, FetchFailedText) && Js.Contains(message, NotFoundText)
  {
    if Js.Contains(message, FetchFailedText) then 400
    else if Js.Contains(message, NotFoundText) then 404
    else 500
  }

  /** A string that lacks the first character of `part` does not contain `part`. */
  lemma LacksFirst(s: string, part: string)
    requires part != [] && part[0] !in s
    ensures !Js.Contains(s, part)
  {
  }

  /** The service's two messages and an HTTP client error map to 400, 404 and 500. */
  lemma ErrorStatuses(n: nat)
    ensures ErrorStatus(StockService.FetchFailedMessage) == 400
    ensures ErrorStatus(StockService.NotFoundMessage) == 404
    ensures ErrorStatus(StockService.RequestFailed(n)) == 500
  {
    assert Js.OccursAt(StockService.FetchFailedMessage, FetchFailedText, 0) by {
      assert StockService.FetchFailedMessage[0..|FetchFailedText|] == FetchFailedText;
    }
    assert Js.OccursAt(StockService.NotFoundMessage, NotFoundText, 0) by {
      assert StockService.NotFoundMessage[0..|NotFoundText|] == NotFoundText;
    }
    assert !Js.Contains(StockService.NotFoundMessage, FetchFailedText);
    var m := StockService.RequestFailed(n);
    var digits := Js.NatToString(n);
    assert '株' !in "Request failed with status code ";
    assert '株' !in digits by {
      assert forall i :: 0 <= i < |digits| ==> Js.IsDigit(digits[i]);
    }
    assert m == "Request failed with status code " + digits;
    LacksFirst(m, FetchFailedText);
    LacksFirst(m, NotFoundText);
  }

  /** The answer of a successful prediction. */
  datatype Prediction = Prediction(
    symbol: string, predicted: seq<real>, actual: seq<Option<real>>, actualDates: seq<string>,
    predictedDates: seq<string>, company: StockService.CompanyInfo)

  /** The row `predict` saves. */
  function RecordOf(p: Prediction, companyJson: string, now: int, range: string, model: string): (d: HistoryModel.HistoryData)
    ensures d.userId == FixedUserId && d.note == "" && d.range == range && d.model == model
    ensures d.symbol == p.symbol && d.predicted == p.predicted && d.actual == p.actual && d.createdAt == now
  {
    HistoryModel.HistoryData(p.symbol, p.actual, p.actualDates, p.predicted, p.predictedDates, companyJson, now,
      FixedUserId, "", range, model)
  }

  /** The work after the two checks: the history (`chart` is the chart request: an error it
      throws, or the `quotes` it answers), the prediction from the last close, and the company
      data (`info` is the quote request). */
  function Compute(symbol: string, model: string, chart: Result<Option<seq<StockService.Quote>>>, info: Result<StockService.QuoteInfo>,
    service: StockService.MlService, model2: MlPredict.Regressor, model3: MlPredict.Regressor, predictedDates: seq<string>): (r: Result<Prediction>)
    ensures chart.Err? ==> r == Err(chart.message)
    ensures chart.Ok? && StockService.GetStockData(chart.value).Err? ==> r == Err(StockService.GetStockData(chart.value).message)
    ensures r.Ok? ==> chart.Ok? && StockService.GetStockData(chart.value).Ok? && info.Ok?
    ensures r.Ok? ==> var series := StockService.GetStockData(chart.value).value;
      |series.actual| > 0 && r.value.actual == series.actual && r.value.actualDates == series.actualDates &&
      Ok(r.value.predicted) == StockService.PredictStockPrice(series.actual[|series.actual| - 1], model, service, model2, model3)
    ensures r.Ok? ==> r.value.symbol == symbol && r.value.company == StockService.GetCompanyInfo(info.value) && r.value.predictedDates == predictedDates
  {
    match chart
    case Err(m) => Err(m)
    case Ok(quotes) =>
      match StockService.GetStockData(quotes)
      case Err(m) => Err(m)
      case Ok(series) =>
        var lastPrice := series.actual[|series.actual| - 1];
        match StockService.PredictStockPrice(lastPrice, model, service, model2, model3)
        case Err(m) => Err(m)
        case Ok(predicted) =>
          match info
          case Err(m) => Err(m)
          case Ok(q) => Ok(Prediction(symbol, predicted, series.actual, series.actualDates, predictedDates, StockService.GetCompanyInfo(q)))
  }

  /** An ML service that cannot be reached fails a model2 or model3 prediction with the HTTP
      client's error, whatever the history holds; that message names neither of the texts the
      handler looks for, so the answer is 500. */
  lemma UnreachableServiceIs500(symbol: string, model: string, quotes: seq<StockService.Quote>, info: Result<StockService.QuoteInfo>,
    message: string, model2: MlPredict.Regressor, model3: MlPredict.Regressor, predictedDates: seq<string>)
    requires model in {"model2", "model3"} && quotes != [] && '株' !in message
    ensures Compute(symbol, model, Ok(Some(quotes)), info, StockService.Unreachable(message), model2, model3, predictedDates) == Err(message)
    ensures ErrorStatus(message) == 500
  {
    LacksFirst(message, FetchFailedText);
    LacksFirst(message, NotFoundText);
  }

  /** The data columns of the rows. */
  function Datas(rows: seq<HistoryModel.HistoryRow>): (r: seq<HistoryModel.HistoryData>)
    ensures |r| == |rows| && forall i :: 0 <= i < |rows| ==> r[i] == rows[i].data
  {
    seq(|rows|, i requires 0 <= i < |rows| => rows[i].data)
  }

  /** `predict`: 400 without a symbol (before the session is looked at), 401 without a valid
      session (nothing fetched, nothing saved), a thrown error mapped by its message, and
      otherwise the prediction, saved as the history row of user 1 with an empty note and the
      request's range and model (defaults "1w" and "model1"). */
  method Predict(store: AuthService.SessionStore, t: HistoryModel.HistoryTable, cookie: Option<string>,
    symbol: Option<string>, range: Option<string>, model: Option<string>,
    chart: Result<Option<seq<StockService.Quote>>>, info: Result<StockService.QuoteInfo>,
    service: StockService.MlService, model2: MlPredict.Regressor, model3: MlPredict.Regressor, predictedDates: seq<string>,
    stringify: StockService.CompanyInfo -> string, now: int)
    returns (r: Reply<Prediction>)
    requires store.Valid() && t.Valid()
    modifies store, t
    ensures store.Valid() && t.Valid()
    ensures !Js.Present(symbol) ==> r == Failure(400) && store.sessions == old(store.sessions)
    ensures Js.Present(symbol) ==> store.sessions == AuthService.AfterCheck(old(store.sessions), cookie, now)
    ensures Js.Present(symbol) && !AuthService.ValidIn(old(store.sessions), cookie, now) ==> r == Failure(401)
    ensures Js.Present(symbol) && AuthService.ValidIn(old(store.sessions), cookie, now) ==>
      var c := Compute(symbol.value, model.GetOr(DefaultModel), chart, info, service, model2, model3, predictedDates);
      (c.Err? ==> r == Failure(ErrorStatus(c.message))) && (c.Ok? ==> r == Success(200, c.value))
    ensures r.Failure? ==> t.rows == old(t.rows) && t.nextId == old(t.nextId)
    ensures r.Success? ==> RecordOf(r.data, stringify(r.data.company), now, range.GetOr(DefaultRange), model.GetOr(DefaultModel)) in Datas(t.rows)
    ensures r.Success? ==>
      var d := RecordOf(r.data, stringify(r.data.company), now, range.GetOr(DefaultRange), model.GetOr(DefaultModel));
      var found := HistoryModel.IndexOfKey(old(t.rows), HistoryModel.KeyOf(d));
      && t.nextId == old(t.nextId) + 1
      && (found.Some? ==> t.rows == old(t.rows)[found.value := HistoryModel.HistoryRow(old(t.rows)[found.value].id, d)])
      && (found.None? ==> t.rows == old(t.rows) + [HistoryModel.HistoryRow(old(t.nextId), d)])
  {
    if !Js.Present(symbol) {
      return Failure(400);
    }
    var session := store.GetCurrentUser(cookie, now);
    if session.None? {
      return Failure(401);
    }
    var modelName := model.GetOr(DefaultModel);
    var c := Compute(symbol.value, modelName, chart, info, service, model2, model3, predictedDates);
    if c.Err? {
      return Failure(ErrorStatus(c.message));
    }
    var p := c.value;
    var d := RecordOf(p, stringify(p.company), now, range.GetOr(DefaultRange), modelName);
    t.Upsert(d);
    if HistoryModel.IndexOfKey(old(t.rows), HistoryModel.KeyOf(d)).Some? {
      assert Datas(t.rows)[HistoryModel.IndexOfKey(old(t.rows), HistoryModel.KeyOf(d)).value] == d;
    } else {
      assert Datas(t.rows)[|t.rows| - 1] == d;
    }
    return Success(200, p);
  }
}

=== FILE: range_slider.dfy ===
/** The two-thumb range slider of the filter sidebar (client/src/components/RangeSlider.tsx).
    The thumbs' positions are percentages of the track; the thumb being dragged follows the
    pointer in whole steps and never crosses the other one. */
module RangeSlider {
  import opened Wrappers
  import Js

  datatype Thumb = MinThumb | MaxThumb

  /** The selected range `{ min, max }`. */
  datatype Range = Range(min: real, max: real)

  /** The track's bounding box on screen. */
  datatype Rect = Rect(left: real, width: real)

  /** `getPercentage(val)`: where `val` sits on the track from `lo` to `hi`, in percent. */
  function Percentage(lo: real, hi: real, v: real): (p: real)
    requires lo != hi
    ensures v == lo ==> p == 0.0
    ensures v == hi ==> p == 100.0
    ensures lo < hi && lo <= v <= hi ==> 0.0 <= p <= 100.0
  {
    Fraction(v - lo, hi - lo);
    ((v - lo) / (hi - lo)) * 100.0
  }

  /** `getValueFromPercentage(percentage)`: the value at that point of the track. */
  function ValueFromPercentage(lo: real, hi: real, p: real): (v: real)
    ensures p == 0.0 ==> v == lo
    ensures p == 100.0 ==> v == hi
    ensures lo <= hi && 0.0 <= p <= 100.0 ==> lo <= v <= hi
  {
    var v := lo + (p / 100.0) * (hi - lo);
    PartOfWhole(p / 100.0, hi - lo);
    v
  }

  /** The two conversions undo each other on a track of non-zero length. */
  lemma PercentageRoundTrip(lo: real, hi: real, v: real, p: real)
    requires lo != hi
    ensures ValueFromPercentage(lo, hi, Percentage(lo, hi, v)) == v
    ensures Percentage(lo, hi, ValueFromPercentage(lo, hi, p)) == p
  {
    var d := hi - lo;
    assert (((v - lo) / d) * 100.0 / 100.0) * d == v - lo;
    assert (lo + (p / 100.0) * d - lo) / d == p / 100.0;
  }

  /** `Math.max(0, Math.min(100, p))`. */
  function Clamp(p: real): (r: real)
    ensures 0.0 <= r <= 100.0
    ensures 0.0 <= p <= 100.0 ==> r == p
    ensures p < 0.0 ==> r == 0.0
    ensures p > 100.0 ==> r == 100.0
  {
    var below := if p < 100.0 then p else 100.0;
    if below > 0.0 then below else 0.0
  }

  /** `Math.round(v / step) * step`: the multiple of `step` nearest to `v`. */
  function Snap(v: real, step: real): (r: real)
    requires step > 0.0
    ensures ((r / step).Floor as real) == r / step
    ensures -step / 2.0 < r - v <= step / 2.0
  {
    var k := Js.MathRound(v / step);
    var r := (k as real) * step;
    Rescale(v, k as real, step);
    assert r / step == k as real;
    assert (k as real).Floor == k;
    NearestMultiple(v, k as real, step);
    r
  }

  /** A part over a positive whole lies between 0 and 1, and the whole over itself is 1. */
  lemma Fraction(a: real, d: real)
    requires d != 0.0
    ensures d / d == 1.0
    ensures 0.0 <= a <= d ==> 0.0 <= a / d <= 1.0
  {
  }

  /** A fraction between 0 and 1 of a non-negative whole lies between 0 and the whole. */
  lemma PartOfWhole(f: real, d: real)
    ensures 0.0 <= f <= 1.0 && d >= 0.0 ==> 0.0 <= f * d <= d
  {
    if 0.0 <= f <= 1.0 && d >= 0.0 {
      assert (1.0 - f) * d >= 0.0;
    }
  }

  /** A multiple `k * step` with `v / step` within half a unit of `k` lies within half a step of `v`. */
  lemma NearestMultiple(v: real, k: real, step: real)
    requires step > 0.0 && k - 0.5 <= v / step < k + 0.5
    ensures -step / 2.0 < k * step - v <= step / 2.0
  {
    var q := v / step - k;
    ScaleBounds(q, -0.5, 0.5, step);
    Rescale(v, k, step);
    assert -0.5 * step <= v - k * step < 0.5 * step;
    assert step / 2.0 == 0.5 * step;
  }

  /** Multiplying back by the step undoes dividing by it. */
  lemma Rescale(v: real, k: real, step: real)
    requires step != 0.0
    ensures (k * step) / step == k
    ensures (v / step - k) * step == v - k * step
  {
    CancelStep(k, step);
    CancelStep(v / step, step);
    assert (v / step) * step == v;
  }

  lemma CancelStep(x: real, step: real)
    requires step != 0.0
    ensures (x * step) / step == x
    ensures (x / step) * step == x
  {
  }

  lemma ScaleBounds(x: real, a: real, b: real, s: real)
    requires a <= x < b && s > 0.0
    ensures a * s <= x * s < b * s
  {
    assert (x - a) * s >= 0.0;
    assert (b - x) * s > 0.0;
  }

  /** The value under the pointer at `clientX`, clamped to the track and snapped to a step. */
  function PointerValue(lo: real, hi: real, step: real, clientX: real, rect: Rect): (v: real)
    requires step > 0.0 && rect.width > 0.0
    ensures ((v / step).Floor as real) == v / step
    ensures lo <= hi ==> lo - step / 2.0 < v <= hi + step / 2.0
  {
    var percentage := Clamp(((clientX - rect.left) / rect.width) * 100.0);
    Snap(ValueFromPercentage(lo, hi, percentage), step)
  }

  /** The range after the pointer moves the dragged thumb to `newValue`: the dragged end follows
      the pointer but stays at least one step from the other end, which does not move. */
  function Dragged(value: Range, thumb: Thumb, newValue: real, step: real): (r: Range)
    ensures thumb == MinThumb ==>
      r.max == value.max && r.min <= value.max - step && r.min <= newValue &&
      (r.min == newValue || r.min == value.max - step)
    ensures thumb == MaxThumb ==>
      r.min == value.min && r.max >= value.min + step && r.max >= newValue &&
      (r.max == newValue || r.max == value.min + step)
    ensures r.max - r.min >= step
  {
    match thumb
    case MinThumb =>
      var newMin := if newValue < value.max - step then newValue else value.max - step;
      Range(newMin, value.max)
    case MaxThumb =>
      var newMax := if newValue > value.min + step then newValue else value.min + step;
      Range(value.min, newMax)
  }

  /** The slider's state: the track's bounds and step (properties), the thumb being dragged and
      the range the owner holds; the owner's `onChange` is modelled by storing the new range. */
  class Slider {
    const lo: real
    const hi: real
    const step: real
    var isDragging: Option<Thumb>
    var value: Range

    ghost predicate Valid()
      reads this
    {
      step > 0.0
    }

    constructor(lo: real, hi: real, value: Range, step: real)
      requires step > 0.0
      ensures Valid() && this.lo == lo && this.hi == hi && this.step == step
      ensures this.value == value && isDragging.None?
    {
      this.lo := lo;
      this.hi := hi;
      this.step := step;
      this.value := value;
      isDragging := None;
    }

    /** `handleMouseDown`: pressing a thumb starts dragging it. */
    method MouseDown(thumb: Thumb)
      requires Valid()
      modifies this
      ensures Valid() && isDragging == Some(thumb) && value == old(value)
    {
      isDragging := Some(thumb);
    }

    /** `handleMouseUp`: releasing ends the drag. */
    method MouseUp()
      requires Valid()
      modifies this
      ensures Valid() && isDragging.None? && value == old(value)
    {
      isDragging := None;
    }

    /** `handleMouseMove`: without a drag in progress or a mounted track nothing happens;
        otherwise the dragged thumb moves to the pointer. */
    method MouseMove(clientX: real, track: Option<Rect>)
      requires Valid()
      requires track.Some? ==> track.value.width > 0.0
      modifies this
      ensures Valid() && isDragging == old(isDragging)
      ensures old(isDragging).None? || track.None? ==> value == old(value)
      ensures old(isDragging).Some? && track.Some? ==>
        value == Dragged(old(value), old(isDragging).value, PointerValue(lo, hi, step, clientX, track.value), step)
      ensures old(isDragging).Some? && track.Some? ==> value.max - value.min >= step
    {
      if isDragging.None? || track.None? {
        return;
      }
      var newValue := PointerValue(lo, hi, step, clientX, track.value);
      if isDragging.value == MinThumb {
        var newMin := if newValue < value.max - step then newValue else value.max - step;
        value := Range(newMin, value.max);
      } else {
        var newMax := if newValue > value.min + step then newValue else value.min + step;
        value := Range(value.min, newMax);
      }
    }
  }
}

=== FILE: return_calculator.dfy ===
/** Annual return and volatility from a year of daily bars (server/services/ReturnCalculator.js).
    The history request is an input.  `Math.pow` with a real exponent and `Math.sqrt` are opaque
    functions: `annualize(totalReturn, days)` stands for `Math.pow(1 + totalReturn, 365 / days) - 1`. */
module ReturnCalculator {
  import opened Wrappers

  /** Fewer bars than this give no figures. */
  const MinBars: nat := 30
  /** Trading days per year used to annualise the variance. */
  const TradingDays: real := 252.0
  const MsPerDay: real := 86400000.0
  /** Symbols handled per round of `calculateMultipleReturns`. */
  const BatchSize: nat := 5

  /** One daily bar: timestamp in milliseconds and close. */
  datatype Bar = Bar(date: int, close: real)

  /** What `calculateReturns` yields: both fields null; at least one field NaN or infinite
      (a zero close divides by zero); or the two percentages. */
  datatype Outcome = Unavailable | NonFinite | Computed(annualReturn: real, volatility: real)

  type Annualizer = (real, real) -> real
  type SquareRoot = real -> real

  /** The closes that serve as denominators: all but the last. */
  predicate NonzeroDenominators(bars: seq<Bar>) {
    forall i :: 0 <= i < |bars| - 1 ==> bars[i].close != 0.0
  }

  /** The simple daily returns, bar i+1 against bar i. */
  function DailyReturnsOf(bars: seq<Bar>): (r: seq<real>)
    requires NonzeroDenominators(bars)
    ensures |r| == if |bars| == 0 then 0 else |bars| - 1
  {
    if |bars| < 2 then []
    else seq(|bars| - 1, i requires 0 <= i < |bars| - 1 => (bars[i + 1].close - bars[i].close) / bars[i].close)
  }

  /** Entry i is the return of bar i+1 against bar i; nothing else is in the list. */
  lemma DailyReturnsAt(bars: seq<Bar>)
    requires NonzeroDenominators(bars)
    ensures |DailyReturnsOf(bars)| == if |bars| == 0 then 0 else |bars| - 1
    ensures forall i :: 0 <= i < |DailyReturnsOf(bars)| ==>
      DailyReturnsOf(bars)[i] == (bars[i + 1].close - bars[i].close) / bars[i].close
  {
  }

  /** The daily-return loop. */
  method DailyReturns(bars: seq<Bar>) returns (r: seq<real>)
    requires NonzeroDenominators(bars)
    ensures r == DailyReturnsOf(bars)
  {
    r := [];
    var i := 1;
    while i < |bars|
      invariant 1 <= i <= if |bars| == 0 then 1 else |bars|
      invariant |r| == i - 1
      invariant forall k :: 0 <= k < |r| ==> r[k] == (bars[k + 1].close - bars[k].close) / bars[k].close
    {
      var previousPrice := bars[i - 1].close;
      var currentPrice := bars[i].close;
      r := r + [(currentPrice - previousPrice) / previousPrice];
      i := i + 1;
    }
    DailyReturnsAt(bars);
  }

  function Sum(xs: seq<real>): real {
    if xs == [] then 0.0 else xs[0] + Sum(xs[1..])
  }

  /** The arithmetic mean. */
  function Mean(xs: seq<real>): real
    requires |xs| > 0
  {
    Sum(xs) / (|xs| as real)
  }

  function SumSquaredDeviations(xs: seq<real>, m: real): real {
    if xs == [] then 0.0 else (xs[0] - m) * (xs[0] - m) + SumSquaredDeviations(xs[1..], m)
  }

  /** The population variance: squared deviations divided by the count. */
  function Variance(xs: seq<real>): real
    requires |xs| > 0
  {
    SumSquaredDeviations(xs, Mean(xs)) / (|xs| as real)
  }

  lemma SquareNonnegative(d: real)
    ensures d * d >= 0.0
  {
    if d < 0.0 {
      assert d * d == (-d) * (-d);
    }
  }

  lemma {:induction false} SumSquaredDeviationsNonnegative(xs: seq<real>, m: real)
    ensures SumSquaredDeviations(xs, m) >= 0.0
  {
    if xs != [] {
      SquareNonnegative(xs[0] - m);
      SumSquaredDeviationsNonnegative(xs[1..], m);
    }
  }

  /** The variance is never negative. */
  lemma VarianceNonnegative(xs: seq<real>)
    requires |xs| > 0
    ensures Variance(xs) >= 0.0
  {
    SumSquaredDeviationsNonnegative(xs, Mean(xs));
  }

  lemma {:induction false} SumBounds(xs: seq<real>, lo: real, hi: real)
    requires forall i :: 0 <= i < |xs| ==> lo <= xs[i] <= hi
    ensures (|xs| as real) * lo <= Sum(xs) <= (|xs| as real) * hi
  {
    if xs != [] {
      SumBounds(xs[1..], lo, hi);
    }
  }

  /** The mean lies between any lower and upper bound of the returns. */
  lemma MeanBounds(xs: seq<real>, lo: real, hi: real)
    requires |xs| > 0
    requires forall i :: 0 <= i < |xs| ==> lo <= xs[i] <= hi
    ensures lo <= Mean(xs) <= hi
  {
    SumBounds(xs, lo, hi);
    var n := |xs| as real;
    assert Sum(xs) / n >= lo by {
      assert Sum(xs) >= n * lo;
    }
    assert Sum(xs) / n <= hi by {
      assert Sum(xs) <= n * hi;
    }
  }

  lemma {:induction false} ConstantDeviations(xs: seq<real>, c: real)
    requires forall i :: 0 <= i < |xs| ==> xs[i] == c
    ensures SumSquaredDeviations(xs, c) == 0.0
  {
    if xs != [] {
      ConstantDeviations(xs[1..], c);
    }
  }

  /** Constant daily returns have that constant as mean and no variance. */
  lemma ConstantReturns(xs: seq<real>, c: real)
    requires |xs| > 0
    requires forall i :: 0 <= i < |xs| ==> xs[i] == c
    ensures Mean(xs) == c && Variance(xs) == 0.0
  {
    MeanBounds(xs, c, c);
    ConstantDeviations(xs, c);
  }

  /** The return over the whole period, last close against first. */
  function TotalReturn(bars: seq<Bar>): real
    requires |bars| > 0 && bars[0].close != 0.0
  {
    (bars[|bars| - 1].close - bars[0].close) / bars[0].close
  }

  /** The length of the period in days. */
  function DaysInPeriod(bars: seq<Bar>): real
    requires |bars| > 0
  {
    ((bars[|bars| - 1].date - bars[0].date) as real) / MsPerDay
  }

  /** `calculateReturns(symbol)` for the history answer `history` (`None` when the request
      threw or answered nothing). */
  function Expected(history: Option<seq<Bar>>, annualize: Annualizer, sqrt: SquareRoot): (o: Outcome)
    ensures o.Unavailable? <==> history.None? || |history.value| < MinBars
    ensures o.NonFinite? <==> history.Some? && |history.value| >= MinBars && !NonzeroDenominators(history.value)
  {
    if history.None? || |history.value| < MinBars then Unavailable
    else
      var bars := history.value;
      if !NonzeroDenominators(bars) then NonFinite
      else
        var daily := DailyReturnsOf(bars);
        Computed(annualize(TotalReturn(bars), DaysInPeriod(bars)) * 100.0, sqrt(Variance(daily) * TradingDays) * 100.0)
  }

  /** The figures are built from exactly `|bars| - 1` daily returns, whose variance is
      non-negative, and the annual return from the first and last close. */
  lemma ExpectedComputed(bars: seq<Bar>, annualize: Annualizer, sqrt: SquareRoot)
    requires |bars| >= MinBars && NonzeroDenominators(bars)
    ensures |DailyReturnsOf(bars)| == |bars| - 1
    ensures Variance(DailyReturnsOf(bars)) >= 0.0
    ensures Expected(Some(bars), annualize, sqrt) == Computed(
      annualize(TotalReturn(bars), DaysInPeriod(bars)) * 100.0, sqrt(Variance(DailyReturnsOf(bars)) * TradingDays) * 100.0)
  {
    VarianceNonnegative(DailyReturnsOf(bars));
  }

  /** `calculateReturns`. */
  method CalculateReturns(history: Option<seq<Bar>>, annualize: Annualizer, sqrt: SquareRoot) returns (o: Outcome)
    ensures o == Expected(history, annualize, sqrt)
  {
    if history.None? || |history.value| < MinBars {
      return Unavailable;
    }
    var bars := history.value;
    if !NonzeroDenominators(bars) {
      return NonFinite;
    }
    var dailyReturns := DailyReturns(bars);
    var annualReturn := annualize(TotalReturn(bars), DaysInPeriod(bars)) * 100.0;
    var volatility := sqrt(Variance(dailyReturns) * TradingDays) * 100.0;
    assert Expected(history, annualize, sqrt) == Computed(annualReturn, volatility);
    return Computed(annualReturn, volatility);
  }

  function Flatten(batches: seq<seq<string>>): seq<string> {
    if batches == [] then [] else Flatten(batches[..|batches| - 1]) + batches[|batches| - 1]
  }

  /** Consecutive slices of `BatchSize` symbols, the last possibly shorter. */
  predicate IsBatching(batches: seq<seq<string>>, symbols: seq<string>) {
    && Flatten(batches) == symbols
    && (forall k :: 0 <= k < |batches| ==> 1 <= |batches[k]| <= BatchSize)
    && (forall k :: 0 <= k < |batches| - 1 ==> |batches[k]| == BatchSize)
  }

  /** One round: every symbol of the batch gets its figures, later keys overwrite nothing
      else. */
  method RunBatch(batch: seq<string>, results: map<string, Outcome>, history: string -> Option<seq<Bar>>, annualize: Annualizer, sqrt: SquareRoot)
    returns (next: map<string, Outcome>)
    ensures forall s :: s in next <==> s in results || s in batch
    ensures forall s :: s in next && s !in batch ==> next[s] == results[s]
    ensures forall s :: s in batch ==> next[s] == Expected(history(s), annualize, sqrt)
  {
    next := results;
    var j := 0;
    while j < |batch|
      invariant 0 <= j <= |batch|
      invariant forall s :: s in next <==> s in results || s in batch[..j]
      invariant forall s :: s in next && s !in batch[..j] ==> next[s] == results[s]
      invariant forall s :: s in batch[..j] ==> next[s] == Expected(history(s), annualize, sqrt)
    {
      var outcome := CalculateReturns(history(batch[j]), annualize, sqrt);
      next := next[batch[j] := outcome];
      assert batch[..j + 1] == batch[..j] + [batch[j]];
      j := j + 1;
    }
    assert batch[..j] == batch;
  }

  /** `calculateMultipleReturns(symbols)`: symbols go in consecutive batches of at most five, in
      order; every symbol ends up as a key holding its own figures. */
  method CalculateMultipleReturns(symbols: seq<string>, history: string -> Option<seq<Bar>>, annualize: Annualizer, sqrt: SquareRoot)
    returns (results: map<string, Outcome>, ghost batches: seq<seq<string>>)
    ensures forall s :: s in results <==> s in symbols
    ensures forall s :: s in results ==> results[s] == Expected(history(s), annualize, sqrt)
    ensures IsBatching(batches, symbols)
  {
    results := map[];
    batches := [];
    var i := 0;
    while i < |symbols|
      invariant 0 <= i <= |symbols|
      invariant i < |symbols| ==> i % BatchSize == 0
      invariant Flatten(batches) == symbols[..i]
      invariant forall k :: 0 <= k < |batches| ==> 1 <= |batches[k]| <= BatchSize
      invariant forall k :: 0 <= k < |batches| - 1 ==> |batches[k]| == BatchSize
      invariant i < |symbols| && batches != [] ==> |batches[|batches| - 1]| == BatchSize
      invariant forall s :: s in results <==> s in symbols[..i]
      invariant forall s :: s in results ==> results[s] == Expected(history(s), annualize, sqrt)
    {
      var end := if i + BatchSize < |symbols| then i + BatchSize else |symbols|;
      var batch := symbols[i..end];
      results := RunBatch(batch, results, history, annualize, sqrt);
      assert symbols[..end] == symbols[..i] + batch;
      ghost var before := batches;
      batches := batches + [batch];
      assert batches[..|batches| - 1] == before;
      i := end;
    }
    assert symbols[..i] == symbols;
  }
}

=== FILE: schema.dfy ===
/** Rows of the `stocks` table as the migrations define them, and the quote record the
    services write into it.  Shared by the repositories that join against `stocks`. */
module Schema {
  import opened Wrappers

  /** A row of `stocks`.  The nullable numeric columns are options; `annual_return` and
      `volatility` stay null until returns are computed; `dividend` defaults to 0.
      Timestamps are milliseconds. */
  datatype StockRow = StockRow(
    symbol: string, name: string, country: string, sector: string,
    price: real, rawPrice: real,
    pe: Option<real>, pb: Option<real>, dividendYield: Option<real>,
    marketCap: Option<real>, volume: Option<real>, change: Option<real>, changePercent: Option<real>,
    lastUpdated: int, annualReturn: Option<real>, volatility: Option<real>, dividend: real)

  /** The stock record `fetchStockData` builds from a quote (without the display price and the
      fetch time). */
  datatype StockQuote = StockQuote(
    symbol: string, name: string, country: string, sector: string, rawPrice: real,
    pe: real, pb: real, dividendYield: real, marketCap: real, volume: real, change: real, changePercent: real)

  /** `table.string(...)` creates a `varchar(255)` column; PostgreSQL refuses to store a
      longer text ("value too long"), counting characters. */
  const VarcharLength := 255

  predicate FitsVarchar(s: string) {
    |s| <= VarcharLength
  }

  /** The database's error for a text longer than its column. */
  const TooLongMessage: string := "value too long for type character varying(255)"

  function SymbolOf(row: StockRow): string {
    row.symbol
  }

  /** The row with `symbol`, if any. */
  function FindStock(rows: seq<StockRow>, symbol: string): (r: Option<StockRow>)
    ensures r.Some? <==> exists i :: 0 <= i < |rows| && rows[i].symbol == symbol
    ensures r.Some? ==> r.value in rows && r.value.symbol == symbol
  {
    if rows == [] then None
    else if rows[0].symbol == symbol then Some(rows[0])
    else
      var r := FindStock(rows[1..], symbol);
      assert forall i :: 1 <= i < |rows| ==> rows[i] == rows[1..][i - 1];
      r
  }

  /** The position of the first row with `symbol`, if any. */
  function IndexOfSymbol(rows: seq<StockRow>, symbol: string): (r: Option<nat>)
    ensures r.Some? ==> r.value < |rows| && rows[r.value].symbol == symbol
    ensures r.None? <==> FindStock(rows, symbol).None?
    ensures r.Some? ==> FindStock(rows, symbol) == Some(rows[r.value])
  {
    if rows == [] then None
    else if rows[0].symbol == symbol then Some(0)
    else
      match IndexOfSymbol(rows[1..], symbol)
      case None => None
      case Some(i) => Some(i + 1)
  }
}

=== FILE: seqs.dfy ===
/** Sequence helpers shared by the repositories and the client code: filtering, `LIMIT`,
    `ORDER BY ... DESC` on an integer key, and the lexicographic order of strings. */
module Seqs {

  /** `Array.prototype.filter` / a SQL `WHERE`: the elements satisfying `p`, in order. */
  function Filter<T(==)>(s: seq<T>, p: T -> bool): (r: seq<T>)
    ensures |r| <= |s|
    ensures forall i :: 0 <= i < |r| ==> r[i] in s && p(r[i])
    ensures forall i :: 0 <= i < |s| && p(s[i]) ==> s[i] in r
  {
    if s == [] then [] else (if p(s[0]) then [s[0]] else []) + Filter(s[1..], p)
  }

  /** Two tests that agree on every element keep the same elements. */
  lemma {:induction false} FilterSame<T>(s: seq<T>, p: T -> bool, q: T -> bool)
    requires forall i :: 0 <= i < |s| ==> p(s[i]) == q(s[i])
    ensures Filter(s, p) == Filter(s, q)
  {
    if s != [] {
      FilterSame(s[1..], p, q);
    }
  }

  /** A test every element passes keeps everything. */
  lemma {:induction false} FilterAll<T>(s: seq<T>, p: T -> bool)
    requires forall i :: 0 <= i < |s| ==> p(s[i])
    ensures Filter(s, p) == s
  {
    if s != [] {
      FilterAll(s[1..], p);
      assert s == [s[0]] + s[1..];
    }
  }

  /** Filtering keeps every copy of an element that passes and no copy of one that fails. */
  lemma {:induction false} FilterMultiset<T>(s: seq<T>, p: T -> bool)
    ensures forall x :: multiset(Filter(s, p))[x] == if p(x) then multiset(s)[x] else 0
  {
    if s != [] {
      FilterMultiset(s[1..], p);
      assert s == [s[0]] + s[1..];
    }
  }

  /** `a` is `b` with some elements left out (the rest in the same order). */
  predicate IsSubseq<T(==)>(a: seq<T>, b: seq<T>)
    decreases |b|
  {
    if a == [] then true
    else if b == [] then false
    else if a[0] == b[0] then IsSubseq(a[1..], b[1..])
    else IsSubseq(a, b[1..])
  }

  /** Putting one more element in front of the larger sequence keeps a subsequence. */
  lemma {:induction false} SubseqCons<T>(a: seq<T>, x: T, b: seq<T>)
    requires IsSubseq(a, b)
    ensures IsSubseq(a, [x] + b)
    decreases |b|, 1
  {
    assert ([x] + b)[1..] == b;
    if a != [] && a[0] == x {
      SubseqTail(a, b);
    }
  }

  /** Dropping the first element of the smaller sequence keeps a subsequence. */
  lemma {:induction false} SubseqTail<T>(a: seq<T>, b: seq<T>)
    requires a != [] && IsSubseq(a, b)
    ensures IsSubseq(a[1..], b)
    decreases |b|, 0
  {
    assert [b[0]] + b[1..] == b;
    if a[0] == b[0] {
      SubseqCons(a[1..], b[0], b[1..]);
    } else {
      SubseqTail(a, b[1..]);
      SubseqCons(a[1..], b[0], b[1..]);
    }
  }

  /** Filtering keeps the original order. */
  lemma {:induction false} FilterIsSubseq<T>(s: seq<T>, p: T -> bool)
    ensures IsSubseq(Filter(s, p), s)
  {
    if s != [] {
      FilterIsSubseq(s[1..], p);
      var r := Filter(s, p);
      if p(s[0]) {
        assert r[0] == s[0] && r[1..] == Filter(s[1..], p);
      } else {
        assert r == Filter(s[1..], p);
        SubseqCons(r, s[0], s[1..]);
        assert [s[0]] + s[1..] == s;
      }
    }
  }

  /** Filtering out the one element that fails the test is cutting it out. */
  lemma {:induction false} RemoveOnly<T>(s: seq<T>, i: nat, keep: T -> bool)
    requires i < |s| && !keep(s[i])
    requires forall j :: 0 <= j < |s| && j != i ==> keep(s[j])
    ensures Filter(s, keep) == s[..i] + s[i + 1..]
  {
    var tail := s[1..];
    if i == 0 {
      FilterAll(tail, keep);
      assert s[..0] + s[1..] == tail;
    } else {
      RemoveOnly(tail, i - 1, keep);
      assert s[..i] == [s[0]] + tail[..i - 1];
      assert s[i + 1..] == tail[i..];
    }
  }

  /** `LIMIT n`: the first `n` elements. */
  function Take<T>(s: seq<T>, n: nat): (r: seq<T>)
    ensures |r| == (if n < |s| then n else |s|)
    ensures r == s[..|r|]
  {
    if n < |s| then s[..n] else s
  }

  /** `s` is ordered by `key`, largest first. */
  predicate SortedDesc<T>(s: seq<T>, key: T -> int) {
    forall i, j :: 0 <= i < j < |s| ==> key(s[i]) >= key(s[j])
  }

  /** Insert `x` into a sequence ordered by `key`, largest first. */
  function InsertDesc<T>(x: T, s: seq<T>, key: T -> int): (r: seq<T>)
    requires SortedDesc(s, key)
    ensures SortedDesc(r, key)
    ensures multiset(r) == multiset(s) + multiset{x}
  {
    if s == [] || key(x) >= key(s[0]) then
      ConsSortedDesc(x, s, key);
      [x] + s
    else
      var t := InsertDesc(x, s[1..], key);
      InsertDescStep(x, s, key, t);
      [s[0]] + t
  }

  /** Putting the head back in front of the tail with `x` inserted keeps the order and adds
      exactly `x`. */
  lemma InsertDescStep<T>(x: T, s: seq<T>, key: T -> int, t: seq<T>)
    requires SortedDesc(s, key) && s != [] && key(x) < key(s[0])
    requires SortedDesc(t, key) && multiset(t) == multiset(s[1..]) + multiset{x}
    ensures SortedDesc([s[0]] + t, key)
    ensures multiset([s[0]] + t) == multiset(s) + multiset{x}
  {
    assert s == [s[0]] + s[1..];
    forall k | 0 <= k < |t| ensures key(s[0]) >= key(t[k]) {
      assert t[k] in multiset(t);
      if t[k] != x {
        assert t[k] in multiset(s[1..]);
        var m :| 0 <= m < |s[1..]| && s[1..][m] == t[k];
        assert s[m + 1] == t[k];
      }
    }
    ConsSortedDesc(s[0], t, key);
  }

  /** A head no smaller than any element of a tail ordered largest first keeps the order. */
  lemma ConsSortedDesc<T>(h: T, t: seq<T>, key: T -> int)
    requires SortedDesc(t, key)
    requires forall k :: 0 <= k < |t| ==> key(h) >= key(t[k])
    ensures SortedDesc([h] + t, key)
  {
    var r := [h] + t;
    forall i, j | 0 <= i < j < |r| ensures key(r[i]) >= key(r[j]) {
      assert r[j] == t[j - 1];
      if i > 0 {
        assert r[i] == t[i - 1];
      }
    }
  }

  /** `ORDER BY key DESC`: the same elements, largest key first. */
  function SortDesc<T>(s: seq<T>, key: T -> int): (r: seq<T>)
    ensures SortedDesc(r, key)
    ensures multiset(r) == multiset(s)
  {
    if s == [] then []
    else
      assert s == [s[0]] + s[1..];
      InsertDesc(s[0], SortDesc(s[1..], key), key)
  }

  /** A prefix of a sequence ordered largest first is ordered too, is part of it, and nothing
      left out of it is larger than anything in it. */
  lemma PrefixIsTop<T>(t: seq<T>, key: T -> int, m: nat)
    requires SortedDesc(t, key) && m <= |t|
    ensures SortedDesc(t[..m], key)
    ensures multiset(t[..m]) <= multiset(t)
    ensures forall x, y :: x in t && x !in t[..m] && y in t[..m] ==> key(y) >= key(x)
  {
    assert t == t[..m] + t[m..];
    assert multiset(t) == multiset(t[..m]) + multiset(t[m..]);
    forall x, y | x in t && x !in t[..m] && y in t[..m]
      ensures key(y) >= key(x)
    {
      var j :| 0 <= j < |t| && t[j] == x;
      var k :| 0 <= k < m && t[..m][k] == y;
      assert t[k] == y;
    }
  }

  /** Sequences with the same elements counted with multiplicity have the same members. */
  lemma SameMembers<T>(s: seq<T>, t: seq<T>)
    requires multiset(s) == multiset(t)
    ensures forall x :: x in s <==> x in t
  {
    forall x
      ensures x in s <==> x in t
    {
      assert x in s <==> x in multiset(s);
      assert x in t <==> x in multiset(t);
    }
  }

  /** `ORDER BY key DESC LIMIT n`: the `n` elements with the largest keys, largest first;
      nothing left out is larger than anything kept. */
  function Newest<T>(s: seq<T>, key: T -> int, n: nat): (r: seq<T>)
    ensures |r| == (if n < |s| then n else |s|)
    ensures SortedDesc(r, key)
    ensures multiset(r) <= multiset(s)
    ensures forall x, y :: x in s && x !in r && y in r ==> key(y) >= key(x)
  {
    var t := SortDesc(s, key);
    var r := Take(t, n);
    PrefixIsTop(t, key, |r|);
    SameMembers(s, t);
    r
  }

  /** Lexicographic order on strings, character by character (a proper prefix comes first). */
  predicate Less(a: string, b: string) {
    if a == [] then b != []
    else if b == [] then false
    else if a[0] != b[0] then a[0] < b[0]
    else Less(a[1..], b[1..])
  }

  lemma {:induction false} LessIrreflexive(a: string)
    ensures !Less(a, a)
  {
    if a != [] { LessIrreflexive(a[1..]); }
  }

  lemma {:induction false} LessTransitive(a: string, b: string, c: string)
    requires Less(a, b) && Less(b, c)
    ensures Less(a, c)
  {
    if a != [] && b != [] && c != [] && a[0] == b[0] && b[0] == c[0] {
      LessTransitive(a[1..], b[1..], c[1..]);
    }
  }

  lemma {:induction false} LessTotal(a: string, b: string)
    ensures a == b || Less(a, b) || Less(b, a)
  {
    if a != [] && b != [] && a[0] == b[0] {
      LessTotal(a[1..], b[1..]);
      if a[1..] == b[1..] {
        assert a == [a[0]] + a[1..] && b == [b[0]] + b[1..];
      }
    }
  }

  lemma {:induction false} LessAsymmetric(a: string, b: string)
    requires Less(a, b)
    ensures !Less(b, a)
  {
    if a != [] && b != [] && a[0] == b[0] {
      LessAsymmetric(a[1..], b[1..]);
    }
  }

  /** Strictly increasing in the string order, hence without duplicates. */
  predicate StrictlySorted(s: seq<string>) {
    forall i, j :: 0 <= i < j < |s| ==> Less(s[i], s[j])
  }

  /** Add `x` to a strictly sorted sequence unless it is already there. */
  function InsertDistinct(s: seq<string>, x: string): (r: seq<string>)
    requires StrictlySorted(s)
    ensures StrictlySorted(r)
    ensures forall y :: y in r <==> y in s || y == x
  {
    if s == [] then [x]
    else if x == s[0] then s
    else if Less(x, s[0]) then
      assert forall j :: 0 < j < |s| ==> Less(s[0], s[j]);
      forall j | 0 <= j < |s| ensures Less(x, s[j]) {
        if j > 0 { LessTransitive(x, s[0], s[j]); }
      }
      [x] + s
    else
      LessTotal(x, s[0]);
      var t := InsertDistinct(s[1..], x);
      assert forall y :: y in s[1..] ==> Less(s[0], y) by {
        forall y | y in s[1..] ensures Less(s[0], y) {
          var j :| 0 <= j < |s[1..]| && s[1..][j] == y;
          assert s[j + 1] == y;
        }
      }
      assert s == [s[0]] + s[1..];
      [s[0]] + t
  }

  /** `s` is strictly increasing in the string `key`: ordered, and no key twice. */
  predicate SortedByKey<T>(s: seq<T>, key: T -> string) {
    forall i, j {:trigger Less(key(s[i]), key(s[j]))} :: 0 <= i < j < |s| ==> Less(key(s[i]), key(s[j]))
  }

  /** Filtering an ordered sequence leaves it ordered. */
  lemma {:induction false} FilterSortedByKey<T>(s: seq<T>, p: T -> bool, key: T -> string)
    requires SortedByKey(s, key)
    ensures SortedByKey(Filter(s, p), key)
  {
    if s != [] {
      var rest := Filter(s[1..], p);
      FilterSortedByKey(s[1..], p, key);
      if p(s[0]) {
        forall j | 0 <= j < |rest|
          ensures Less(key(s[0]), key(rest[j]))
        {
          var k :| 0 <= k < |s[1..]| && s[1..][k] == rest[j];
          assert s[k + 1] == rest[j];
        }
        ConsSortedByKey(s[0], rest, key);
      } else {
        assert Filter(s, p) == rest;
      }
    }
  }

  /** Insert `x`, whose key is not yet present, at its place in the order. */
  function InsertByKey<T>(s: seq<T>, x: T, key: T -> string): (r: seq<T>)
    requires SortedByKey(s, key)
    requires forall i :: 0 <= i < |s| ==> key(s[i]) != key(x)
    ensures SortedByKey(r, key)
    ensures multiset(r) == multiset(s) + multiset{x}
    ensures |r| == |s| + 1
  {
    if s == [] then [x]
    else if Less(key(x), key(s[0])) then
      forall j | 0 <= j < |s|
        ensures Less(key(x), key(s[j]))
      {
        if j > 0 { LessTransitive(key(x), key(s[0]), key(s[j])); }
      }
      ConsSortedByKey(x, s, key);
      [x] + s
    else
      var t := InsertByKey(s[1..], x, key);
      InsertByKeyStep(s, x, key, t);
      [s[0]] + t
  }

  /** Putting the head back in front of the tail with `x` inserted keeps the order and adds
      exactly `x`. */
  lemma InsertByKeyStep<T>(s: seq<T>, x: T, key: T -> string, t: seq<T>)
    requires SortedByKey(s, key) && s != [] && !Less(key(x), key(s[0])) && key(s[0]) != key(x)
    requires SortedByKey(t, key) && multiset(t) == multiset(s[1..]) + multiset{x}
    ensures SortedByKey([s[0]] + t, key)
    ensures multiset([s[0]] + t) == multiset(s) + multiset{x}
  {
    LessTotal(key(x), key(s[0]));
    assert s == [s[0]] + s[1..];
    forall j | 0 <= j < |t|
      ensures Less(key(s[0]), key(t[j]))
    {
      assert t[j] in multiset(t);
      if t[j] != x {
        assert t[j] in multiset(s[1..]);
        var k :| 0 <= k < |s[1..]| && s[1..][k] == t[j];
        assert s[k + 1] == t[j];
      }
    }
    ConsSortedByKey(s[0], t, key);
  }

  /** A head below every element of an ordered tail keeps the whole ordered. */
  lemma ConsSortedByKey<T>(h: T, t: seq<T>, key: T -> string)
    requires SortedByKey(t, key)
    requires forall j :: 0 <= j < |t| ==> Less(key(h), key(t[j]))
    ensures SortedByKey([h] + t, key)
  {
    var r := [h] + t;
    forall i, j | 0 <= i < j < |r| ensures Less(key(r[i]), key(r[j])) {
      assert r[j] == t[j - 1];
      if i > 0 {
        assert r[i] == t[i - 1];
      }
    }
  }
}

=== FILE: stock_chart.dfy ===
/** The price chart of one prediction (client/src/components/StockChart.tsx): the simple
    moving average of the observed closes and the points the chart draws. */
module StockChart {
  import opened Wrappers
  import Js

  /** The averaging window the chart starts with; the selector offers 3, 5 and 7. */
  const DefaultSmaPeriod: nat := 3

  /** A close as JavaScript's `+` sees it: a missing close (`null`) adds 0. */
  function Close(x: Option<real>): real {
    if x.Some? then x.value else 0.0
  }

  /** `window.reduce((a, b) => a + b, 0)`: the left-to-right sum of the closes. */
  function Sum(s: seq<Option<real>>): real {
    if s == [] then 0.0 else Sum(s[..|s| - 1]) + Close(s[|s| - 1])
  }

  /** `calculateSMA(data, windowSize)`: for every day, the mean of the `windowSize` closes that
      end on that day, rounded to two decimals; no value for the days before a full window. */
  function CalculateSma(data: seq<Option<real>>, windowSize: nat): (r: seq<Option<real>>)
    requires windowSize >= 1
    ensures |r| == |data|
    ensures forall i :: 0 <= i < |r| ==> (r[i].None? <==> i < windowSize - 1)
    ensures forall i :: windowSize - 1 <= i < |r| ==>
      -0.005 <= r[i].value - Sum(data[i + 1 - windowSize..i + 1]) / (windowSize as real) <= 0.005
  {
    seq(|data|, i requires 0 <= i < |data| => SmaAt(data, windowSize, i))
  }

  /** Entry `i` of `calculateSMA`: nothing before a full window, otherwise the window's mean
      rounded to two decimals. */
  function SmaAt(data: seq<Option<real>>, windowSize: nat, i: nat): (r: Option<real>)
    requires windowSize >= 1 && i < |data|
    ensures r.None? <==> i < windowSize - 1
    ensures i >= windowSize - 1 ==>
      -0.005 <= r.value - Sum(data[i + 1 - windowSize..i + 1]) / (windowSize as real) <= 0.005
  {
    if i < windowSize - 1 then None
    else
      var mean := Sum(data[i + 1 - windowSize..i + 1]) / (windowSize as real);
      var r := Js.ToFixed2(mean);
      assert -0.5 <= r * 100.0 - mean * 100.0 <= 0.5;
      Some(r)
  }

  /** The sum of a sequence is the sum of any prefix plus the sum of the rest. */
  lemma {:induction false} SumSplit(s: seq<Option<real>>, a: nat)
    requires a <= |s|
    ensures Sum(s) == Sum(s[..a]) + Sum(s[a..])
  {
    if a == |s| {
      assert s[..a] == s;
      assert s[a..] == [];
    } else {
      var init := s[..|s| - 1];
      SumSplit(init, a);
      assert init[..a] == s[..a];
      assert s[a..][..|s[a..]| - 1] == init[a..];
      assert s[a..][|s[a..]| - 1] == s[|s| - 1];
    }
  }

  /** Each average is the difference of two running totals divided by the window: an
      independent way to compute the same series. */
  lemma SmaByRunningTotals(data: seq<Option<real>>, windowSize: nat, i: nat)
    requires windowSize >= 1 && windowSize - 1 <= i < |data|
    ensures CalculateSma(data, windowSize)[i] ==
      Some(Js.ToFixed2((Sum(data[..i + 1]) - Sum(data[..i + 1 - windowSize])) / (windowSize as real)))
  {
    var upto := data[..i + 1];
    SumSplit(upto, i + 1 - windowSize);
    assert upto[..i + 1 - windowSize] == data[..i + 1 - windowSize];
    assert upto[i + 1 - windowSize..] == data[i + 1 - windowSize..i + 1];
  }

  /** A sum of closes that all lie in [lo, hi] lies between |s|·lo and |s|·hi. */
  lemma {:induction false} SumBounds(s: seq<Option<real>>, lo: real, hi: real)
    requires forall j :: 0 <= j < |s| ==> lo <= Close(s[j]) <= hi
    ensures (|s| as real) * lo <= Sum(s) <= (|s| as real) * hi
  {
    if s != [] {
      var n := (|s| - 1) as real;
      SumBounds(s[..|s| - 1], lo, hi);
      assert (|s| as real) * lo == n * lo + lo;
      assert (|s| as real) * hi == n * hi + hi;
    }
  }

  /** When every close lies in [lo, hi], so does every average, up to the rounding. */
  lemma SmaWithinRange(data: seq<Option<real>>, windowSize: nat, lo: real, hi: real, i: nat)
    requires windowSize >= 1 && windowSize - 1 <= i < |data|
    requires forall j :: 0 <= j < |data| ==> lo <= Close(data[j]) <= hi
    ensures lo - 0.005 <= CalculateSma(data, windowSize)[i].value <= hi + 0.005
  {
    var w := data[i + 1 - windowSize..i + 1];
    SumBounds(w, lo, hi);
    var n := windowSize as real;
    assert lo <= Sum(w) / n <= hi by {
      assert n * lo <= Sum(w) <= n * hi;
    }
  }

  /** A flat series of closes `c` averages to `c` rounded to two decimals. */
  lemma SmaOfFlatSeries(data: seq<Option<real>>, windowSize: nat, c: real, i: nat)
    requires windowSize >= 1 && windowSize - 1 <= i < |data|
    requires forall j :: 0 <= j < |data| ==> data[j] == Some(c)
    ensures CalculateSma(data, windowSize)[i] == Some(Js.ToFixed2(c))
  {
    var w := data[i + 1 - windowSize..i + 1];
    SumBounds(w, c, c);
    var n := windowSize as real;
    assert Sum(w) == n * c;
    assert Sum(w) / n == c;
  }

  /** What the chart receives: the observed series and the prediction. */
  datatype StockData = StockData(
    actual: seq<Option<real>>, actualDates: seq<string>, predicted: seq<real>, predictedDates: seq<string>)

  /** One point of the three-line chart. */
  datatype Point = Point(date: string, actual: Option<real>, predicted: Option<real>, sma: Option<real>)

  /** `list[i] ?? null`: the entry, or nothing past the end. */
  function At<T>(s: seq<Option<T>>, i: nat): Option<T> {
    if i < |s| then s[i] else None
  }

  /** `chartData`: one point per observed date (close and average, no prediction), followed by one
      point per predicted date (prediction only). */
  function ChartData(d: StockData, smaPeriod: nat): (r: seq<Point>)
    requires smaPeriod >= 1
    ensures |r| == |d.actualDates| + |d.predictedDates|
    ensures forall i :: 0 <= i < |d.actualDates| ==>
      && r[i].date == d.actualDates[i] && r[i].actual == At(d.actual, i) && r[i].predicted.None?
      && (i < |d.actual| && i + 1 >= smaPeriod <==> r[i].sma.Some?)
      && r[i].sma == At(CalculateSma(d.actual, smaPeriod), i)
    ensures forall i :: 0 <= i < |d.predictedDates| ==>
      var p := r[|d.actualDates| + i];
      && p.date == d.predictedDates[i] && p.actual.None? && p.sma.None?
      && p.predicted == (if i < |d.predicted| then Some(d.predicted[i]) else None)
  {
    var sma := CalculateSma(d.actual, smaPeriod);
    var actualPoints := seq(|d.actualDates|, i requires 0 <= i < |d.actualDates| =>
      Point(d.actualDates[i], At(d.actual, i), None, At(sma, i)));
    var predictedPoints := seq(|d.predictedDates|, i requires 0 <= i < |d.predictedDates| =>
      Point(d.predictedDates[i], None, if i < |d.predicted| then Some(d.predicted[i]) else None, None));
    actualPoints + predictedPoints
  }
}

=== FILE: stock_controller.dfy ===
/** The stock endpoints (server/controllers/StockController.js): the filter object built from
    the query string, the checks on a symbol list, the lookup of one stock and the write-back of
    computed returns.  `parseFloat` is a parameter. */
module StockController {
  import opened Wrappers
  import opened Http
  import opened Schema
  import Js
  import Seqs
  import StockModel
  import ReturnCalculator
  import YahooFinance

  /** `Number.MAX_SAFE_INTEGER`. */
  const MaxSafeInteger: real := 9007199254740991.0
  const PeMaxDefault: real := 1000.0
  const PbMaxDefault: real := 100.0
  const DividendMaxDefault: real := 100.0

  /** The query-string fields; an absent field is `undefined`. */
  datatype FilterQuery = FilterQuery(
    country: Option<string>, sector: Option<string>, name: Option<string>,
    peMin: Option<string>, peMax: Option<string>, pbMin: Option<string>, pbMax: Option<string>,
    dividendMin: Option<string>, dividendMax: Option<string>,
    marketCapMin: Option<string>, marketCapMax: Option<string>)

  const EmptyQuery: FilterQuery := FilterQuery(None, None, None, None, None, None, None, None, None, None, None)

  /** `bound ? parseFloat(bound) : fallback`. */
  function BoundOr(bound: Option<string>, fallback: real, parse: string -> real): (r: real)
    ensures Js.Present(bound) ==> r == parse(bound.value)
    ensures !Js.Present(bound) ==> r == fallback
  {
    if Js.Present(bound) then parse(bound.value) else fallback
  }

  /** A range exists as soon as either bound is given, even as an empty string; a missing or
      empty bound takes its default. */
  function RangeOf(lo: Option<string>, hi: Option<string>, maxDefault: real, parse: string -> real): (r: Option<StockModel.Range>)
    ensures r.Some? <==> lo.Some? || hi.Some?
    ensures r.Some? ==> r.value.min == BoundOr(lo, 0.0, parse) && r.value.max == BoundOr(hi, maxDefault, parse)
    ensures r.Some? && !Js.Present(lo) && !Js.Present(hi) ==> r.value == StockModel.Range(0.0, maxDefault)
  {
    if lo.Some? || hi.Some? then Some(StockModel.Range(BoundOr(lo, 0.0, parse), BoundOr(hi, maxDefault, parse))) else None
  }

  /** The filter object `getFilteredStocks` hands to the service. */
  function FiltersOf(q: FilterQuery, parse: string -> real): (f: StockModel.Filters)
    ensures f.country == Js.StrOrNull(q.country) && f.sector == Js.StrOrNull(q.sector) && f.name == Js.StrOrNull(q.name)
    ensures f.peRange == RangeOf(q.peMin, q.peMax, PeMaxDefault, parse)
    ensures f.pbRange == RangeOf(q.pbMin, q.pbMax, PbMaxDefault, parse)
    ensures f.dividendRange == RangeOf(q.dividendMin, q.dividendMax, DividendMaxDefault, parse)
    ensures f.marketCapRange == RangeOf(q.marketCapMin, q.marketCapMax, MaxSafeInteger, parse)
  {
    StockModel.Filters(Js.StrOrNull(q.country), Js.StrOrNull(q.sector), Js.StrOrNull(q.name),
      RangeOf(q.peMin, q.peMax, PeMaxDefault, parse), RangeOf(q.pbMin, q.pbMax, PbMaxDefault, parse),
      RangeOf(q.dividendMin, q.dividendMax, DividendMaxDefault, parse),
      RangeOf(q.marketCapMin, q.marketCapMax, MaxSafeInteger, parse))
  }

  /** The filter object, one field assignment after another as in the handler. */
  method BuildFilters(q: FilterQuery, parse: string -> real) returns (f: StockModel.Filters)
    ensures f == FiltersOf(q, parse)
  {
    f := StockModel.NoFilters;
    if Js.Present(q.country) { f := f.(country := q.country); }
    if Js.Present(q.sector) { f := f.(sector := q.sector); }
    if Js.Present(q.name) { f := f.(name := q.name); }
    if q.peMin.Some? || q.peMax.Some? {
      f := f.(peRange := Some(StockModel.Range(BoundOr(q.peMin, 0.0, parse), BoundOr(q.peMax, PeMaxDefault, parse))));
    }
    if q.pbMin.Some? || q.pbMax.Some? {
      f := f.(pbRange := Some(StockModel.Range(BoundOr(q.pbMin, 0.0, parse), BoundOr(q.pbMax, PbMaxDefault, parse))));
    }
    if q.dividendMin.Some? || q.dividendMax.Some? {
      f := f.(dividendRange := Some(StockModel.Range(BoundOr(q.dividendMin, 0.0, parse), BoundOr(q.dividendMax, DividendMaxDefault, parse))));
    }
    if q.marketCapMin.Some? || q.marketCapMax.Some? {
      f := f.(marketCapRange := Some(StockModel.Range(BoundOr(q.marketCapMin, 0.0, parse), BoundOr(q.marketCapMax, MaxSafeInteger, parse))));
    }
  }

  /** An empty query string filters nothing: every stock is listed. */
  lemma EmptyQueryListsAll(t: StockModel.StockTable, parse: string -> real)
    requires t.Valid()
    ensures t.GetFiltered(FiltersOf(EmptyQuery, parse)) == t.rows
  {
    assert FiltersOf(EmptyQuery, parse) == StockModel.NoFilters;
    StockModel.NoFiltersKeepsAll(t);
  }

  /** `?peMin=` (given but empty) is not the same as no bound: it makes the range 0..1000, which
      drops the stocks whose PE is outside it. */
  lemma EmptyBoundStillFilters(parse: string -> real)
    ensures FiltersOf(EmptyQuery.(peMin := Some("")), parse).peRange == Some(StockModel.Range(0.0, PeMaxDefault))
    ensures FiltersOf(EmptyQuery.(country := Some("")), parse).country.None?
  {
  }

  /** The symbol list of a request body: a non-empty array; anything else is a 400. */
  function SymbolList(symbols: Js.Value): (r: Option<seq<Js.Value>>)
    ensures r.Some? <==> symbols.Arr? && |symbols.items| > 0
    ensures r.Some? ==> r.value == symbols.items
  {
    if symbols.Arr? && |symbols.items| > 0 then Some(symbols.items) else None
  }

  /** The strings of a symbol list; an entry that is not a string cannot be quoted, so its
      fetch fails and it is dropped. */
  function Strings(items: seq<Js.Value>): (r: seq<string>)
    ensures |r| <= |items|
    ensures forall s :: s in r <==> Js.Str(s) in items
  {
    if items == [] then []
    else
      var rest := Strings(items[1..]);
      assert forall v :: v in items <==> v == items[0] || v in items[1..];
      if items[0].Str? then [items[0].s] + rest else rest
  }

  /** `getStockBySymbol`: 400 for an empty symbol, 404 when the table has no such stock. */
  function GetStockBySymbol(t: StockModel.StockTable, symbol: Option<string>): (r: Reply<StockRow>)
    reads t
    ensures r.Failure? && r.status == 400 <==> !Js.Present(symbol)
    ensures r.Failure? && r.status == 404 <==> Js.Present(symbol) && FindStock(t.rows, symbol.value).None?
    ensures r.Success? ==> r.status == 200 && r.data in t.rows && r.data.symbol == symbol.value
    ensures r.Success? || r.status == 400 || r.status == 404
  {
    if !Js.Present(symbol) then Failure(400)
    else
      match t.GetBySymbol(symbol.value)
      case None => Failure(404)
      case Some(row) => Success(200, row)
  }

  /** `updateSelectedStocks`: a missing, non-array or empty list is a 400 and nothing is
      fetched; otherwise the stored rows of the symbols whose quotes arrived. */
  method UpdateSelectedStocks(t: StockModel.StockTable, symbols: Js.Value, fetch: string -> Option<StockQuote>, now: int)
    returns (r: Reply<seq<StockRow>>)
    requires t.Valid()
    modifies t
    ensures t.Valid()
    ensures r.Failure? <==> SymbolList(symbols).None?
    ensures r.Failure? ==> r.status == 400 && t.rows == old(t.rows)
    ensures r.Success? ==> r.status == 200
    ensures r.Success? ==> |r.data| == |YahooFinance.Somes(YahooFinance.Fetched(Strings(symbols.items), fetch))|
    ensures r.Success? ==>
      var valid := YahooFinance.Somes(YahooFinance.Fetched(Strings(symbols.items), fetch));
      var written := YahooFinance.QuoteSymbols(valid);
      && (forall k :: 0 <= k < |r.data| ==> StockModel.CarriesQuote(r.data[k], valid[k], now))
      && YahooFinance.LastRowsHeld(t.rows, r.data, valid)
      && YahooFinance.Kept(old(t.rows), t.rows, written) && YahooFinance.OnlyWritten(old(t.rows), t.rows, written)
  {
    var list := SymbolList(symbols);
    if list.None? {
      return Failure(400);
    }
    var updated := YahooFinance.UpdateSelectedStocks(t, Strings(list.value), fetch, now);
    return Success(200, updated);
  }

  /** A row after the returns computed for the symbols in `done` have been written: only
      symbols with both figures are written. */
  function Refreshed(row: StockRow, results: map<string, ReturnCalculator.Outcome>, done: seq<string>): (r: StockRow)
    ensures r.symbol == row.symbol
    ensures row.symbol !in done || row.symbol !in results || !results[row.symbol].Computed? ==> r == row
    ensures row.symbol in done && row.symbol in results && results[row.symbol].Computed? ==>
      r.annualReturn == Some(results[row.symbol].annualReturn) && r.volatility == Some(results[row.symbol].volatility)
  {
    if row.symbol in done && row.symbol in results && results[row.symbol].Computed? then
      StockModel.Apply(row, StockModel.ReturnColumns(results[row.symbol].annualReturn, results[row.symbol].volatility))
    else row
  }

  function RefreshedAll(rows: seq<StockRow>, results: map<string, ReturnCalculator.Outcome>, done: seq<string>): (r: seq<StockRow>)
    ensures |r| == |rows|
    ensures forall i :: 0 <= i < |rows| ==> r[i] == Refreshed(rows[i], results, done)
  {
    seq(|rows|, i requires 0 <= i < |rows| => Refreshed(rows[i], results, done))
  }

  /** Writing the returns of one more symbol. */
  lemma RefreshStep(rows0: seq<StockRow>, rows: seq<StockRow>, results: map<string, ReturnCalculator.Outcome>, done: seq<string>, s: string)
    requires |rows| == |rows0| && rows == RefreshedAll(rows0, results, done)
    requires !(s in results && results[s].Computed?)
    ensures rows == RefreshedAll(rows0, results, done + [s])
  {
  }

  /** The write-back loop of `calculateReturns`: every symbol whose annual return and
      volatility are both numbers gets them written; every other row is left as it was. */
  method StoreReturns(t: StockModel.StockTable, symbols: seq<string>, results: map<string, ReturnCalculator.Outcome>)
    requires t.Valid()
    modifies t
    ensures t.Valid()
    ensures t.rows == RefreshedAll(old(t.rows), results, symbols)
  {
    ghost var rows0 := t.rows;
    var k := 0;
    while k < |symbols|
      invariant 0 <= k <= |symbols| && t.Valid()
      invariant t.rows == RefreshedAll(rows0, results, symbols[..k])
    {
      var s := symbols[k];
      assert symbols[..k + 1] == symbols[..k] + [s];
      if s in results && results[s].Computed? {
        ghost var before := t.rows;
        var p := StockModel.ReturnColumns(results[s].annualReturn, results[s].volatility);
        var updated := t.Update(s, p);
        StockModel.SymbolsDistinct(before);
        forall i | 0 <= i < |rows0|
          ensures t.rows[i] == Refreshed(rows0[i], results, symbols[..k + 1])
        {
          assert before[i] == Refreshed(rows0[i], results, symbols[..k]);
          if updated.Some? && i == IndexOfSymbol(before, s).value {
            assert t.rows[i] == StockModel.Apply(before[i], p);
          } else if updated.Some? {
            assert t.rows[i] == before[i];
          } else {
            assert forall j :: 0 <= j < |before| ==> before[j].symbol != s;
          }
        }
      } else {
        RefreshStep(rows0, t.rows, results, symbols[..k], s);
      }
      k := k + 1;
    }
    assert symbols[..k] == symbols;
  }

  /** `calculateReturns`: 400 for a bad symbol list; otherwise every listed symbol gets its
      figures, and the rows of those with both figures are updated. */
  method CalculateReturns(t: StockModel.StockTable, symbols: Js.Value,
    history: string -> Option<seq<ReturnCalculator.Bar>>, annualize: ReturnCalculator.Annualizer, sqrt: ReturnCalculator.SquareRoot)
    returns (r: Reply<map<string, ReturnCalculator.Outcome>>)
    requires t.Valid()
    modifies t
    ensures t.Valid()
    ensures r.Failure? <==> SymbolList(symbols).None?
    ensures r.Failure? ==> r.status == 400 && t.rows == old(t.rows)
    ensures r.Success? ==> r.status == 200 && t.rows == RefreshedAll(old(t.rows), r.data, Strings(symbols.items))
    ensures r.Success? ==> forall s :: s in r.data <==> s in Strings(symbols.items)
    ensures r.Success? ==> forall s :: s in r.data ==> r.data[s] == ReturnCalculator.Expected(history(s), annualize, sqrt)
  {
    var list := SymbolList(symbols);
    if list.None? {
      return Failure(400);
    }
    var names := Strings(list.value);
    var results, _ := ReturnCalculator.CalculateMultipleReturns(names, history, annualize, sqrt);
    StoreReturns(t, names, results);
    return Success(200, results);
  }
}

=== FILE: stock_model.dfy ===
/** The `stocks` table (server/models/Stock.js): one row per symbol, read in symbol order,
    filtered by the screener's conditions, written by upsert. */
module StockModel {
  import opened Wrappers
  import opened Schema
  import Js
  import Seqs
  import PortfolioModel
  import FavoriteModel

  /** An inclusive `BETWEEN min AND max` bound. */
  datatype Range = Range(min: real, max: real)

  /** The conditions `getFiltered` understands; an absent field is no condition. */
  datatype Filters = Filters(
    country: Option<string>, sector: Option<string>, name: Option<string>,
    peRange: Option<Range>, pbRange: Option<Range>, dividendRange: Option<Range>, marketCapRange: Option<Range>)

  const NoFilters: Filters := Filters(None, None, None, None, None, None, None)
  const AllCountries: string := "All Countries"
  const AllSectors: string := "All Sectors"

  /** An exact-match condition is applied when the value is set, is not the wildcard, and is
      not blank. */
  predicate Selects(v: Option<string>, wildcard: string) {
    Js.Present(v) && v.value != wildcard && Js.Trim(v.value) != ""
  }

  /** The name condition is applied when the value is set and not blank. */
  predicate NameApplies(v: Option<string>) {
    Js.Present(v) && Js.Trim(v.value) != ""
  }

  /** `name ILIKE '%part%'` for a `part` without LIKE wildcards. */
  predicate NameLike(name: string, part: string)
    ensures NameLike(name, part) ==> |part| <= |name|
    ensures part == [] ==> NameLike(name, part)
  {
    assert Js.OccursAt(Js.AsciiLower(name), Js.AsciiLower([]), 0);
    Js.Contains(Js.AsciiLower(name), Js.AsciiLower(part))
  }

  /** A `BETWEEN` condition: absent, or a non-null column inside the bounds. */
  predicate Within(x: Option<real>, r: Option<Range>) {
    r.None? || (x.Some? && r.value.min <= x.value <= r.value.max)
  }

  /** The row satisfies every condition of `f` that applies. */
  predicate Matches(f: Filters, row: StockRow) {
    && (Selects(f.country, AllCountries) ==> row.country == f.country.value)
    && (Selects(f.sector, AllSectors) ==> row.sector == f.sector.value)
    && (NameApplies(f.name) ==> NameLike(row.name, f.name.value))
    && Within(row.pe, f.peRange)
    && Within(row.pb, f.pbRange)
    && Within(row.dividendYield, f.dividendRange)
    && Within(row.marketCap, f.marketCapRange)
  }

  /** The columns a write touches: a fetched quote (with its fetch time), or the computed
      return and volatility. */
  datatype Patch = QuoteColumns(q: StockQuote, at: int) | ReturnColumns(annualReturn: real, volatility: real)

  /** The row after `UPDATE ... SET` with the patch's columns; the symbol stays. */
  function Apply(row: StockRow, p: Patch): (r: StockRow)
    ensures r.symbol == row.symbol
    ensures p.ReturnColumns? ==> r == row.(annualReturn := Some(p.annualReturn), volatility := Some(p.volatility))
    ensures p.QuoteColumns? ==> r.annualReturn == row.annualReturn && r.volatility == row.volatility && r.dividend == row.dividend
  {
    match p
    case ReturnColumns(a, v) => row.(annualReturn := Some(a), volatility := Some(v))
    case QuoteColumns(q, at) =>
      row.(name := q.name, country := q.country, sector := q.sector, price := q.rawPrice, rawPrice := q.rawPrice,
        pe := Some(q.pe), pb := Some(q.pb), dividendYield := Some(q.dividendYield), marketCap := Some(q.marketCap),
        volume := Some(q.volume), change := Some(q.change), changePercent := Some(q.changePercent), lastUpdated := at)
  }

  /** The row a first insert of a quote creates: returns not computed yet, dividend 0. */
  function NewRow(q: StockQuote, at: int): (r: StockRow)
    ensures r.symbol == q.symbol && r.annualReturn.None? && r.volatility.None? && r.dividend == 0.0
    ensures r.pe == Some(q.pe) && r.price == q.rawPrice && r.lastUpdated == at
  {
    StockRow(q.symbol, q.name, q.country, q.sector, q.rawPrice, q.rawPrice,
      Some(q.pe), Some(q.pb), Some(q.dividendYield), Some(q.marketCap), Some(q.volume), Some(q.change),
      Some(q.changePercent), at, None, None, 0.0)
  }

  /** The row holds the quote's columns, written at time `at`. */
  predicate CarriesQuote(row: StockRow, q: StockQuote, at: int) {
    && row.symbol == q.symbol && row.name == q.name && row.country == q.country && row.sector == q.sector
    && row.price == q.rawPrice && row.rawPrice == q.rawPrice && row.pe == Some(q.pe) && row.pb == Some(q.pb)
    && row.dividendYield == Some(q.dividendYield) && row.marketCap == Some(q.marketCap)
    && row.volume == Some(q.volume) && row.change == Some(q.change) && row.changePercent == Some(q.changePercent)
    && row.lastUpdated == at
  }

  /** The distinct values of a column, sorted, as `distinct` followed by `sort()`. */
  function Distinct(rows: seq<StockRow>, column: StockRow -> string): (r: seq<string>)
    ensures Seqs.StrictlySorted(r)
    ensures forall v :: v in r <==> exists row :: row in rows && column(row) == v
  {
    if rows == [] then []
    else
      var rest := Distinct(rows[1..], column);
      assert forall row :: row in rows <==> row == rows[0] || row in rows[1..];
      Seqs.InsertDistinct(rest, column(rows[0]))
  }

  function CountryOf(row: StockRow): string { row.country }
  function SectorOf(row: StockRow): string { row.sector }

  /** The screener's choices: a wildcard first, then every value present. */
  datatype AvailableFilters = AvailableFilters(countries: seq<string>, sectors: seq<string>)

  class StockTable {
    /** The rows, kept in symbol order; the order is strict, so a symbol occurs at most once. */
    var rows: seq<StockRow>

    ghost predicate Valid()
      reads this
    {
      Seqs.SortedByKey(rows, SymbolOf)
    }

    constructor()
      ensures Valid() && rows == []
    {
      rows := [];
    }

    /** `getAll()`: every row, ordered by symbol. */
    function GetAll(): (r: seq<StockRow>)
      requires Valid()
      reads this
      ensures Seqs.SortedByKey(r, SymbolOf)
      ensures forall row :: row in r <==> row in rows
    {
      rows
    }

    /** `getBySymbol(symbol)`. */
    function GetBySymbol(symbol: string): (r: Option<StockRow>)
      reads this
      ensures r.Some? <==> exists i :: 0 <= i < |rows| && rows[i].symbol == symbol
      ensures r.Some? ==> r.value in rows && r.value.symbol == symbol
    {
      FindStock(rows, symbol)
    }

    /** `getFiltered(f)`: the rows satisfying `f`, ordered by symbol. */
    function GetFiltered(f: Filters): (r: seq<StockRow>)
      requires Valid()
      reads this
      ensures Seqs.SortedByKey(r, SymbolOf)
      ensures Seqs.IsSubseq(r, rows)
      ensures forall k :: 0 <= k < |r| ==> Matches(f, r[k])
      ensures forall row :: row in rows && Matches(f, row) ==> row in r
    {
      var p := (row: StockRow) => Matches(f, row);
      Seqs.FilterSortedByKey(rows, p, SymbolOf);
      Seqs.FilterIsSubseq(rows, p);
      Seqs.Filter(rows, p)
    }

    /** `getAvailableFilters()`. */
    function GetAvailableFilters(): (r: AvailableFilters)
      reads this
      ensures |r.countries| >= 1 && r.countries[0] == AllCountries && Seqs.StrictlySorted(r.countries[1..])
      ensures |r.sectors| >= 1 && r.sectors[0] == AllSectors && Seqs.StrictlySorted(r.sectors[1..])
      ensures forall c :: c in r.countries[1..] <==> exists row :: row in rows && row.country == c
      ensures forall s :: s in r.sectors[1..] <==> exists row :: row in rows && row.sector == s
    {
      var countries := Distinct(rows, CountryOf);
      var sectors := Distinct(rows, SectorOf);
      assert ([AllCountries] + countries)[1..] == countries;
      assert ([AllSectors] + sectors)[1..] == sectors;
      AvailableFilters([AllCountries] + countries, [AllSectors] + sectors)
    }

    /** `update(symbol, patch)`: the row with `symbol` gets the patch's columns; the updated
        row is returned, nothing when there is no such row. */
    method Update(symbol: string, p: Patch) returns (r: Option<StockRow>)
      requires Valid()
      modifies this
      ensures Valid()
      ensures r.Some? <==> old(FindStock(rows, symbol)).Some?
      ensures r.Some? ==> r == Some(Apply(old(FindStock(rows, symbol)).value, p))
      ensures r.None? ==> rows == old(rows)
      ensures r.Some? ==> |rows| == |old(rows)|
      ensures r.Some? ==> forall row :: row in rows <==> row == r.value || (row in old(rows) && row.symbol != symbol)
      ensures r.Some? ==> IndexOfSymbol(old(rows), symbol).Some? && rows == old(rows)[IndexOfSymbol(old(rows), symbol).value := r.value]
    {
      match IndexOfSymbol(rows, symbol)
      case None => return None;
      case Some(i) =>
        var updated := Apply(rows[i], p);
        ghost var before := rows;
        rows := rows[i := updated];
        forall j | 0 <= j < |before| && j != i
          ensures before[j].symbol != symbol
        {
          if j < i { assert Seqs.Less(SymbolOf(before[j]), SymbolOf(before[i])); Seqs.LessIrreflexive(symbol); }
          else { assert Seqs.Less(SymbolOf(before[i]), SymbolOf(before[j])); Seqs.LessIrreflexive(symbol); }
        }
        forall a, b | 0 <= a < b < |rows| ensures Seqs.Less(SymbolOf(rows[a]), SymbolOf(rows[b])) {
          assert Seqs.Less(SymbolOf(before[a]), SymbolOf(before[b]));
        }
        assert rows[i] == updated;
        forall row
          ensures row in rows <==> row == updated || (row in before && row.symbol != symbol)
        {
          if row in before && row.symbol != symbol {
            var j :| 0 <= j < |before| && before[j] == row;
            assert rows[j] == row;
          }
          if row in rows && row != updated {
            var j :| 0 <= j < |rows| && rows[j] == row;
            assert j != i && before[j] == row;
          }
        }
        return Some(updated);
    }

    /** `create(q)` at time `at`: a new row, unless the symbol is taken (the unique constraint
        rejects it). */
    method Create(q: StockQuote, at: int) returns (r: Result<StockRow>)
      requires Valid()
      modifies this
      ensures Valid()
      ensures r.Err? <==> old(FindStock(rows, q.symbol)).Some?
      ensures r.Err? ==> rows == old(rows)
      ensures r.Ok? ==> r.value == NewRow(q, at) && multiset(rows) == multiset(old(rows)) + multiset{r.value}
    {
      if FindStock(rows, q.symbol).Some? {
        return Err("duplicate key value violates unique constraint \"stocks_symbol_unique\"");
      }
      var row := NewRow(q, at);
      rows := Seqs.InsertByKey(rows, row, SymbolOf);
      return Ok(row);
    }

    /** `upsert(q)` at time `at`: the quote's columns overwrite the row with its symbol, or a
        new row is inserted; either way exactly one row has the symbol afterwards. */
    method Upsert(q: StockQuote, at: int) returns (row: StockRow)
      requires Valid()
      modifies this
      ensures Valid()
      ensures old(FindStock(rows, q.symbol)).Some? ==>
        row == Apply(old(FindStock(rows, q.symbol)).value, QuoteColumns(q, at)) && |rows| == |old(rows)|
      ensures old(FindStock(rows, q.symbol)).None? ==> row == NewRow(q, at) && |rows| == |old(rows)| + 1
      ensures CarriesQuote(row, q, at)
      ensures forall r :: r in rows <==> r == row || (r in old(rows) && r.symbol != q.symbol)
    {
      var updated := Update(q.symbol, QuoteColumns(q, at));
      if updated.Some? {
        return updated.value;
      }
      var created := Create(q, at);
      assert created.Ok?;
      row := created.value;
      forall r ensures r in rows <==> r == row || (r in old(rows) && r.symbol != q.symbol) {
        assert r in rows <==> r in multiset(rows);
        assert r in old(rows) <==> r in multiset(old(rows));
        if r in old(rows) {
          assert r.symbol != q.symbol;
        }
      }
      assert |rows| == |multiset(rows)|;
    }

    /** `clearAll()`: every row is deleted, and with them, by the cascading foreign keys, every
        holding and every favourite.  Answers the number of stock rows deleted. */
    method ClearAll(portfolio: PortfolioModel.PortfolioTable, favorites: FavoriteModel.FavoriteTable) returns (deleted: nat)
      requires portfolio.Valid() && favorites.Valid()
      modifies this, portfolio, favorites
      ensures Valid() && portfolio.Valid() && favorites.Valid()
      ensures deleted == |old(rows)|
      ensures rows == [] && portfolio.holdings == map[] && favorites.favorites == map[]
      ensures portfolio.nextId == old(portfolio.nextId) && favorites.nextId == old(favorites.nextId)
    {
      deleted := |rows|;
      rows := [];
      portfolio.holdings := map[];
      favorites.favorites := map[];
    }
  }

  /** In a table kept in strict symbol order, no two positions share a symbol. */
  lemma SymbolsDistinct(rows: seq<StockRow>)
    requires Seqs.SortedByKey(rows, SymbolOf)
    ensures forall i, j :: 0 <= i < |rows| && 0 <= j < |rows| && i != j ==> rows[i].symbol != rows[j].symbol
  {
    forall i, j | 0 <= i < |rows| && 0 <= j < |rows| && i != j
      ensures rows[i].symbol != rows[j].symbol
    {
      Seqs.LessIrreflexive(rows[i].symbol);
      if i < j { assert Seqs.Less(SymbolOf(rows[i]), SymbolOf(rows[j])); }
      else { assert Seqs.Less(SymbolOf(rows[j]), SymbolOf(rows[i])); }
    }
  }

  /** Leaving every condition out keeps every row. */
  lemma NoFiltersKeepsAll(t: StockTable)
    requires t.Valid()
    ensures t.GetFiltered(NoFilters) == t.rows
  {
    Seqs.FilterAll(t.rows, (row: StockRow) => Matches(NoFilters, row));
  }

  /** Conditions that accept the same rows select the same rows. */
  lemma {:induction false} SameMatchesSameRows(t: StockTable, f: Filters, g: Filters)
    requires t.Valid()
    requires forall row :: Matches(f, row) == Matches(g, row)
    ensures t.GetFiltered(f) == t.GetFiltered(g)
  {
    Seqs.FilterSame(t.rows, (row: StockRow) => Matches(f, row), (row: StockRow) => Matches(g, row));
  }

  /** "All Countries", a blank country and no country are the same condition, and likewise
      for sectors. */
  lemma Wildcards(f: Filters, blank: string, row: StockRow)
    requires Js.AllWhitespace(blank)
    ensures Matches(f.(country := Some(AllCountries)), row) == Matches(f.(country := None), row)
    ensures Matches(f.(country := Some(blank)), row) == Matches(f.(country := None), row)
    ensures Matches(f.(sector := Some(AllSectors)), row) == Matches(f.(sector := None), row)
    ensures Matches(f.(sector := Some(blank)), row) == Matches(f.(sector := None), row)
  {
  }

  lemma LowerCharKeepsWhitespace(c: char)
    ensures Js.IsWhitespace(Js.LowerChar(c)) <==> Js.IsWhitespace(c)
    ensures Js.LowerChar(Js.LowerChar(c)) == Js.LowerChar(c)
  {
  }

  lemma LowerAllWhitespace(name: string)
    ensures Js.AllWhitespace(Js.AsciiLower(name)) <==> Js.AllWhitespace(name)
  {
    var lower := Js.AsciiLower(name);
    forall i | 0 <= i < |name| ensures Js.IsWhitespace(lower[i]) <==> Js.IsWhitespace(name[i]) {
      LowerCharKeepsWhitespace(name[i]);
    }
  }

  lemma LowerIdempotent(name: string)
    ensures Js.AsciiLower(Js.AsciiLower(name)) == Js.AsciiLower(name)
  {
    var lower := Js.AsciiLower(name);
    forall i | 0 <= i < |name| ensures Js.AsciiLower(lower)[i] == lower[i] {
      LowerCharKeepsWhitespace(name[i]);
    }
  }

  /** Lower-casing what is searched for changes neither whether the name condition applies
      nor what it accepts. */
  lemma NameLowerSame(f: Filters, name: string, row: StockRow)
    ensures Matches(f.(name := Some(name)), row) == Matches(f.(name := Some(Js.AsciiLower(name))), row)
  {
    LowerAllWhitespace(name);
    LowerIdempotent(name);
    assert NameApplies(Some(name)) == NameApplies(Some(Js.AsciiLower(name)));
    assert NameLike(row.name, name) == NameLike(row.name, Js.AsciiLower(name));
  }

  /** The name condition does not depend on the case of the ASCII letters searched for. */
  lemma NameCaseInsensitive(t: StockTable, f: Filters, name: string)
    requires t.Valid()
    ensures t.GetFiltered(f.(name := Some(name))) == t.GetFiltered(f.(name := Some(Js.AsciiLower(name))))
  {
    forall row ensures Matches(f.(name := Some(name)), row) == Matches(f.(name := Some(Js.AsciiLower(name))), row) {
      NameLowerSame(f, name, row);
    }
    SameMatchesSameRows(t, f.(name := Some(name)), f.(name := Some(Js.AsciiLower(name))));
  }
}

=== FILE: stock_service.dfy ===
/** Price history, company data and the two prediction paths (server/services/StockService.js).
    The chart and quote calls and the HTTP call to the ML service are inputs. */
module StockService {
  import opened Wrappers
  import opened Http
  import Js
  import MlPredict

  const MsPerDay: int := 24 * 60 * 60 * 1000

  /** Message thrown when the chart answer has no quotes. */
  const FetchFailedMessage: string := "株価データが取得できませんでした。"
  /** Message thrown when the quote list is empty. */
  const NotFoundMessage: string := "株価データが見つかりませんでした"

  /** `getDaysFromRange`: the window length in days. */
  function DaysFromRange(range: string): (days: nat)
    ensures days in {7, 30, 365, 1095}
    ensures range !in {"1m", "1y", "3y"} ==> days == 7
  {
    match range
    case "1m" => 30
    case "1y" => 365
    case "3y" => 365 * 3
    case _ => 7
  }

  /** The four accepted ranges get strictly growing windows, and different ranges different
      windows. */
  lemma RangesOrdered()
    ensures DaysFromRange("1w") < DaysFromRange("1m") < DaysFromRange("1y") < DaysFromRange("3y")
    ensures DaysFromRange("3y") == 3 * DaysFromRange("1y")
  {
  }

  /** The `chart` request of `getStockData`: daily bars from `days` before `now` up to `now`. */
  datatype ChartQuery = ChartQuery(symbol: string, period1: int, period2: int, interval: string)

  function ChartWindow(symbol: string, range: string, now: int): (q: ChartQuery)
    ensures q.symbol == symbol && q.interval == "1d" && q.period2 == now
    ensures q.period2 - q.period1 == DaysFromRange(range) * MsPerDay
  {
    ChartQuery(symbol, now - DaysFromRange(range) * MsPerDay, now, "1d")
  }

  /** One bar of the chart answer: the ISO text of its timestamp and its close, if any. */
  datatype Quote = Quote(isoTime: string, close: Option<real>)

  /** What `formatStockData` returns. */
  datatype StockSeries = StockSeries(actual: seq<Option<real>>, actualDates: seq<string>, result: seq<Quote>)

  /** `String.prototype.slice(0, 10)`. */
  function Slice10(s: string): (r: string)
    ensures |r| == if |s| < 10 then |s| else 10
    ensures r <= s
  {
    if |s| < 10 then s else s[..10]
  }

  /** `formatStockData(quotes)`: the closes and the calendar days of the bars, index for index;
      an empty list is an error. */
  function FormatStockData(quotes: seq<Quote>): (r: Result<StockSeries>)
    ensures r.Err? <==> quotes == []
    ensures r.Err? ==> r.message == NotFoundMessage
    ensures r.Ok? ==> |r.value.actual| == |quotes| && |r.value.actualDates| == |quotes| && r.value.result == quotes
    ensures r.Ok? ==> forall i :: 0 <= i < |quotes| ==>
      r.value.actual[i] == quotes[i].close && r.value.actualDates[i] == Slice10(quotes[i].isoTime)
  {
    var actual := seq(|quotes|, i requires 0 <= i < |quotes| => quotes[i].close);
    var dates := seq(|quotes|, i requires 0 <= i < |quotes| => Slice10(quotes[i].isoTime));
    if |actual| == 0 then Err(NotFoundMessage) else Ok(StockSeries(actual, dates, quotes))
  }

  /** `getStockData`: `chartQuotes` is the `quotes` field of the chart answer (`None` when it
      is absent). */
  function GetStockData(chartQuotes: Option<seq<Quote>>): (r: Result<StockSeries>)
    ensures chartQuotes.None? ==> r == Err(FetchFailedMessage)
    ensures chartQuotes == Some([]) ==> r == Err(NotFoundMessage)
    ensures chartQuotes.Some? ==> r == FormatStockData(chartQuotes.value)
  {
    if chartQuotes.None? then Err(FetchFailedMessage) else FormatStockData(chartQuotes.value)
  }

  /** The three fields of the quote that `getCompanyInfo` reads. */
  datatype QuoteInfo = QuoteInfo(longName: Option<string>, fullExchangeName: Option<string>, currency: Option<string>)
  datatype CompanyInfo = CompanyInfo(name: Option<string>, exchange: Option<string>, currency: Option<string>)

  /** `getCompanyInfo`: each field copied when non-empty, otherwise null. */
  function GetCompanyInfo(info: QuoteInfo): (c: CompanyInfo)
    ensures c.name.Some? ==> c.name == info.longName && c.name.value != ""
    ensures c.exchange.Some? ==> c.exchange == info.fullExchangeName && c.exchange.value != ""
    ensures c.currency.Some? ==> c.currency == info.currency && c.currency.value != ""
    ensures Js.Present(info.longName) ==> c.name == info.longName
    ensures Js.Present(info.fullExchangeName) ==> c.exchange == info.fullExchangeName
    ensures Js.Present(info.currency) ==> c.currency == info.currency
  {
    CompanyInfo(Js.StrOrNull(info.longName), Js.StrOrNull(info.fullExchangeName), Js.StrOrNull(info.currency))
  }

  /** Growth per step of the simple model and of the rate sent to the ML service. */
  const DailyGrowth: real := 0.01

  /** The price after `n` steps of 1% growth. */
  function Compounded(lastPrice: real, n: nat): real {
    lastPrice * MlPredict.Pow(1.0 + DailyGrowth, n)
  }

  /** `simplePrediction(lastPrice)`: seven integers, step i the rounded value of
      `lastPrice * 1.01^(i+1)`. */
  function SimplePrediction(lastPrice: real): (p: seq<real>)
    ensures |p| == MlPredict.Horizon
    ensures forall i :: 0 <= i < |p| ==> p[i] == Js.MathRound(Compounded(lastPrice, i + 1)) as real
  {
    seq(MlPredict.Horizon, i requires 0 <= i < MlPredict.Horizon => Js.MathRound(Compounded(lastPrice, i + 1)) as real)
  }

  lemma {:induction false} PowAtLeastOne(x: real, n: nat)
    requires x >= 1.0
    ensures MlPredict.Pow(x, n) >= 1.0
  {
    if n > 0 {
      PowAtLeastOne(x, n - 1);
    }
  }

  lemma RoundMonotone(x: real, y: real)
    requires x <= y
    ensures Js.MathRound(x) <= Js.MathRound(y)
  {
  }

  /** Each entry is within one half of the compounded price. */
  lemma SimplePredictionClose(lastPrice: real, i: nat)
    requires i < MlPredict.Horizon
    ensures -0.5 < SimplePrediction(lastPrice)[i] - Compounded(lastPrice, i + 1) <= 0.5
  {
  }

  /** For a non-negative price the predicted sequence never decreases. */
  lemma SimplePredictionNondecreasing(lastPrice: real, i: nat)
    requires lastPrice >= 0.0 && i + 1 < MlPredict.Horizon
    ensures SimplePrediction(lastPrice)[i] <= SimplePrediction(lastPrice)[i + 1]
  {
    var a := MlPredict.Pow(1.01, i + 1);
    PowAtLeastOne(1.01, i + 1);
    assert MlPredict.Pow(1.01, i + 2) == 1.01 * a;
    assert lastPrice * a <= lastPrice * (1.01 * a);
    RoundMonotone(Compounded(lastPrice, i + 1), Compounded(lastPrice, i + 2));
  }

  /** `"Request failed with status code N"`, the error an HTTP client raises on a non-2xx answer. */
  function RequestFailed(status: nat): string {
    "Request failed with status code " + Js.NatToString(status)
  }

  /** The status Flask answers when a view raises. */
  const UncaughtStatus: nat := 500

  /** How the POST to the ML service goes.  `Answers`: the Flask handler runs to its end.
      `Unreachable`: no service answers (it is down, or the address is wrong) and the HTTP
      client rejects with its own connection error `message`.  `RegressorRaises`: the selected
      regressor raises inside Flask, which then answers 500. */
  datatype MlService = Answers | Unreachable(message: string) | RegressorRaises

  /** `mlPrediction(lastPrice, model)`: POST the price, the fixed rate 0.01 and the selector, and
      return `predicted`; an error status from the ML service, or a failed connection, becomes
      a thrown error. */
  function MlPrediction(lastPrice: Option<real>, model: string, service: MlService, model2: MlPredict.Regressor, model3: MlPredict.Regressor): (r: Result<seq<real>>)
    ensures r.Ok? <==> service.Answers? && lastPrice.Some? && model in {"model2", "model3"}
    ensures r.Ok? && model == "model2" ==> r.value == model2(MlPredict.FeatureMatrix(lastPrice.value, DailyGrowth))
    ensures r.Ok? && model == "model3" ==> r.value == model3(MlPredict.FeatureMatrix(lastPrice.value, DailyGrowth))
    ensures service.Unreachable? ==> r == Err(service.message)
    ensures !service.Unreachable? && lastPrice.None? ==> r == Err(RequestFailed(500))
    ensures !service.Unreachable? && lastPrice.Some? && model !in {"model2", "model3"} ==> r == Err(RequestFailed(400))
    ensures service.RegressorRaises? && lastPrice.Some? && model in {"model2", "model3"} ==> r == Err(RequestFailed(UncaughtStatus))
  {
    if service.Unreachable? then Err(service.message)
    else
      match MlPredict.Predict(MlPredict.PredictRequest(lastPrice, Some(DailyGrowth), Some(model)), model2, model3)
      case Success(_, predicted) => if service.RegressorRaises? then Err(RequestFailed(UncaughtStatus)) else Ok(predicted)
      case Failure(status) => Err(RequestFailed(status))
  }

  /** `predictStockPrice(lastPrice, model)`: "model1" is the local compounding rule (a null last
      close counts as 0); every other selector goes to the ML service. */
  function PredictStockPrice(lastPrice: Option<real>, model: string, service: MlService, model2: MlPredict.Regressor, model3: MlPredict.Regressor): (r: Result<seq<real>>)
    ensures model == "model1" ==> r == Ok(SimplePrediction(lastPrice.GetOr(0.0)))
    ensures model != "model1" ==> r == MlPrediction(lastPrice, model, service, model2, model3)
    ensures r.Ok? ==> model in {"model1", "model2", "model3"}
  {
    if model == "model1" then Ok(SimplePrediction(lastPrice.GetOr(0.0)))
    else MlPrediction(lastPrice, model, service, model2, model3)
  }

  /** A missing last close predicts seven zeros under "model1". */
  lemma NullCloseSimplePrediction(service: MlService, model2: MlPredict.Regressor, model3: MlPredict.Regressor)
    ensures PredictStockPrice(None, "model1", service, model2, model3) == Ok([0.0, 0.0, 0.0, 0.0, 0.0, 0.0, 0.0])
  {
    var p := SimplePrediction(0.0);
    forall i | 0 <= i < 7
      ensures p[i] == 0.0
    {
      assert Compounded(0.0, i + 1) == 0.0;
    }
    assert p == [0.0, 0.0, 0.0, 0.0, 0.0, 0.0, 0.0];
  }
}

=== FILE: top_page.dfy ===
/** The screener of the landing page (client/src/pages/TopPage.tsx): a fixed list of sample
    stocks narrowed by the sidebar's country, sector and ratio ranges. */
module TopPage {
  import Seqs

  datatype StockItem = StockItem(
    symbol: string, name: string, country: string, sector: string, price: string,
    pe: real, pb: real, dividendYield: real)

  /** A slider range; both ends belong to it. */
  datatype Range = Range(min: real, max: real)

  /** The sidebar's state.  The ROE range is kept but no stock carries an ROE. */
  datatype FilterState = FilterState(
    country: string, sector: string, peRange: Range, pbRange: Range, roeRange: Range, dividendRange: Range)

  const AllCountries := "All Countries"
  const AllSectors := "All Sectors"

  /** The state the page opens with. */
  const InitialState := FilterState(AllCountries, AllSectors, Range(0.0, 100.0), Range(0.0, 10.0),
    Range(0.0, 50.0), Range(0.0, 10.0))

  const SampleStocks := [
    StockItem("AAPL", "Apple Inc.", "US", "Technology", "$175.43", 28.5, 5.2, 0.5),
    StockItem("7203", "Toyota Motor Corp", "Japan", "Automotive", "¥2,450", 12.3, 1.1, 2.8),
    StockItem("MSFT", "Microsoft Corporation", "US", "Technology", "$378.85", 32.1, 4.8, 0.7)
  ]

  /** The filter callback, one early `return false` after another. */
  predicate Passes(state: FilterState, stock: StockItem) {
    if state.country != AllCountries && stock.country != state.country then false
    else if state.sector != AllSectors && stock.sector != state.sector then false
    else if stock.pe < state.peRange.min || stock.pe > state.peRange.max then false
    else if stock.pb < state.pbRange.min || stock.pb > state.pbRange.max then false
    else if stock.dividendYield < state.dividendRange.min || stock.dividendYield > state.dividendRange.max then false
    else true
  }

  /** The callback as a value, for `filter`. */
  function Test(state: FilterState): StockItem -> bool {
    s => Passes(state, s)
  }

  predicate InRange(x: real, r: Range) {
    r.min <= x <= r.max
  }

  /** A choice either is the wildcard or names the value exactly. */
  predicate Chosen(choice: string, wildcard: string, value: string) {
    choice == wildcard || choice == value
  }

  /** What the screen promises, stated as one conjunction. */
  predicate Wanted(state: FilterState, stock: StockItem) {
    && Chosen(state.country, AllCountries, stock.country)
    && Chosen(state.sector, AllSectors, stock.sector)
    && InRange(stock.pe, state.peRange)
    && InRange(stock.pb, state.pbRange)
    && InRange(stock.dividendYield, state.dividendRange)
  }

  /** `filteredStocks`: the stocks that pass, in their original order. */
  function FilteredStocks(stocks: seq<StockItem>, state: FilterState): (r: seq<StockItem>)
    ensures Seqs.IsSubseq(r, stocks)
    ensures forall i :: 0 <= i < |r| ==> Wanted(state, r[i])
    ensures forall i :: 0 <= i < |stocks| && Wanted(state, stocks[i]) ==> stocks[i] in r
  {
    var r := Seqs.Filter(stocks, Test(state));
    Seqs.FilterIsSubseq(stocks, Test(state));
    r
  }

  /** Duplicates are kept as often as they occur: every copy of a wanted stock is shown and no
      copy of an unwanted one. */
  lemma FilteredCopies(stocks: seq<StockItem>, state: FilterState)
    ensures forall x :: multiset(FilteredStocks(stocks, state))[x] == if Wanted(state, x) then multiset(stocks)[x] else 0
  {
    Seqs.FilterMultiset(stocks, Test(state));
    forall x
      ensures multiset(FilteredStocks(stocks, state))[x] == if Wanted(state, x) then multiset(stocks)[x] else 0
    {
      assert Test(state)(x) == Wanted(state, x);
    }
  }

  /** The badge above the table: "{n} stocks found". */
  function FoundCount(stocks: seq<StockItem>, state: FilterState): (n: nat)
    ensures n <= |stocks|
  {
    |FilteredStocks(stocks, state)|
  }

  /** The ROE slider never changes the result. */
  lemma RoeIgnored(stocks: seq<StockItem>, state: FilterState, roe: Range)
    ensures FilteredStocks(stocks, state.(roeRange := roe)) == FilteredStocks(stocks, state)
  {
    Seqs.FilterSame(stocks, Test(state.(roeRange := roe)), Test(state));
  }

  /** Any stock whose ratios lie inside the ranges passes while both wildcards are chosen. */
  lemma WildcardsKeepEveryCountryAndSector(stocks: seq<StockItem>, state: FilterState)
    requires state.country == AllCountries && state.sector == AllSectors
    requires forall i :: 0 <= i < |stocks| ==>
      InRange(stocks[i].pe, state.peRange) && InRange(stocks[i].pb, state.pbRange) &&
      InRange(stocks[i].dividendYield, state.dividendRange)
    ensures FilteredStocks(stocks, state) == stocks
  {
    Seqs.FilterAll(stocks, Test(state));
  }

  /** The page opens showing all three sample stocks. */
  lemma InitialStateShowsAll()
    ensures FilteredStocks(SampleStocks, InitialState) == SampleStocks
    ensures FoundCount(SampleStocks, InitialState) == 3
  {
    WildcardsKeepEveryCountryAndSector(SampleStocks, InitialState);
  }

  /** Choosing "Japan" leaves only Toyota. */
  lemma JapanShowsToyota()
    ensures FilteredStocks(SampleStocks, InitialState.(country := "Japan")) == [SampleStocks[1]]
  {
    var p := Test(InitialState.(country := "Japan"));
    assert !p(SampleStocks[0]) && p(SampleStocks[1]) && !p(SampleStocks[2]);
    assert SampleStocks[1..][1..] == [SampleStocks[2]];
    assert SampleStocks[2..][1..] == [];
  }
}

=== FILE: user_model.dfy ===
/** The users table and password hashing (server/models/User.js). */
module UserModel {
  import opened Wrappers
  import Js
  import Schema

  /** `digest('hex')` of a SHA-256 hash: 64 lower-case hexadecimal digits (256 bits, FIPS 180-4). */
  predicate IsHexDigest(h: string) {
    |h| == 64 && forall i :: 0 <= i < |h| ==> Js.IsHexDigit(h[i])
  }

  const ZeroDigest: string := seq(64, i => '0')

  /** SHA-256 of a UTF-8 string as hexadecimal text; uninterpreted beyond the shape of its
      output. */
  type Sha256Hex = f: string -> string | forall x :: IsHexDigest(f(x)) witness (x: string) => ZeroDigest

  /** A stored user: `password` holds the hash, never the plain text. */
  datatype User = User(id: nat, username: string, email: string, password: string, salt: string)

  /** `hashPassword(password, salt)`: the digest of the salt followed by the password, which
      always fits the `varchar(255)` password column. */
  function HashPassword(sha256: Sha256Hex, password: string, salt: string): (h: string)
    ensures IsHexDigest(h) && Schema.FitsVarchar(h)
  {
    sha256(salt + password)
  }

  /** `verifyPassword(password, salt, hashed)`: re-hash and compare; a stored value that is not
      a hexadecimal digest never verifies. */
  function VerifyPassword(sha256: Sha256Hex, password: string, salt: string, hashed: string): (ok: bool)
    ensures ok ==> IsHexDigest(hashed)
  {
    HashPassword(sha256, password, salt) == hashed
  }

  /** A password always verifies against its own hash. */
  lemma VerifyAcceptsOwnHash(sha256: Sha256Hex, password: string, salt: string)
    ensures VerifyPassword(sha256, password, salt, HashPassword(sha256, password, salt))
  {
  }

  /** Only the concatenation `salt + password` is hashed: pairs with the same concatenation
      verify interchangeably. */
  lemma OnlyConcatenationMatters(sha256: Sha256Hex, p1: string, s1: string, p2: string, s2: string, hashed: string)
    requires s1 + p1 == s2 + p2
    ensures VerifyPassword(sha256, p1, s1, hashed) == VerifyPassword(sha256, p2, s2, hashed)
  {
  }

  /** The salt `crypto.randomBytes(6).toString('hex')`: 12 lower-case hexadecimal digits. */
  function Salt(randomBytes: seq<bv8>): (salt: string)
    requires |randomBytes| == 6
    ensures |salt| == 12 && forall i :: 0 <= i < |salt| ==> Js.IsHexDigit(salt[i])
  {
    Js.HexEncode(randomBytes)
  }

  /** The first row with the given username (`where({ username }).first()`). */
  function FirstByUsername(rows: seq<User>, username: string): (r: Option<User>)
    ensures r.Some? <==> exists i :: 0 <= i < |rows| && rows[i].username == username
    ensures r.Some? ==> r.value in rows && r.value.username == username
  {
    if rows == [] then None
    else if rows[0].username == username then Some(rows[0])
    else
      var r := FirstByUsername(rows[1..], username);
      assert (exists i :: 0 <= i < |rows| && rows[i].username == username) ==>
        exists i :: 0 <= i < |rows[1..]| && rows[1..][i].username == username by {
        if exists i :: 0 <= i < |rows| && rows[i].username == username {
          var i :| 0 <= i < |rows| && rows[i].username == username;
          assert rows[1..][i - 1] == rows[i];
        }
      }
      r
  }

  /** The database's error for a second user with the same email. */
  const DuplicateEmailMessage: string := "duplicate key value violates unique constraint \"users_email_unique\""

  /** Ids increase with insertion and stay below `nextId`; `users.email` is unique. */
  ghost predicate ValidRows(rows: seq<User>, nextId: nat) {
    && (forall i, j :: 0 <= i < j < |rows| ==> rows[i].id < rows[j].id && rows[i].email != rows[j].email)
    && (forall i :: 0 <= i < |rows| ==> rows[i].id < nextId)
  }

  /** Appending a user with the next id and a fresh email keeps the table well formed. */
  lemma AppendValid(rows: seq<User>, nextId: nat, u: User)
    requires ValidRows(rows, nextId) && u.id == nextId
    requires forall i :: 0 <= i < |rows| ==> rows[i].email != u.email
    ensures ValidRows(rows + [u], nextId + 1)
  {
  }

  class UserTable {
    var rows: seq<User>
    var nextId: nat

    ghost predicate Valid()
      reads this
    {
      ValidRows(rows, nextId)
    }

    constructor()
      ensures Valid() && rows == [] && nextId == 1
    {
      rows := [];
      nextId := 1;
    }

    predicate EmailTaken(email: string)
      reads this
    {
      exists i :: 0 <= i < |rows| && rows[i].email == email
    }

    /** `findByUsername(username)`. */
    function FindByUsername(username: string): (u: Option<User>)
      reads this
      ensures u.Some? <==> exists i :: 0 <= i < |rows| && rows[i].username == username
      ensures u.Some? ==> u.value in rows && u.value.username == username
    {
      FirstByUsername(rows, username)
    }

    /** `create({ username, email, password })` with salt bytes `randomBytes`: stores the
        hash and the salt.  The insert fails when the username or the email does not fit its
        `varchar(255)` column, or when the email is taken (`users.email` is unique); the serial
        id has been drawn by then, so a failed insert still uses up an id. */
    method Create(username: string, email: string, password: string, randomBytes: seq<bv8>, sha256: Sha256Hex)
      returns (r: Result<nat>)
      requires Valid() && |randomBytes| == 6
      modifies this
      ensures Valid()
      ensures r.Err? <==> !Schema.FitsVarchar(username) || !Schema.FitsVarchar(email) || old(EmailTaken(email))
      ensures r.Err? ==> rows == old(rows)
      ensures r.Ok? ==> r.value == old(nextId)
      ensures nextId == old(nextId) + 1
      ensures r.Ok? ==>
        rows == old(rows) + [User(r.value, username, email, HashPassword(sha256, password, Salt(randomBytes)), Salt(randomBytes))]
    {
      if !Schema.FitsVarchar(username) || !Schema.FitsVarchar(email) {
        r := Err(Schema.TooLongMessage);
      } else if EmailTaken(email) {
        r := Err(DuplicateEmailMessage);
      } else {
        var salt := Salt(randomBytes);
        var u := User(nextId, username, email, HashPassword(sha256, password, salt), salt);
        AppendValid(rows, nextId, u);
        rows := rows + [u];
        r := Ok(nextId);
      }
      nextId := nextId + 1;
    }
  }

  /** A user created with a password can log in with it: the stored row verifies. */
  lemma CreatedUserVerifies(sha256: Sha256Hex, u: User, password: string, randomBytes: seq<bv8>)
    requires |randomBytes| == 6
    requires u.salt == Salt(randomBytes) && u.password == HashPassword(sha256, password, Salt(randomBytes))
    ensures VerifyPassword(sha256, password, u.salt, u.password)
  {
  }
}

=== FILE: validation.dfy ===
/** The request-field validators (server/utils/validation.js).  Each takes whatever value the
    body or query held; the answer is the truthiness of the JavaScript expression. */
module Validation {
  import Js

  const ValidRanges: seq<string> := ["1w", "1m", "1y", "3y"]
  const ValidModels: seq<string> := ["model1", "model2", "model3"]

  /** `isValidSymbol`: a string that is not blank after trimming. */
  function IsValidSymbol(v: Js.Value): (ok: bool)
    ensures ok <==> v.Str? && exists i :: 0 <= i < |v.s| && !Js.IsWhitespace(v.s[i])
  {
    Js.Truthy(v) && v.Str? && |Js.Trim(v.s)| > 0
  }

  /** `isValidRange`: `Array.prototype.includes` over the four ranges. */
  function IsValidRange(v: Js.Value): (ok: bool)
    ensures ok <==> v == Js.Str("1w") || v == Js.Str("1m") || v == Js.Str("1y") || v == Js.Str("3y")
  {
    v.Str? && v.s in ValidRanges
  }

  /** `isValidModel`: `Array.prototype.includes` over the three selectors. */
  function IsValidModel(v: Js.Value): (ok: bool)
    ensures ok <==> v == Js.Str("model1") || v == Js.Str("model2") || v == Js.Str("model3")
  {
    v.Str? && v.s in ValidModels
  }

  /** `isValidUsername`: a string of at least three UTF-16 code units. */
  function IsValidUsername(v: Js.Value): (ok: bool)
    ensures ok <==> v.Str? && Js.Utf16Length(v.s) >= 3
    ensures v.Str? && |v.s| >= 3 ==> ok
  {
    Js.Truthy(v) && v.Str? && Js.Utf16Length(v.s) >= 3
  }

  /** `isValidPassword`: a string of at least six UTF-16 code units. */
  function IsValidPassword(v: Js.Value): (ok: bool)
    ensures ok <==> v.Str? && Js.Utf16Length(v.s) >= 6
    ensures v.Str? && |v.s| >= 6 ==> ok
  {
    Js.Truthy(v) && v.Str? && Js.Utf16Length(v.s) >= 6
  }

  /** A letter and an emoji make a three-unit username, and four letters and an emoji a
      six-unit password: the emoji counts twice. */
  lemma AstralCharactersCountTwice()
    ensures IsValidUsername(Js.Str("a\U{1F600}"))
    ensures IsValidPassword(Js.Str("abcd\U{1F600}"))
    ensures !IsValidUsername(Js.Str("ab"))
  {
    assert "a\U{1F600}"[..1] == "a";
    assert "abcd\U{1F600}"[..4] == "abcd";
  }

  /** `isValidNote`: any string, the empty one included. */
  function IsValidNote(v: Js.Value): (ok: bool)
    ensures ok <==> exists s :: v == Js.Str(s)
  {
    v.Str?
  }

  /** A character of the class `[^\s@]`. */
  predicate EmailChar(c: char) {
    !Js.IsWhitespace(c) && c != '@'
  }

  /** `[^\s@]+`: a non-empty run of such characters. */
  predicate EmailRun(s: string) {
    s != [] && forall k :: 0 <= k < |s| ==> EmailChar(s[k])
  }

  /** The language of `^[^\s@]+@[^\s@]+\.[^\s@]+$`: a run, `@`, a run, a dot, a run.  The middle
      run may itself contain dots; any dot with runs on both sides serves. */
  predicate MatchesEmail(s: string) {
    exists i, j :: 0 <= i < j < |s| && s[i] == '@' && s[j] == '.' &&
      EmailRun(s[..i]) && EmailRun(s[i + 1..j]) && EmailRun(s[j + 1..])
  }

  /** `isValidEmail`: a truthy value whose text matches the pattern. */
  function IsValidEmail(v: Js.Value): (ok: bool)
    ensures ok ==> v.Str? && |v.s| >= 5
    ensures ok <==> v.Str? && MatchesEmail(v.s)
  {
    if Js.Truthy(v) && v.Str? && MatchesEmail(v.s) then
      var i, j :| 0 <= i < j < |v.s| && v.s[i] == '@' && v.s[j] == '.' &&
        EmailRun(v.s[..i]) && EmailRun(v.s[i + 1..j]) && EmailRun(v.s[j + 1..]);
      assert |v.s[..i]| >= 1 && |v.s[i + 1..j]| >= 1 && |v.s[j + 1..]| >= 1;
      true
    else
      false
  }

  /** Every address assembled from three runs matches. */
  lemma EmailFromParts(local: string, domain: string, tld: string)
    requires EmailRun(local) && EmailRun(domain) && EmailRun(tld)
    ensures MatchesEmail(local + "@" + domain + "." + tld)
  {
    var s := local + "@" + domain + "." + tld;
    var i, j := |local|, |local| + 1 + |domain|;
    assert s[..i] == local;
    assert s[i + 1..j] == domain;
    assert s[j + 1..] == tld;
    assert s[i] == '@' && s[j] == '.';
  }

  /** A matching address has no white space and exactly one `@`, which is neither first nor last. */
  lemma EmailHasOneAt(s: string)
    requires MatchesEmail(s)
    ensures forall k :: 0 <= k < |s| ==> !Js.IsWhitespace(s[k])
    ensures exists i :: 0 < i < |s| - 1 && s[i] == '@' && forall k :: 0 <= k < |s| && s[k] == '@' ==> k == i
  {
    var i, j :| 0 <= i < j < |s| && s[i] == '@' && s[j] == '.' &&
      EmailRun(s[..i]) && EmailRun(s[i + 1..j]) && EmailRun(s[j + 1..]);
    RunsAroundAt(s, i, j);
    AtIsNotWhitespace();
    assert 0 < i < |s| - 1;
  }

  /** Outside the `@` at `i`, every character of a matching address belongs to a run. */
  lemma RunsAroundAt(s: string, i: nat, j: nat)
    requires i < j < |s| && s[j] == '.'
    requires EmailRun(s[..i]) && EmailRun(s[i + 1..j]) && EmailRun(s[j + 1..])
    ensures forall k :: 0 <= k < |s| && k != i ==> EmailChar(s[k])
  {
    forall k | 0 <= k < |s| && k != i
      ensures EmailChar(s[k])
    {
      if k < i {
        assert s[k] == s[..i][k];
      } else if k < j {
        assert s[k] == s[i + 1..j][k - i - 1];
      } else if k > j {
        assert s[k] == s[j + 1..][k - j - 1];
      }
    }
  }

  lemma AtIsNotWhitespace()
    ensures !Js.IsWhitespace('@')
  {
  }

  /** A plain address passes. */
  lemma PlainAddressAccepted()
    ensures IsValidEmail(Js.Str("taro@example.com"))
  {
    var s := "taro@example.com";
    assert s[..4] == "taro" && s[5..12] == "example" && s[13..] == "com";
    LowerRun(s[..4]);
    LowerRun(s[5..12]);
    LowerRun(s[13..]);
    assert s[4] == '@' && s[12] == '.';
  }

  /** A non-empty run of lower-case ASCII letters is a run of the pattern. */
  lemma LowerRun(s: string)
    requires s != [] && forall k :: 0 <= k < |s| ==> 'a' <= s[k] <= 'z'
    ensures EmailRun(s)
  {
    forall k | 0 <= k < |s|
      ensures EmailChar(s[k])
    {
      LowerIsEmailChar(s[k]);
    }
  }

  lemma LowerIsEmailChar(c: char)
    requires 'a' <= c <= 'z'
    ensures EmailChar(c)
  {
  }

  /** An address without a dot after the `@` fails. */
  lemma MissingDotRejected()
    ensures !IsValidEmail(Js.Str("taro@example"))
  {
    var s := "taro@example";
    assert forall k :: 0 <= k < |s| ==> s[k] != '.';
  }

  /** An address with a space fails. */
  lemma SpaceRejected()
    ensures !IsValidEmail(Js.Str("taro yamada@example.com"))
  {
    var s := "taro yamada@example.com";
    assert Js.IsWhitespace(s[4]);
    if MatchesEmail(s) {
      EmailHasOneAt(s);
    }
  }

  /** An address with two `@` fails. */
  lemma DoubledAtRejected()
    ensures !IsValidEmail(Js.Str("taro@@example.com"))
  {
    var s := "taro@@example.com";
    assert s[4] == '@' && s[5] == '@';
    if MatchesEmail(s) {
      EmailHasOneAt(s);
    }
  }
}

=== FILE: wrappers.dfy ===
/** Option and Result: `undefined`/`null` returns and thrown errors of the modelled code. */
module Wrappers {

  /** `None` stands for JavaScript's `undefined`/`null` (or Python's `None`). */
  datatype Option<+T> = None | Some(value: T) {

    /** The wrapped value, or `default` when absent. */
    function GetOr(default: T): T {
      match this
      case Some(v) => v
      case None => default
    }
  }

  /** `Err` stands for a thrown error; `message` is the error's message text. */
  datatype Result<+T> = Ok(value: T) | Err(message: string)
}

/** The status-and-payload shape of an Express or Flask response. */
module Http {

  /** `Success` is a response without an error key (`res.json(...)`, `res.sendStatus(...)`),
      `Failure` one whose body carries an error or `success: false`. */
  datatype Reply<+T> = Success(status: nat, data: T) | Failure(status: nat)
}

=== FILE: yahoo_finance.dfy ===
/** The quote service (server/services/YahooFinanceService.js): the sector mapping for Tokyo
    listings, the stock record built from a quote, and the loops that store fetched quotes.
    Every call to the quote provider is a parameter: a quote that could not be fetched is
    `None`. */
module YahooFinance {
  import opened Wrappers
  import opened Schema
  import Js
  import Seqs
  import StockModel
  import PortfolioModel
  import FavoriteModel

  const Other: string := "Other"

  /** The symbols used when the symbol files cannot be read: thirty US listings, then thirty
      Tokyo listings (one of which, 6954.T, appears twice). */
  const FallbackSymbols: seq<string> := [
    "AAPL", "MSFT", "GOOGL", "AMZN", "TSLA", "META", "NVDA", "NFLX", "ADBE", "CRM",
    "JPM", "JNJ", "PG", "UNH", "HD", "MA", "V", "PYPL", "BAC", "WMT",
    "DIS", "NKE", "KO", "PEP", "ABT", "TMO", "AVGO", "COST", "MRK", "PFE",
    "7203.T", "6758.T", "9984.T", "6861.T", "7974.T", "6954.T", "8306.T", "9433.T", "9432.T", "4502.T",
    "6501.T", "7267.T", "7751.T", "8766.T", "8411.T", "9020.T", "9022.T", "9434.T", "9435.T", "9437.T",
    "9501.T", "9502.T", "9503.T", "9531.T", "9532.T", "9602.T", "9613.T", "9983.T", "6752.T", "6954.T"
  ]

  /** `loadStockSymbols()`: the US symbols followed by the Tokyo symbols when both files were
      read (`files` holds their symbol lists), the fallback list otherwise. */
  function LoadStockSymbols(files: Option<(seq<string>, seq<string>)>): (r: seq<string>)
    ensures files.Some? ==> |r| == |files.value.0| + |files.value.1|
    ensures files.Some? ==> forall i :: 0 <= i < |files.value.0| ==> r[i] == files.value.0[i]
    ensures files.Some? ==> forall i :: 0 <= i < |files.value.1| ==> r[|files.value.0| + i] == files.value.1[i]
    ensures files.None? ==> r == FallbackSymbols && |r| == 60
  {
    if files.Some? then files.value.0 + files.value.1 else FallbackSymbols
  }

  /** The sector table for Tokyo listings; repeated keys of the literal collapse to one entry
      with the same value. */
  const SectorMap: map<string, string> := map[
    "Technology" := "Technology",
    "Consumer Cyclical" := "Consumer Goods",
    "Financial Services" := "Financial Services",
    "Healthcare" := "Healthcare",
    "Industrials" := "Industrials",
    "Consumer Defensive" := "Consumer Goods",
    "Communication Services" := "Communication Services",
    "Energy" := "Energy",
    "Basic Materials" := "Basic Materials",
    "Real Estate" := "Real Estate",
    "Utilities" := "Utilities",
    "Consumer Discretionary" := "Consumer Goods",
    "Consumer Staples" := "Consumer Goods",
    "Financial" := "Financial Services",
    "Materials" := "Basic Materials",
    "Telecommunication Services" := "Communication Services"
  ]

  /** Every category the mapping can produce. */
  const Categories: set<string> := {
    "Technology", "Consumer Goods", "Financial Services", "Healthcare", "Industrials",
    "Communication Services", "Energy", "Basic Materials", "Real Estate", "Utilities", Other
  }

  /** `getJapaneseSector` with an own-property lookup: the listed category, else "Other". */
  function JapaneseSector(sector: string): (r: string)
    ensures r in Categories
    ensures sector in SectorMap ==> r == SectorMap[sector]
    ensures sector !in SectorMap ==> r == Other
  {
    if sector in SectorMap then SectorMap[sector] else Other
  }

  /** What `sectorMap[sector] || 'Other'` evaluates to as written: a category, or, for a name
      of `Object.prototype`, the inherited member itself (a function, which is truthy). */
  datatype SectorValue = Category(name: string) | PrototypeMember(member: string)

  function JapaneseSectorAsWritten(sector: string): (r: SectorValue)
    ensures sector !in Js.ObjectPrototypeKeys ==> r == Category(JapaneseSector(sector))
  {
    match Js.PlainObjectGet(SectorMap, sector)
    case Own(v) => Category(v)
    case Inherited(name) => PrototypeMember(name)
    case Missing => Category(Other)
  }

  /** The discrepancy: a sector named "toString" comes back as a function, not a string. */
  lemma PrototypeSectorAsWritten()
    ensures JapaneseSectorAsWritten("toString") == PrototypeMember("toString")
    ensures JapaneseSector("toString") == Other
  {
    assert "toString" in Js.ObjectPrototypeKeys;
    assert "toString" !in SectorMap;
  }

  /** The fallback list: its last thirty symbols are Tokyo listings, and one of them is listed
      twice. */
  lemma FallbackMarkets()
    ensures forall i :: 30 <= i < 60 ==> IsTokyo(LoadStockSymbols(None)[i])
    ensures FallbackSymbols[35] == FallbackSymbols[59] == "6954.T"
  {
    assert LoadStockSymbols(None) == FallbackSymbols;
    forall i | 30 <= i < 60 ensures IsTokyo(FallbackSymbols[i]) {
      TokyoCode(FallbackSymbols[i]);
    }
  }

  /** A four-character code followed by ".T" is a Tokyo listing. */
  lemma TokyoCode(s: string)
    requires |s| == 6 && s[4] == '.' && s[5] == 'T'
    ensures IsTokyo(s)
  {
    assert s[4..] == ".T";
  }

  /** The listed keys and their categories. */
  lemma SectorExamples()
    ensures JapaneseSector("Consumer Cyclical") == "Consumer Goods"
    ensures JapaneseSector("Consumer Staples") == "Consumer Goods"
    ensures JapaneseSector("Financial") == "Financial Services"
    ensures JapaneseSector("Materials") == "Basic Materials"
    ensures JapaneseSector("Telecommunication Services") == "Communication Services"
    ensures JapaneseSector("") == Other
  {
  }

  /** The mapping is not idempotent: "Consumer Goods" is a category but not a key. */
  lemma SectorNotIdempotent()
    ensures JapaneseSector(JapaneseSector("Consumer Cyclical")) == Other
    ensures JapaneseSector("Consumer Cyclical") != Other
  {
    assert "Consumer Goods" !in SectorMap;
  }

  /** The fields of a quote the service reads; an absent field is `undefined`. */
  datatype YahooQuote = YahooQuote(
    longName: Option<string>, shortName: Option<string>, regularMarketPrice: Option<real>,
    trailingPE: Option<real>, priceToBook: Option<real>, trailingAnnualDividendYield: Option<real>,
    marketCap: Option<real>, volume: Option<real>, regularMarketChange: Option<real>,
    regularMarketChangePercent: Option<real>)

  /** The company profile; `None` when the profile request failed or had no asset profile. */
  datatype AssetProfile = AssetProfile(sector: Option<string>, industry: Option<string>)

  /** `x || 0` on an optional number: the number, or 0 when it is absent or zero. */
  function OrZero(x: Option<real>): (r: real)
    ensures r == x.GetOr(0.0)
    ensures Js.PresentNum(x) ==> r == x.value
  {
    if Js.PresentNum(x) then x.value else 0.0
  }

  /** The sector reported by the profile, "Other" when there is none. */
  function ProfileSector(profile: Option<AssetProfile>): (r: string)
    ensures r != ""
    ensures profile.Some? && Js.Present(profile.value.sector) ==> r == profile.value.sector.value
  {
    if profile.Some? && Js.Present(profile.value.sector) then profile.value.sector.value else Other
  }

  /** A Tokyo listing: the symbol ends in ".T". */
  predicate IsTokyo(symbol: string) {
    Js.EndsWith(symbol, ".T")
  }

  /** `fetchStockData(symbol)` given the provider's answers: nothing when the quote could not be
      fetched or has no price (formatting the missing price throws, and the error is caught);
      otherwise the record, with the country and sector from the symbol's market. */
  function FetchStockData(symbol: string, quote: Option<YahooQuote>, profile: Option<AssetProfile>): (r: Option<StockQuote>)
    ensures r.Some? <==> quote.Some? && quote.value.regularMarketPrice.Some?
    ensures r.Some? ==> r.value.symbol == symbol && r.value.rawPrice == quote.value.regularMarketPrice.value
    ensures r.Some? && IsTokyo(symbol) ==> r.value.country == "Japan" && r.value.sector == JapaneseSector(ProfileSector(profile))
    ensures r.Some? && !IsTokyo(symbol) ==> r.value.country == "US" && r.value.sector == ProfileSector(profile)
    ensures r.Some? ==> r.value.name != "" || symbol == ""
    ensures r.Some? ==> r.value.pe == quote.value.trailingPE.GetOr(0.0) && r.value.pb == quote.value.priceToBook.GetOr(0.0)
    ensures r.Some? ==> r.value.marketCap == quote.value.marketCap.GetOr(0.0) && r.value.volume == quote.value.volume.GetOr(0.0)
    ensures r.Some? ==> r.value.change == quote.value.regularMarketChange.GetOr(0.0)
    ensures r.Some? ==> r.value.changePercent == quote.value.regularMarketChangePercent.GetOr(0.0)
    ensures r.Some? ==> r.value.dividendYield == quote.value.trailingAnnualDividendYield.GetOr(0.0) * 100.0
  {
    if quote.None? || quote.value.regularMarketPrice.None? then None
    else
      var q := quote.value;
      var tokyo := IsTokyo(symbol);
      var country := if tokyo then "Japan" else "US";
      var sector := if tokyo then JapaneseSector(ProfileSector(profile)) else ProfileSector(profile);
      var name := if Js.Present(q.longName) then q.longName.value
        else if Js.Present(q.shortName) then q.shortName.value else symbol;
      var dividendYield := if Js.PresentNum(q.trailingAnnualDividendYield) then q.trailingAnnualDividendYield.value * 100.0 else 0.0;
      Some(StockQuote(symbol, name, country, sector, q.regularMarketPrice.value,
        OrZero(q.trailingPE), OrZero(q.priceToBook), dividendYield, OrZero(q.marketCap), OrZero(q.volume),
        OrZero(q.regularMarketChange), OrZero(q.regularMarketChangePercent)))
  }

  /** The present values of `s`, in order. */
  function Somes<T>(s: seq<Option<T>>): (r: seq<T>)
    ensures |r| <= |s|
  {
    if s == [] then []
    else Somes(s[..|s| - 1]) + (if s[|s| - 1].Some? then [s[|s| - 1].value] else [])
  }

  /** A value is kept exactly when it was present. */
  lemma {:induction false} SomesMembers<T>(s: seq<Option<T>>)
    ensures forall x :: x in Somes(s) <==> Some(x) in s
  {
    if s != [] {
      SomesMembers(s[..|s| - 1]);
      assert s == s[..|s| - 1] + [s[|s| - 1]];
    }
  }

  /** When every value is present, all are kept, in order. */
  lemma {:induction false} SomesOfPresent<T>(s: seq<Option<T>>)
    requires forall i :: 0 <= i < |s| ==> s[i].Some?
    ensures |Somes(s)| == |s|
    ensures forall i :: 0 <= i < |s| ==> Somes(s)[i] == s[i].value
  {
    if s != [] {
      SomesOfPresent(s[..|s| - 1]);
    }
  }

  /** The fetch results for `symbols`, in the order of the symbols. */
  function Fetched(symbols: seq<string>, fetch: string -> Option<StockQuote>): (r: seq<Option<StockQuote>>)
    ensures |r| == |symbols|
    ensures forall i :: 0 <= i < |symbols| ==> r[i] == fetch(symbols[i])
  {
    seq(|symbols|, i requires 0 <= i < |symbols| => fetch(symbols[i]))
  }

  /** The `validResults` loop: keep the fulfilled, non-null results, in input order. */
  method CollectValid(results: seq<Option<StockQuote>>) returns (valid: seq<StockQuote>)
    ensures valid == Somes(results)
  {
    valid := [];
    var i := 0;
    while i < |results|
      invariant 0 <= i <= |results|
      invariant valid == Somes(results[..i])
    {
      assert results[..i + 1][..i] == results[..i];
      if results[i].Some? {
        valid := valid + [results[i].value];
      }
      i := i + 1;
    }
    assert results[..i] == results;
  }

  /** The symbols a list of records carries. */
  function QuoteSymbols(qs: seq<StockQuote>): set<string> {
    set q | q in qs :: q.symbol
  }

  /** The symbols a list of rows carries. */
  function RowSymbols(rows: seq<StockRow>): set<string> {
    set r | r in rows :: r.symbol
  }

  /** `updateSelectedStocks(symbols)`: fetch each symbol, keep the valid records, upsert each in
      turn with the time `now`, and answer the stored rows in the same order. */
  method UpdateSelectedStocks(t: StockModel.StockTable, symbols: seq<string>, fetch: string -> Option<StockQuote>, now: int)
    returns (updated: seq<StockRow>)
    requires t.Valid()
    modifies t
    ensures t.Valid()
    ensures |updated| == |Somes(Fetched(symbols, fetch))|
    ensures forall k :: 0 <= k < |updated| ==> StockModel.CarriesQuote(updated[k], Somes(Fetched(symbols, fetch))[k], now)
    ensures QuoteSymbols(Somes(Fetched(symbols, fetch))) <= RowSymbols(t.rows)
    ensures forall r :: r in old(t.rows) && r.symbol !in QuoteSymbols(Somes(Fetched(symbols, fetch))) ==> r in t.rows
    ensures forall r :: r in t.rows ==> r in old(t.rows) || r.symbol in QuoteSymbols(Somes(Fetched(symbols, fetch)))
    ensures LastRowsHeld(t.rows, updated, Somes(Fetched(symbols, fetch)))
  {
    var valid := CollectValid(Fetched(symbols, fetch));
    updated := StoreAll(t, valid, now);
  }

  /** The upsert loop of `updateSelectedStocks`: each record in turn, answering the stored rows. */
  method StoreAll(t: StockModel.StockTable, valid: seq<StockQuote>, now: int) returns (updated: seq<StockRow>)
    requires t.Valid()
    modifies t
    ensures t.Valid()
    ensures |updated| == |valid|
    ensures forall k :: 0 <= k < |updated| ==> StockModel.CarriesQuote(updated[k], valid[k], now)
    ensures QuoteSymbols(valid) <= RowSymbols(t.rows)
    ensures Kept(old(t.rows), t.rows, QuoteSymbols(valid)) && OnlyWritten(old(t.rows), t.rows, QuoteSymbols(valid))
    ensures LastRowsHeld(t.rows, updated, valid)
  {
    updated := [];
    var i := 0;
    while i < |valid|
      invariant 0 <= i <= |valid| && t.Valid()
      invariant |updated| == i
      invariant forall k :: 0 <= k < i ==> StockModel.CarriesQuote(updated[k], valid[k], now)
      invariant QuoteSymbols(valid[..i]) <= RowSymbols(t.rows)
      invariant Kept(old(t.rows), t.rows, QuoteSymbols(valid[..i]))
      invariant OnlyWritten(old(t.rows), t.rows, QuoteSymbols(valid[..i]))
      invariant HeldUpTo(t.rows, updated, valid, i)
    {
      ghost var before := t.rows;
      var row := t.Upsert(valid[i], now);
      HeldStep(before, t.rows, row, updated, valid, i);
      CarriesSnoc(updated, valid, row, now);
      updated := updated + [row];
      QuoteSymbolsSnoc(valid, i);
      UpsertSymbols(old(t.rows), before, t.rows, row, valid[i], QuoteSymbols(valid[..i]));
      i := i + 1;
    }
    assert valid[..i] == valid;
  }

  /** Record `k` is the last one of its symbol among the first `n` records. */
  predicate LastWrite(qs: seq<StockQuote>, n: nat, k: nat) {
    k < n <= |qs| && forall j :: k < j < n ==> qs[j].symbol != qs[k].symbol
  }

  /** `row` is in `rows`, and no other row there has its symbol. */
  predicate SoleRow(rows: seq<StockRow>, row: StockRow) {
    row in rows && forall r :: r in rows && r.symbol == row.symbol ==> r == row
  }

  /** After the first `n` upserts, the row answered for the last record of each symbol is the
      table's only row of that symbol. */
  predicate HeldUpTo(rows: seq<StockRow>, updated: seq<StockRow>, qs: seq<StockQuote>, n: nat) {
    forall k :: 0 <= k < |updated| && LastWrite(qs, n, k) ==> SoleRow(rows, updated[k])
  }

  /** `HeldUpTo` once every record has been written. */
  predicate LastRowsHeld(rows: seq<StockRow>, updated: seq<StockRow>, qs: seq<StockQuote>) {
    HeldUpTo(rows, updated, qs, |qs|)
  }

  /** One more upsert keeps `HeldUpTo`: the new row is its symbol's only row, and every other
      symbol's last row is untouched. */
  lemma HeldStep(before: seq<StockRow>, after: seq<StockRow>, row: StockRow, updated: seq<StockRow>,
    qs: seq<StockQuote>, i: nat)
    requires i < |qs| && |updated| == i && row.symbol == qs[i].symbol
    requires forall k :: 0 <= k < i ==> StockModel.CarriesQuote(updated[k], qs[k], updated[k].lastUpdated)
    requires forall r :: r in after <==> r == row || (r in before && r.symbol != qs[i].symbol)
    requires HeldUpTo(before, updated, qs, i)
    ensures HeldUpTo(after, updated + [row], qs, i + 1)
  {
    var u := updated + [row];
    forall k | 0 <= k < |u| && LastWrite(qs, i + 1, k)
      ensures SoleRow(after, u[k])
    {
      if k < i {
        assert u[k] == updated[k];
        assert qs[i].symbol != qs[k].symbol;
        assert LastWrite(qs, i, k);
        assert updated[k].symbol == qs[k].symbol;
      }
    }
  }

  /** Every symbol of a list of records has a last record. */
  lemma {:induction false} LastIndexOf(qs: seq<StockQuote>, j: nat)
    requires j < |qs|
    ensures exists k :: 0 <= k < |qs| && LastWrite(qs, |qs|, k) && qs[k].symbol == qs[j].symbol
    decreases |qs| - j
  {
    if !LastWrite(qs, |qs|, j) {
      var j' :| j < j' < |qs| && qs[j'].symbol == qs[j].symbol;
      LastIndexOf(qs, j');
    }
  }

  /** A table holds exactly the last record of each symbol of `qs`, each as the only row of its
      symbol. */
  predicate TableOf(rows: seq<StockRow>, qs: seq<StockQuote>, at: int) {
    && (forall k :: 0 <= k < |qs| && LastWrite(qs, |qs|, k) ==>
          exists row :: row in rows && SoleRow(rows, row) && StockModel.CarriesQuote(row, qs[k], at))
    && (forall row :: row in rows ==>
          exists k :: 0 <= k < |qs| && LastWrite(qs, |qs|, k) && StockModel.CarriesQuote(row, qs[k], at))
  }

  /** Writing every record into an empty table leaves exactly `TableOf` the records. */
  lemma FreshTable(rows: seq<StockRow>, updated: seq<StockRow>, qs: seq<StockQuote>, at: int)
    requires |updated| == |qs|
    requires forall k :: 0 <= k < |qs| ==> StockModel.CarriesQuote(updated[k], qs[k], at)
    requires OnlyWritten([], rows, QuoteSymbols(qs))
    requires LastRowsHeld(rows, updated, qs)
    ensures TableOf(rows, qs, at)
  {
    forall k | 0 <= k < |qs| && LastWrite(qs, |qs|, k)
      ensures exists row :: row in rows && SoleRow(rows, row) && StockModel.CarriesQuote(row, qs[k], at)
    {
      assert SoleRow(rows, updated[k]);
    }
    forall row | row in rows
      ensures exists k :: 0 <= k < |qs| && LastWrite(qs, |qs|, k) && StockModel.CarriesQuote(row, qs[k], at)
    {
      var k := LastRowOf(rows, updated, qs, at, row);
    }
  }

  /** The record a row of a freshly written table comes from. */
  lemma LastRowOf(rows: seq<StockRow>, updated: seq<StockRow>, qs: seq<StockQuote>, at: int, row: StockRow)
    returns (k: nat)
    requires |updated| == |qs|
    requires forall k :: 0 <= k < |qs| ==> StockModel.CarriesQuote(updated[k], qs[k], at)
    requires row in rows && row.symbol in QuoteSymbols(qs)
    requires LastRowsHeld(rows, updated, qs)
    ensures k < |qs| && LastWrite(qs, |qs|, k) && row == updated[k]
  {
    var q :| q in qs && q.symbol == row.symbol;
    var j :| 0 <= j < |qs| && qs[j] == q;
    LastIndexOf(qs, j);
    k :| 0 <= k < |qs| && LastWrite(qs, |qs|, k) && qs[k].symbol == row.symbol;
    assert SoleRow(rows, updated[k]);
  }

  /** Every row of `orig` whose symbol was not written is still in `rows`. */
  predicate Kept(orig: seq<StockRow>, rows: seq<StockRow>, written: set<string>) {
    forall r :: r in orig && r.symbol !in written ==> r in rows
  }

  /** Every row of `rows` was in `orig` or carries a symbol that was written. */
  predicate OnlyWritten(orig: seq<StockRow>, rows: seq<StockRow>, written: set<string>) {
    forall r :: r in rows ==> r in orig || r.symbol in written
  }

  /** One upsert of `q` after the symbols `written`: the table gains `q`'s symbol, loses only
      rows of symbols written, and keeps every other row of the original table `orig`. */
  lemma UpsertSymbols(orig: seq<StockRow>, before: seq<StockRow>, after: seq<StockRow>, row: StockRow,
    q: StockQuote, written: set<string>)
    requires row.symbol == q.symbol
    requires forall r :: r in after <==> r == row || (r in before && r.symbol != q.symbol)
    requires written <= RowSymbols(before)
    requires Kept(orig, before, written) && OnlyWritten(orig, before, written)
    ensures written + {q.symbol} <= RowSymbols(after)
    ensures Kept(orig, after, written + {q.symbol}) && OnlyWritten(orig, after, written + {q.symbol})
  {
    assert row in after;
    forall x | x in RowSymbols(before) ensures x in RowSymbols(after) {
      var r :| r in before && r.symbol == x;
      if x != q.symbol {
        assert r in after;
      }
    }
  }

  /** A stored row that carries the next record extends the rows that carry the records. */
  lemma CarriesSnoc(rows: seq<StockRow>, qs: seq<StockQuote>, row: StockRow, at: int)
    requires |rows| < |qs| && StockModel.CarriesQuote(row, qs[|rows|], at)
    requires forall k :: 0 <= k < |rows| ==> StockModel.CarriesQuote(rows[k], qs[k], at)
    ensures forall k :: 0 <= k < |rows| + 1 ==> StockModel.CarriesQuote((rows + [row])[k], qs[k], at)
  {
    forall k | 0 <= k < |rows| + 1
      ensures StockModel.CarriesQuote((rows + [row])[k], qs[k], at)
    {
      if k < |rows| {
        assert (rows + [row])[k] == rows[k];
      }
    }
  }

  /** The symbols of one more record. */
  lemma QuoteSymbolsSnoc(qs: seq<StockQuote>, i: nat)
    requires i < |qs|
    ensures QuoteSymbols(qs[..i + 1]) == QuoteSymbols(qs[..i]) + {qs[i].symbol}
  {
    assert qs[..i + 1] == qs[..i] + [qs[i]];
  }

  /** A stock as the list endpoints send it from the table: a zero or missing return or
      volatility reads null. */
  datatype ApiStock = ApiStock(
    symbol: string, name: string, country: string, sector: string, rawPrice: real,
    pe: Option<real>, pb: Option<real>, dividendYield: Option<real>, marketCap: Option<real>,
    volume: Option<real>, change: Option<real>, changePercent: Option<real>, lastUpdated: int,
    annualReturn: Option<real>, volatility: Option<real>)

  function ToApi(row: StockRow): (a: ApiStock)
    ensures a.symbol == row.symbol && a.rawPrice == row.rawPrice && a.pe == row.pe
    ensures a.name == row.name && a.country == row.country && a.sector == row.sector
    ensures a.pb == row.pb && a.dividendYield == row.dividendYield && a.marketCap == row.marketCap
    ensures a.volume == row.volume && a.change == row.change && a.changePercent == row.changePercent
    ensures a.lastUpdated == row.lastUpdated
    ensures a.annualReturn.Some? <==> Js.PresentNum(row.annualReturn)
    ensures a.volatility.Some? <==> Js.PresentNum(row.volatility)
    ensures a.annualReturn.Some? ==> a.annualReturn == row.annualReturn
    ensures a.volatility.Some? ==> a.volatility == row.volatility
  {
    ApiStock(row.symbol, row.name, row.country, row.sector, row.rawPrice, row.pe, row.pb, row.dividendYield,
      row.marketCap, row.volume, row.change, row.changePercent, row.lastUpdated,
      Js.NumOrNull(row.annualReturn), Js.NumOrNull(row.volatility))
  }

  function MapToApi(rows: seq<StockRow>): (r: seq<ApiStock>)
    ensures |r| == |rows|
    ensures forall i :: 0 <= i < |rows| ==> r[i] == ToApi(rows[i])
  {
    seq(|rows|, i requires 0 <= i < |rows| => ToApi(rows[i]))
  }

  /** The two answers of `fetchMultipleStockData`: freshly fetched records when the table was
      empty, the table's rows otherwise. */
  datatype StockList = FetchedList(quotes: seq<StockQuote>) | StoredList(stocks: seq<ApiStock>)

  /** `fetchMultipleStockData()`: from the table when it has rows; otherwise fetch every known
      symbol, store the valid records, and answer them. */
  method FetchMultipleStockData(t: StockModel.StockTable, knownSymbols: seq<string>, fetch: string -> Option<StockQuote>, now: int)
    returns (r: StockList)
    requires t.Valid()
    modifies t
    ensures t.Valid()
    ensures old(t.rows) != [] ==> r == StoredList(MapToApi(old(t.rows))) && t.rows == old(t.rows)
    ensures old(t.rows) == [] ==> r == FetchedList(Somes(Fetched(knownSymbols, fetch)))
    ensures old(t.rows) == [] ==> TableOf(t.rows, r.quotes, now)
  {
    if t.rows != [] {
      return StoredList(MapToApi(t.rows));
    }
    var updated := UpdateSelectedStocks(t, knownSymbols, fetch, now);
    FreshTable(t.rows, updated, Somes(Fetched(knownSymbols, fetch)), now);
    return FetchedList(Somes(Fetched(knownSymbols, fetch)));
  }

  /** `fetchFilteredStockData(f)`: the filtered rows in the list format. */
  function FetchFilteredStockData(t: StockModel.StockTable, f: StockModel.Filters): (r: seq<ApiStock>)
    requires t.Valid()
    reads t
    ensures r == MapToApi(t.GetFiltered(f))
    ensures |r| == |t.GetFiltered(f)|
    ensures forall k :: 0 <= k < |r| ==> exists row :: row in t.rows && StockModel.Matches(f, row) && r[k] == ToApi(row)
  {
    var rows := t.GetFiltered(f);
    assert forall k :: 0 <= k < |rows| ==> rows[k] in t.rows && StockModel.Matches(f, rows[k]) by {
      Seqs.FilterIsSubseq(t.rows, (row: StockRow) => StockModel.Matches(f, row));
    }
    MapToApi(rows)
  }

  /** `resetAndReloadStocks()`: empty the table (and, by cascade, the holdings and favourites),
      then store every known symbol afresh. */
  method ResetAndReload(t: StockModel.StockTable, portfolio: PortfolioModel.PortfolioTable, favorites: FavoriteModel.FavoriteTable,
    knownSymbols: seq<string>, fetch: string -> Option<StockQuote>, now: int)
    returns (updated: seq<StockRow>)
    requires portfolio.Valid() && favorites.Valid()
    modifies t, portfolio, favorites
    ensures t.Valid() && portfolio.holdings == map[] && favorites.favorites == map[]
    ensures |updated| == |Somes(Fetched(knownSymbols, fetch))|
    ensures forall k :: 0 <= k < |updated| ==> StockModel.CarriesQuote(updated[k], Somes(Fetched(knownSymbols, fetch))[k], now)
    ensures TableOf(t.rows, Somes(Fetched(knownSymbols, fetch)), now)
  {
    var _ := t.ClearAll(portfolio, favorites);
    updated := UpdateSelectedStocks(t, knownSymbols, fetch, now);
    FreshTable(t.rows, updated, Somes(Fetched(knownSymbols, fetch)), now);
  }
}
